=== FILE: README.md ===
# Schwab trading bot core, modelled in Dafny

This project models the decision logic of a rule-based equity and options
trading bot that talks to the Charles Schwab broker API. The model covers:

- the **risk manager**: the daily circuit breaker, position sizing, stop and
  target levels, tiered exits, the trailing-stop ratchet, the martingale
  multiplier and the risk metrics;
- the **order builder**: equity, option, bracket, trailing-stop and spread
  payloads, the OCC option symbol and the payload validator;
- the **market scanner's** ranking over its quote cache: filters, score,
  ranked symbols, top movers, high-volume symbols, criteria filter and
  summary statistics;
- the **equity strategies** (MomentumScalper, TrendFollower,
  VolatilityBreakout) and the **options strategies** (OptionsScalper,
  CreditSpread, IronCondor), with their win/loss bookkeeping;
- the **configuration** defaults, validator and risk-profile table;
- the **trading engine's** state transitions: the strategy roster, the
  start and stop guards, one pass of the market monitor (gate, scan, execute;
  the scan as written and, alongside it, a corrected scan)
  and one pass of the position monitor (exit checks, close, trailing stop).

Prices and amounts are exact `real`s. Python truthiness of optional numbers
is the `Truthy` predicate: `None` and `0.0` are both falsy. Python exceptions
that some input can trigger are the `Err` side of a `Result`. The mutable
attributes of the risk manager and of the engine are explicit state records
that every operation takes and returns.

Files, one module each: `basics.dfy`, `sorting.dfy` (the stable descending
sort Python's `sort(reverse=True)` performs), `config.dfy`,
`risk_manager.dfy`, `order_builder.dfy`, `market_scanner.dfy`,
`strategies.dfy`, `options_strategies.dfy`, `trading_engine.dfy`.

### Where the documented behaviour and the code differ

The model follows the code in each case:

- `can_trade` refuses only on a daily PnL strictly below the negative loss
  limit, so a loss of exactly the limit still trades
  (core/risk_manager.py:90).
- `update_trailing_stop` returns the stored stop on every activated call,
  not only when it moved (core/risk_manager.py:360-385).
- The engine's ledger insert is an unconditional overwrite of the symbol's
  entry (core/trading_engine.py:396-403). See finding 2.
- The position monitor takes the direction from the broker's net quantity
  and the closing size from the ledger (core/trading_engine.py:265-277,
  443-444). `TradingEngine.MonitorPosition` takes both.
- Every trading mode other than paper, including backtest, takes the live
  branch of `_execute_signal` and `_close_position`.
- `stop` sets a threading event that nothing clears, and both monitor loops
  test it (core/trading_engine.py:165, 182, 258). An engine that is stopped
  and started again reports running but never scans or monitors again.

## Model

| member | source | states |
|---|---|---|
| Config.DefaultTieredExits | config/config.py:110-117 | The default tiers sell fractions summing to exactly 1.0 at strictly increasing positive profit targets. |
| Config.ResolveTieredExits | config/config.py:110-117 | Only a missing tier list is replaced by the defaults; a supplied list (even empty) is kept. |
| Config.ResolveActiveStrategies | config/config.py:167-172 | A missing strategy list defaults to MomentumScalper then TrendFollower; a supplied one is kept. |
| Config.DefaultWatchlist | config/config.py:208-215 | The fallback watchlist has 11 distinct symbols. |
| Config.ResolveWatchlist | config/config.py:208-215 | Only a missing watchlist is replaced by the 11-symbol fallback. |
| Config.DefaultRiskConfig | config/config.py:70-117 | The risk defaults: 10% per position, 50% exposure, martingale off, three tiers. |
| Config.DefaultStrategyConfig | config/config.py:121-172 | The strategy defaults have a non-empty DTE window and an ordered delta range. |
| Config.DefaultDataConfig | config/config.py:176-215 | The data defaults have an 11-symbol watchlist and a valid price window. |
| Config.ValidationErrors | config/config.py:244-262 | Each of the five errors is reported exactly when its condition holds. |
| Config.Validate | config/config.py:244-268 | Validation fails iff a credential is empty or a risk percentage exceeds its bound (25%, 100%). |
| Config.ParametersForProfile | config/config.py:270-298 | Every profile stays within the validator's bounds, has a stop below its target, and only AGGRESSIVE enables martingale. |
| Config.UnknownProfileIsModerate | config/config.py:298 | An unrecognised profile gets the MODERATE row. |
| Config.ProfilesAreOrdered | config/config.py:272-296 | Every numeric limit grows from conservative to moderate to aggressive. |
| Config.ProfilesPassValidation | config/config.py:244-296 | Every profile's position and exposure limits pass the validator in a configuration with credentials, and so do the dataclass defaults. |
| Config.ValidationBoundsAreInclusive | config/config.py:258-262 | Exactly 25% and 100% are accepted; anything above is rejected. |
| RiskManager.InitialState | core/risk_manager.py:51-66 | A new risk manager has zero daily PnL and trades and empty stop and loss maps. |
| RiskManager.ResetDailyStats | core/risk_manager.py:70-77 | The daily counters are zeroed only when the day is strictly later; otherwise nothing changes. |
| RiskManager.ResetIsIdempotent | core/risk_manager.py:70-77 | Two rolls on the same day reset at most once. |
| RiskManager.ResetNeverRetroactive | core/risk_manager.py:70-77 | A roll to an earlier day after a later one changes nothing. |
| RiskManager.RecordTrade | core/risk_manager.py:485-488 | A trade adds its PnL to the daily total and exactly one to the count. |
| RiskManager.RecordTradesAccumulate | core/risk_manager.py:485-488 | A run of trades adds the sum of their PnLs and their number. |
| RiskManager.CanTrade | core/risk_manager.py:79-97 | After the roll, trading is refused iff PnL is strictly below minus the loss limit or the trade cap is reached. |
| RiskManager.CanTradeLossBoundary | core/risk_manager.py:89-91 | With 10,000 and 5%, a loss of exactly 500 trades; any larger loss is refused. |
| RiskManager.TradeCapStaysShut | core/risk_manager.py:94-95 | Once the cap is reached on a day, further trades keep the gate shut. |
| RiskManager.SharesFor | core/risk_manager.py:165-171 | No capital buys 0 shares; a zero entry raises; a positive entry buys the largest count whose cost fits. |
| RiskManager.FixedFractionalSize | core/risk_manager.py:147-171 | The capital is the smaller of the per-position share and the remaining exposure. No capital gives 0. With capital, a zero entry raises ZeroDivisionError, a negative entry gives 0, and a positive entry gives `int(capital / entry)`, the largest count whose cost fits. That cost fits both the per-position and the exposure limit. |
| RiskManager.FixedFractionalIgnoresStop | core/risk_manager.py:156-171 | The stop price never affects the fixed-fractional size. |
| RiskManager.FixedFractionalWithinLimit | core/risk_manager.py:147-171 | For a positive entry the fixed-fractional size never raises and its cost stays within the per-position share of the account. |
| RiskManager.KellyFraction | core/risk_manager.py:187-196 | The half-Kelly fraction is capped by the per-position limit and, for a win rate of at most one third, is 0 (or the limit, if that is negative). |
| RiskManager.KellySize | core/risk_manager.py:173-210 | The capital is the Kelly fraction's share, capped by the remaining exposure. No capital gives 0. With capital, a zero entry raises ZeroDivisionError, a negative entry gives 0, and a positive entry gives `int(capital / entry)`. |
| RiskManager.KellyWithinLimit | core/risk_manager.py:173-210 | For a positive entry the Kelly size never raises and its cost stays within the per-position share of the account. |
| RiskManager.SharesMonotone | core/risk_manager.py:165-171 | More capital never buys fewer shares. |
| RiskManager.CapitalMonotone | core/risk_manager.py:156-210 | A larger fraction of a non-negative account never leaves less capital, and the capital never exceeds that fraction of the account. |
| RiskManager.KellyNeverExceedsFixed | core/risk_manager.py:173-210 | Kelly never sizes above fixed-fractional, and sizes 0 for a win rate of at most one third. |
| RiskManager.KellyExample | core/risk_manager.py:187-196 | A 60% win rate gives half-Kelly 0.2, capped to 0.10. |
| RiskManager.PositionSize | core/risk_manager.py:122-145 | Kelly is used iff the method is Kelly and the win rate is truthy; otherwise the fixed fraction. |
| RiskManager.NonKellyWithinLimit | core/risk_manager.py:122-145 | When Kelly is not selected or the win rate is falsy, the size falls back to the fixed fraction and keeps its per-position bound. |
| RiskManager.PositionSizeWithinLimit | core/risk_manager.py:99-224 | Whatever the method, a positive entry never costs more than the per-position share of the account. |
| RiskManager.FixedFractionalExample | core/risk_manager.py:147-171 | 10% of 10,000 at 50 a share buys 20 shares. |
| RiskManager.StopLoss | core/risk_manager.py:245-269 | The stop is ATR-based in dynamic mode with a truthy ATR and the static percentage otherwise. |
| RiskManager.TakeProfit | core/risk_manager.py:290-311 | The target is ATR-based in dynamic mode with a truthy ATR and the static percentage otherwise. |
| RiskManager.TakeProfitMirrorsStopLoss | core/risk_manager.py:245-311 | The target of a position is the stop of the opposite position under the target's settings. |
| RiskManager.DynamicStopWithoutAtrIsStatic | core/risk_manager.py:253-269 | Dynamic mode without a usable ATR gives the static stop. |
| RiskManager.StopLossExamples | core/risk_manager.py:245-261 | A static 2% stop at 100 is 98; a 2-ATR dynamic stop with ATR 2 is 96. |
| RiskManager.LevelsBracketEntry | core/risk_manager.py:245-311 | With positive settings a long has stop < entry < target and a short the reverse. |
| RiskManager.TieredExitLevels | core/risk_manager.py:313-339 | One level per tier, in order, copying the fraction and pricing it at the tier's profit target on the profit side. |
| RiskManager.TieredLevelsKeepFractions | core/risk_manager.py:326-339 | The levels sell exactly the fractions the tiers configure. |
| RiskManager.DefaultTiersLadder | core/risk_manager.py:326-339 | With the default tiers a long sells the whole position at strictly rising prices above the entry. |
| RiskManager.UpdateTrailingStop | core/risk_manager.py:341-387 | Disabled or not activated: None and no change; activated: the stored stop is ratcheted and returned; a zero entry raises. |
| RiskManager.TrailingStopRatchet | core/risk_manager.py:360-385 | A long's stored stop never decreases and a short's never increases. |
| RiskManager.TrailingStopExample | core/risk_manager.py:360-373 | A stored long stop of 98 stays 98 against a lower candidate and follows a higher one. |
| RiskManager.ApplyMartingale | core/risk_manager.py:389-427 | Disabled: base size, nothing changes. Enabled: a loss bumps the symbol's counter, a win resets it, the size is base times 2 to the capped count. |
| RiskManager.MartingaleBounded | core/risk_manager.py:416-423 | The size never exceeds base times 2 to the maximum doublings. |
| RiskManager.LossStreakMultiplier | core/risk_manager.py:406-423 | After n losses from a fresh counter the size is base times 2 to min(n, max doublings). |
| RiskManager.MartingaleSequenceExample | core/risk_manager.py:406-423 | With two doublings, successive losses give 2x, 4x, 4x. |
| RiskManager.CalculatePositionRisk | core/risk_manager.py:429-454 | Value and unrealised PnL follow quantity and price move; the percentage divides by the entry, which raises at 0. |
| RiskManager.LargestPct | core/risk_manager.py:469-471 | The largest-position percentage is at least every position's and is one of them, or 0. |
| RiskManager.AccountRiskAsWritten | core/risk_manager.py:456-483 | As written, the metrics raise iff the account value is 0 and there is a position. |
| RiskManager.AccountRiskZeroAccountRaises | core/risk_manager.py:469-471 | A zero account with one position raises. |
| RiskManager.CalculateAccountRisk | core/risk_manager.py:456-483 | Totals and counts as reported; every percentage is 0 for a non-positive account. |
| RiskManager.AccountRiskAgreesWhenPositive | core/risk_manager.py:456-483 | For a positive account the guarded metrics equal the code's. |
| OrderBuilder.OrderTypeFromWire | core/order_builder.py:11-17 | Parsing an order-type string inverts its wire value. |
| OrderBuilder.DurationFromWire | core/order_builder.py:20-24 | Parsing a duration string inverts its wire value. |
| OrderBuilder.InstructionFromWire | core/order_builder.py:27-36 | Parsing an instruction string inverts its wire value. |
| OrderBuilder.AssetTypeFromWire | core/order_builder.py:39-42 | Parsing an asset-type string inverts its wire value. |
| OrderBuilder.WireRoundTrips | core/order_builder.py:11-42 | Every enumeration value survives the trip to its string and back. |
| OrderBuilder.WithPrices | core/order_builder.py:94-101 | `price` only for LIMIT with a truthy price, or STOP_LIMIT with truthy stop and price; `stopPrice` only for STOP or STOP_LIMIT with a truthy stop. |
| OrderBuilder.BuildEquityOrder | core/order_builder.py:55-103 | A SINGLE order with one EQUITY leg carrying the symbol, quantity and instruction. |
| OrderBuilder.BuildOptionOrder | core/order_builder.py:106-152 | A SINGLE order with one OPTION leg carrying the symbol, quantity and instruction. |
| OrderBuilder.MarketOrdersCarryNoPrice | core/order_builder.py:94-101 | Market orders carry neither price nor stop price. |
| OrderBuilder.BracketInstructions | core/order_builder.py:177-182 | Entry and exit instructions per asset and side (BUY/SELL, SELL_SHORT/BUY_TO_COVER, and the option pairs). |
| OrderBuilder.BracketSidesAreOpposite | core/order_builder.py:177-182 | The exit of a bracket always trades the other way from its entry. |
| OrderBuilder.BuildBracketOrder | core/order_builder.py:155-240 | A TRIGGER LIMIT parent with two GTC children, a STOP then a LIMIT, all on the same symbol, quantity and asset, exiting with the exit instruction. |
| OrderBuilder.BuildTrailingStopOrder | core/order_builder.py:243-288 | Link basis BID, offset the trail value, link type PERCENT iff the trail type is PERCENTAGE. |
| OrderBuilder.SpreadLegs | core/order_builder.py:317-325 | One OPTION leg per input leg, in order. |
| OrderBuilder.BuildOptionSpread | core/order_builder.py:291-330 | The spread carries the legs in order and a price, the absolute net, only for LIMIT with a net. |
| OrderBuilder.Ljust | core/order_builder.py:347 | The root is padded with spaces to at least six characters and never cut. |
| OrderBuilder.OptionSymbol | core/order_builder.py:333-357 | The symbol starts with the underlying and is at least as long as a six-character root, the expiration, the right letter and eight strike digits. |
| OrderBuilder.ParseDigitsOfDigits | core/order_builder.py:354-355 | Reading back the decimal digits of a number gives the number. |
| OrderBuilder.DecodeOptionSymbol | core/order_builder.py:347-357 | A decoded symbol has the 21-character layout and an eight-digit strike. |
| OrderBuilder.OptionSymbolRoundTrip | core/order_builder.py:333-357 | For a short root and a strike below 100,000, decoding the symbol gives back the padded root, expiration, right and strike in thousandths. |
| OrderBuilder.OptionSymbolExample | core/order_builder.py:347-357 | AAPL, 210115, call, 50 gives "AAPL  210115C00050000". |
| OrderBuilder.LegError | core/order_builder.py:381-390 | A leg has an error iff it lacks an instruction, quantity, instrument, symbol or asset type. |
| OrderBuilder.CheckLegs | core/order_builder.py:380-390 | The legs pass iff every leg is complete; otherwise the first incomplete leg's message. |
| OrderBuilder.ValidateOrder | core/order_builder.py:360-392 | Accepts iff the order is well formed, raising the exact message of the first missing field otherwise. |
| OrderBuilder.BuiltOrdersValidate | core/order_builder.py:55-392 | Every equity, option, bracket and trailing order validates, and a spread validates iff it has a leg. |
| OrderBuilder.BracketChildrenValidate | core/order_builder.py:155-240 | Both children of a bracket validate on their own. |
| Sorting.SortDesc | core/market_scanner.py:201-202 | A permutation with keys never increasing in which the elements sharing a key keep their input order, which is the stable `sort(reverse=True)`. |
| MarketScanner.RescanStaysDue | core/market_scanner.py:117-123 | The first call always rescans, and once 300 seconds make a rescan due, any longer wait keeps it due. |
| MarketScanner.VolumeScore | core/market_scanner.py:243-255 | The volume part lies between 10 and 30. |
| MarketScanner.VolatilityScore | core/market_scanner.py:257-273 | The range part raises iff the price is 0 with positive high and low; it is 0 without a range and between 5 and 25 otherwise. |
| MarketScanner.MomentumScore | core/market_scanner.py:275-284 | The momentum part lies between 10 and 25. |
| MarketScanner.SpreadScore | core/market_scanner.py:286-301 | The spread part is 0 for a non-positive bid and between 5 and 20 otherwise. |
| MarketScanner.Score | core/market_scanner.py:229-303 | The score raises exactly when the range part does and otherwise lies in [20, 100]. |
| MarketScanner.ScoreMonotoneInVolume | core/market_scanner.py:243-255 | More volume never lowers the score. |
| MarketScanner.FilteredSpreadScore | core/market_scanner.py:220-225 | A quote passing the spread filter scores at least 10 on spread. |
| MarketScanner.FilteredScoreNeverRaises | core/market_scanner.py:206-303 | A quote passing the filters with a positive minimum price never raises in scoring. |
| MarketScanner.ScoreAll | core/market_scanner.py:185-199 | Raises iff some passing quote's score raises; otherwise every entry is a scored passing quote and every passing quote is scored. |
| MarketScanner.ScoreAllAppend | core/market_scanner.py:185-199 | Scoring a concatenation scores the parts in order: entries keep the cache order, and the first raising stretch aborts. |
| MarketScanner.ScoreAllOne | core/market_scanner.py:187-199 | One quote is skipped when it fails the filters, else it yields one entry with its score, or the score's error. |
| MarketScanner.RankCandidates | core/market_scanner.py:175-204 | The candidates are the scored quotes in non-increasing score order, with equal scores in cache order. |
| MarketScanner.Symbols | core/market_scanner.py:112 | The symbols of the ranked entries, in order. |
| MarketScanner.TradeableSymbols | core/market_scanner.py:94-115 | The symbols of exactly the first `max_symbols` ranked entries (Python slice length, negative counts from the end). |
| MarketScanner.Movers | core/market_scanner.py:317-332 | Every mover comes from a cached quote going the requested way, and every such quote gives a mover. |
| MarketScanner.MoversAppend | core/market_scanner.py:317-332 | Filtering a concatenation filters the parts in order, so movers keep cache order and multiplicity. |
| MarketScanner.MoversOne | core/market_scanner.py:322-332 | One quote becomes its mover exactly when its change goes the requested way. |
| MarketScanner.TopMovers | core/market_scanner.py:309-337 | Exactly the first `count` movers of the stable sort by absolute change, largest first. |
| MarketScanner.TopOfSorted | core/market_scanner.py:334-337 | Exactly the first `count` elements (Python slice length) of the stable descending sort. |
| MarketScanner.TopMoversDirection | core/market_scanner.py:322-325 | With "up" every change is positive; with "down" every change is negative. |
| MarketScanner.VolumeRanking | core/market_scanner.py:341-346 | A permutation of the cache by non-increasing volume, equal volumes in cache order. |
| MarketScanner.HighVolumeSymbols | core/market_scanner.py:339-348 | The symbols of exactly the first `count` quotes of the volume ranking (Python slice length). |
| MarketScanner.HighVolumeOrdered | core/market_scanner.py:339-348 | The returned symbols come from cached quotes of non-increasing volume. |
| MarketScanner.FilterByCriteria | core/market_scanner.py:350-385 | Every symbol comes from a cached quote meeting every truthy bound, change by absolute value, and every such quote contributes its symbol. |
| MarketScanner.FilterByCriteriaAppend | core/market_scanner.py:364-385 | Filtering a concatenation filters the parts in order, so the symbols keep cache order. |
| MarketScanner.FilterByCriteriaOne | core/market_scanner.py:366-383 | One quote contributes its symbol exactly when it meets the criteria. |
| MarketScanner.EmptyCriteriaKeepAll | core/market_scanner.py:364-385 | Bounds that are None or 0 are ignored, so every symbol is kept. |
| MarketScanner.MaxOf | core/market_scanner.py:402 | The maximum bounds every element. |
| MarketScanner.MinOf | core/market_scanner.py:403 | The minimum bounds every element. |
| MarketScanner.ExtremesAttained | core/market_scanner.py:402-403 | The maximum and minimum are elements of the list. |
| MarketScanner.SumAtMostMax | core/market_scanner.py:399-403 | The sum is at most the count times the maximum. |
| MarketScanner.SumAtLeastMin | core/market_scanner.py:399-403 | The sum is at least the count times the minimum. |
| MarketScanner.MeanBetweenExtremes | core/market_scanner.py:399-403 | The average lies between the minimum and the maximum. |
| MarketScanner.Changes | core/market_scanner.py:394 | The change of each cached quote, in order. |
| MarketScanner.Prices | core/market_scanner.py:393 | The price of each cached quote, in order. |
| MarketScanner.Volumes | core/market_scanner.py:392 | The volume of each cached quote, in order. |
| MarketScanner.Mean | core/market_scanner.py:399-401 | The average times the count is the sum, and it lies between the extremes. |
| MarketScanner.Stats | core/market_scanner.py:387-404 | No statistics iff the cache is empty; otherwise the count, averages between extremes, and attained extremes of the change. |
| Strategies.NewStats | strategies/strategies.py:62-76 | A new strategy starts with zero signals, trades and PnL. |
| Strategies.RecordTradeResult | strategies/strategies.py:159-167 | A positive PnL is a win and anything else a loss; trades stay the sum of wins and losses. |
| Strategies.RecordAllCounts | strategies/strategies.py:159-167 | From fresh counters the wins are exactly the positive PnLs and the trades are all of them. |
| Strategies.WinRate | strategies/strategies.py:169-173 | 0 with no trades, the share of wins otherwise, within [0, 1]. |
| Strategies.GetStats | strategies/strategies.py:175-185 | The report's average PnL times the trade count is the total, 0 with no trades; the win rate lies in [0, 1]. |
| Strategies.Emit | strategies/strategies.py:272-276 | The signal counter grows by one exactly when a signal is returned. |
| Strategies.MomentumScalper | strategies/strategies.py:205-276 | None unless the guards pass; LONG iff oversold above EMA21, SHORT iff overbought below it; strength 1.0; stop 1.5 ATR and target 3 ATR away. |
| Strategies.MomentumLevelsBracket | strategies/strategies.py:232-259 | With a positive ATR the stop is on the loss side and the target on the profit side. |
| Strategies.TrendStrength | strategies/strategies.py:326-328 | The strength is the normalised EMA spread, within [0, 1]. |
| Strategies.TrendFollower | strategies/strategies.py:293-380 | A signal only in a strong up- or downtrend whose strength reaches the minimum. The signal's strength is the trend strength; stop at 0.98 or 1.02 of EMA21, target 4 ATR away. |
| Strategies.TrendStrengthSymmetric | strategies/strategies.py:326-354 | The short branch's spread has the same size as the long branch's. |
| Strategies.TrendLevelsBracket | strategies/strategies.py:321-372 | With a positive EMA21 and ATR every signal brackets its entry. |
| Strategies.VolatilityBreakout | strategies/strategies.py:397-474 | With the guards passing, LONG iff the close is above the upper band and SHORT iff below the lower; stop at the band middle, target a multiple of ATR away. |
| Strategies.BreakoutLevelsBracket | strategies/strategies.py:419-460 | With ordered bands and a positive reach every signal brackets its entry. |
| Strategies.Analyze | core/trading_engine.py:232-243 | Each strategy's signal is for the scanned symbol, named after the strategy, entered at the close, and counted. |
| OptionsStrategies.RowListings | strategies/options_strategies.py:105-114 | Each contract of a strike row is listed with its expiration and strike, in order. |
| OptionsStrategies.SuitableOptions | strategies/options_strategies.py:105-144 | Every candidate is a listing passing the DTE, delta, liquidity and value filters, and every such listing gives a candidate. |
| OptionsStrategies.SuitableOptionsAppend | strategies/options_strategies.py:105-143 | Filtering a concatenation filters the parts in order, so candidates keep the visiting order the tie-break relies on. |
| OptionsStrategies.SuitableOptionsOne | strategies/options_strategies.py:113-143 | One listing becomes one candidate exactly when it passes all the filters. |
| OptionsStrategies.FirstClosest | strategies/options_strategies.py:146-148 | The pick has the smallest delta distance from 0.5 and is the first such. |
| OptionsStrategies.FindSuitableOption | strategies/options_strategies.py:89-150 | None iff no contract passes; otherwise the first passing contract closest to delta 0.5. |
| OptionsStrategies.PickedOptionWithinBounds | strategies/options_strategies.py:110-129 | The picked contract meets every filter bound. |
| OptionsStrategies.CreateOptionSignal | strategies/options_strategies.py:152-190 | Entry at the mark, stop at half, target at 1.25 times, strength 0.7, the contract's symbol, and the signal counted. |
| OptionsStrategies.OptionSignalLevels | strategies/options_strategies.py:158-159 | A positive mark puts the stop below and the target above the entry. |
| OptionsStrategies.OptionsScalperAnalyze | strategies/options_strategies.py:36-87 | None without rsi, ema8 or a chain; raises on a missing EMA21 when compared; CALL for the bullish and PUT for the bearish setup. |
| OptionsStrategies.ScalperSignalTradesSuitableContract | strategies/options_strategies.py:65-87 | Every signal buys, at its mark, a contract that passes the DTE, delta, volume and open-interest filters (a call for LONG, a put for SHORT); a positive mark puts the stop below and the target above. |
| OptionsStrategies.CreditSpreadSetup | strategies/options_strategies.py:226-253 | The spread kind follows the trend and RSI conditions. |
| OptionsStrategies.CreditSpreadAnalyze | strategies/options_strategies.py:212-281 | Never a signal; the counters do not move. |
| OptionsStrategies.IronCondorAnalyze | strategies/options_strategies.py:305-356 | Never a signal; raises iff the upper band is truthy and the lower band is missing or the close is 0. |
| OptionsStrategies.FindIronCondor | strategies/options_strategies.py:341-350 | The iron-condor finder finds nothing. |
| TradingEngine.InitStrategies | core/trading_engine.py:89-99 | The roster holds exactly the equity strategies among the configured types; the range trader and options scalper are dropped. |
| TradingEngine.InitStrategiesAppend | core/trading_engine.py:91-97 | The roster keeps the configured order. |
| TradingEngine.NewEngine | core/trading_engine.py:66-80 | A new engine is stopped with an empty ledger and one zeroed counter record per strategy. |
| TradingEngine.Start | core/trading_engine.py:134-156 | Start sets the running flag and changes nothing else. |
| TradingEngine.Stop | core/trading_engine.py:158-176 | Stop clears the running flag and sets the stop event on a running engine, and changes nothing else; a stopped engine is left as is. |
| TradingEngine.StartStopRoundTrip | core/trading_engine.py:134-165 | Starting and stopping are idempotent; a stop followed by a start restores everything but the stop event, which stays set. |
| TradingEngine.StopEventSticks | core/trading_engine.py:134-165 | Once the stop event is set, no sequence of starts and stops clears it, so the loop condition stays false. |
| TradingEngine.EntrySize | core/trading_engine.py:364-370 | No win rate is passed, so every sizing method comes down to the fixed fraction. |
| TradingEngine.ExecuteSignal | core/trading_engine.py:355-434 | A sizing error or zero size changes nothing; otherwise the entry is written with the signed size and the signal's levels, other entries untouched, and a bracket order is sent outside paper mode. |
| TradingEngine.ExecutedPositionWithinLimit | core/trading_engine.py:364-403 | An opened position never ties up more than the per-position share of the account. |
| TradingEngine.EntryOrdersValidate | core/trading_engine.py:405-415 | Every entry order the engine sends validates, children included. |
| TradingEngine.RealizedPnlIsUnrealized | core/trading_engine.py:443-456 | The paper PnL is the signed quantity times the price move, which is the unrealised PnL the risk metrics report. |
| TradingEngine.ClosePosition | core/trading_engine.py:436-486 | Unknown symbol: no-op. Otherwise the entry is removed; paper records the PnL in the risk manager and the total; live sends a market exit order and records nothing. |
| TradingEngine.CloseTwiceIsNoop | core/trading_engine.py:439-440 | A second close of the same symbol does nothing. |
| TradingEngine.PaperRoundTrip | core/trading_engine.py:355-486 | Opening then closing a paper position records one trade with the signed quantity times the move. |
| TradingEngine.PaperExample | core/trading_engine.py:355-486 | 20 shares bought at 50 and closed at 52 realise 40. |
| TradingEngine.CloseOnExit | core/trading_engine.py:280-297 | The entry is closed iff the stop or target fires; when both fire, one trade is recorded. |
| TradingEngine.MonitorPosition | core/trading_engine.py:263-304 | A zero broker quantity or an unknown symbol changes nothing; otherwise the exit checks, then the ratchet, which raises on a zero entry. |
| TradingEngine.MissingQuoteClosesLong | core/trading_engine.py:271-290 | A quote without the symbol reads price 0, which stops out a long with a positive stop. |
| TradingEngine.MonitorPositionRetires | core/trading_engine.py:263-304 | Monitoring one position can only remove ledger entries, never alter one; in paper mode each removal records one trade and sends nothing, otherwise each removal sends one exit order; the total and the daily PnL move together. |
| TradingEngine.MonitorPass | core/trading_engine.py:259-312 | The same over a whole pass, also when it stops at a raised error: entries are only removed, each removal is one paper trade or one exit order, and the total and daily PnL move together. |
| TradingEngine.StrategyStep | core/trading_engine.py:232-243 | One strategy's turn counts its signal at most once, leaves the other strategies and every other symbol's entry alone, and executes nothing when guarded and the symbol is held. |
| TradingEngine.RunStrategies | core/trading_engine.py:232-243 | Each strategy counts its signal at most once; only the scanned symbol's entry can change. |
| TradingEngine.ScanSymbolAsWritten | core/trading_engine.py:232-243 | As written, every signal is executed: only the scanned symbol's entry can change, the risk state and running flag stay as they were, and at most one entry order per strategy is sent (none in paper mode). |
| TradingEngine.ScanSymbol | core/trading_engine.py:218-243 | Corrected: no existing entry is replaced and at most one entry order is sent per symbol. |
| TradingEngine.ScanOverwritesPosition | core/trading_engine.py:232-243 | For any paper engine running MomentumScalper then VolatilityBreakout with no entry for the symbol, the counterexample indicators end in the breakout short replacing the long, with no trade recorded. |
| TradingEngine.UnguardedEndsShort | core/trading_engine.py:232-243 | Whatever the first strategy did, the unguarded loop leaves the second strategy's short as the ledger entry. |
| TradingEngine.ScanKeepsFirstPosition | core/trading_engine.py:232-243 | On the same engines and indicators the corrected loop keeps the MomentumScalper long of 10 shares. |
| TradingEngine.ScanSymbols | core/trading_engine.py:216-243 | As written: held symbols and symbols without data are skipped, every strategy's signal is executed, positions held before the pass are untouched, and at most one entry order per symbol and strategy is sent (none in paper mode). |
| TradingEngine.ScanSymbolsCorrected | core/trading_engine.py:216-243 | Corrected: the same scan with the guarded strategies loop, so at most one entry order per symbol. |
| TradingEngine.ScanPassesDisagree | core/trading_engine.py:216-243 | Scanning only the counterexample symbol, the program's scan ends short 10 shares and the corrected scan long 10. |
| TradingEngine.SymbolsToScan | core/trading_engine.py:196-214 | With the scanner enabled, the first `max_scan_symbols` symbols of the ranking, raising exactly when the ranking raises. Otherwise the static watch list. |
| TradingEngine.MarketPass | core/trading_engine.py:182-250 | As written: the gate rolls the day. A shut gate or a raising scanner changes nothing else; the loop's handler catches the error. Otherwise the program's scan runs over the chosen symbols. Existing positions stay untouched, new entries come only from the chosen symbols, and at most one order per symbol and strategy is sent (none in paper mode). |
| TradingEngine.MarketLoopStep | core/trading_engine.py:182-243 | Without the loop condition nothing happens; with it the program's market pass runs and the gate rolls the day. |
| TradingEngine.MonitorLoopStep | core/trading_engine.py:258-312 | Without the loop condition nothing happens; with it positions are only retired. |
| TradingEngine.RestartIsInert | core/trading_engine.py:134-165 | A running engine stopped and started again reports running, yet neither loop does anything. |

## Left out

- core/schwab_client.py is not part of this model: OAuth, HTTP, the token file and the rate limiter. Account values, quotes, positions, order ids and price histories are inputs.
- Threads, the monitor loops' sleeps and the broad exception handlers. One iteration of each loop is modelled; an exception in the position monitor ends the pass.
- The market-data cache with its one-second freshness, the price-history fetch, `get_status` and the interactive authentication.
- `BaseStrategy.calculate_indicators` (pandas numerics). The indicator record is an input; the engine's "no indicators" skip is a symbol absent from the market data.
- `MarketScanner._scan_universe` (batched network quotes). The quote cache is an input sequence in insertion order; missing quote fields read as 0.
- In a market pass the quote cache is the cache as it stands after any re-scan that `get_tradeable_symbols` triggers. The periodic scanner-stats log line is dropped.
- Dates, `datetime.now()` and elapsed time. Days are integers, DTE is an input, and elapsed seconds are an optional real.
- Environment-variable reads in the configuration. Credentials are plain strings.
- Applying a risk profile to the configuration: `get_risk_parameters_for_profile` only returns its table and nothing calls it, so the model relates the table to the validator and does not apply it.
- `round(x, 2)` in order payloads. Prices are exact reals.
- Logging, signal timestamps and metadata, and main.py.
- Positions stored in the ledger keep no order id or entry time, because the engine never reads them back.
- The engine never calls a strategy's `record_trade_result`, and the monitor never acts on the stored trailing stop. The model shows both as they are.
- Quote and option-chain values of the wrong Python type are not modelled; every field has its declared type.
- The exposure the engine computes from the broker's positions is a single input per pass.
- The position monitor reads one price per symbol and uses it for the check and the close. The code quotes the symbol again when it closes.
- OrderBuilder.OptionSymbol: the round trip is proved for roots of at most six characters and strikes below 100,000. A longer root or strike still yields a symbol, but one without the fixed layout.
- TradingEngine.ScanSymbolAsWritten: states the framing facts and the order bound; its behaviour is pinned by the counterexample ScanOverwritesPosition.
- A negative `martingale_max_doublings`: the setting is a natural number here, because Python would compute `2 ** negative` as a float and make the position size fractional.

## Findings

| source | as written | input that shows it | evidently intended | confidence | as-written member | corrected member |
|---|---|---|---|---|---|---|
| core/risk_manager.py:469-471 | `largest_position` divides each position value by `account_value` with no guard | account value 0 with one open position: ZeroDivisionError | the `account_value > 0` guard used by the two percentages just above, giving 0 | not executed; high | RiskManager.AccountRiskAsWritten, RiskManager.AccountRiskZeroAccountRaises | RiskManager.CalculateAccountRisk, RiskManager.AccountRiskAgreesWhenPositive |
| core/trading_engine.py:232-243 | every strategy's signal for a symbol is executed in the same pass, each overwriting the ledger entry of the previous one | MomentumScalper then VolatilityBreakout; close 100, RSI 25, EMA8 101, EMA21 100, ATR 1, bands 101 and 105, volume ratio 2; paper, 10,000 at 10%: the long 10 is replaced by a short 10 | one position per symbol, as the skip at lines 218-219 enforces across passes | not executed; medium | TradingEngine.ScanSymbolAsWritten, TradingEngine.ScanSymbols, TradingEngine.ScanOverwritesPosition | TradingEngine.ScanSymbol, TradingEngine.ScanSymbolsCorrected, TradingEngine.ScanKeepsFirstPosition |

=== FILE: basics.dfy ===
/** Small building blocks shared by every module: optional values, Python-style
    exceptions as a Result, Python truthiness of optional numbers, and the
    integer conversions and slices the trading code relies on. */
module Basics {

  datatype Option<T> = None | Some(value: T)

  /** The exceptions the modelled code can raise on some input. */
  datatype PyError =
    | ZeroDivisionError
    | TypeError
    | ValueError(message: string)

  /** A computation that either returns a value or raises. */
  datatype Result<T> = Ok(value: T) | Err(error: PyError)

  /** Python truthiness of an optional float: `None` and `0.0` are both falsy. */
  predicate Truthy(o: Option<real>)
  {
    o.Some? && o.value != 0.0
  }

  /** Truthiness of a plain float field. */
  predicate NonZero(x: real)
  {
    x != 0.0
  }

  function Abs(x: real): (r: real)
    ensures r >= 0.0
    ensures r == x || r == -x
  {
    if x < 0.0 then -x else x
  }

  function Min(a: real, b: real): (r: real)
    ensures r <= a && r <= b
    ensures r == a || r == b
  {
    if a <= b then a else b
  }

  function Max(a: real, b: real): (r: real)
    ensures r >= a && r >= b
    ensures r == a || r == b
  {
    if a >= b then a else b
  }

  function MinNat(a: nat, b: nat): (r: nat)
    ensures r <= a && r <= b
    ensures r == a || r == b
  {
    if a <= b then a else b
  }

  /** Python's `int(x)` on a float: truncation toward zero. */
  function Trunc(x: real): (r: int)
    ensures x >= 0.0 ==> r >= 0 && r as real <= x < r as real + 1.0
    ensures x < 0.0 ==> r <= 0 && r as real - 1.0 < x <= r as real
  {
    if x >= 0.0 then x.Floor else -((-x).Floor)
  }

  /** Truncation is monotone on non-negative arguments. */
  lemma TruncMonotone(x: real, y: real)
    requires 0.0 <= x <= y
    ensures Trunc(x) <= Trunc(y)
  {
  }

  /** Multiplying both sides by a positive factor keeps a strict order. */
  lemma MulStrict(a: real, b: real, c: real)
    requires a < b && c > 0.0
    ensures a * c < b * c
  {
    assert (b - a) * c > 0.0;
  }

  /** Multiplying both sides by a non-negative factor keeps an order. */
  lemma MulMonotone(a: real, b: real, c: real)
    requires a <= b && c >= 0.0
    ensures a * c <= b * c
  {
    assert (b - a) * c >= 0.0;
  }

  /** A non-negative factor on the left keeps an order. */
  lemma MulMonotoneLeft(c: real, a: real, b: real)
    requires a <= b && c >= 0.0
    ensures c * a <= c * b
  {
    assert c * (b - a) >= 0.0;
  }

  /** `int(c / e)` for positive operands brackets `c` between two
      consecutive multiples of `e`. */
  lemma TruncQuotientBracket(c: real, e: real)
    requires c > 0.0 && e > 0.0
    ensures Trunc(c / e) >= 0
    ensures Trunc(c / e) as real * e <= c < (Trunc(c / e) + 1) as real * e
  {
    var q := c / e;
    assert q * e == c;
    if q <= 0.0 {
      MulMonotone(q, 0.0, e);
      assert false;
    }
    var t := Trunc(q);
    MulMonotone(t as real, q, e);
    assert q < (t + 1) as real;
    MulStrict(q, (t + 1) as real, e);
    assert q * e < (t + 1) as real * e;
    calc {
      c;
      == q * e;
      < (t + 1) as real * e;
    }
  }

  /** Adding one more term bounded by `m` to a sum of `n` terms bounded by
      `mp <= m`. */
  lemma SumStepUpper(sum: real, x: real, n: real, mp: real, m: real)
    requires n >= 0.0 && sum <= n * mp && mp <= m && x <= m
    ensures sum + x <= (n + 1.0) * m
  {
    MulMonotone(mp, m, n);
  }

  /** Adding one more term bounded below by `m` to a sum of `n` terms bounded
      below by `mp >= m`. */
  lemma SumStepLower(sum: real, x: real, n: real, mp: real, m: real)
    requires n >= 0.0 && n * mp <= sum && m <= mp && m <= x
    ensures (n + 1.0) * m <= sum + x
  {
    MulMonotone(m, mp, n);
  }

  /** A positive factor common to both sides can be cancelled. */
  lemma MulCancel(a: real, b: real, c: real)
    requires c > 0.0 && a * c <= b * c
    ensures a <= b
  {
    if a > b {
      MulStrict(b, a, c);
    }
  }

  /** Dividing by a non-zero number and multiplying back is the identity. */
  lemma DivMulCancel(s: real, n: real)
    requires n != 0.0
    ensures (s / n) * n == s
  {
  }

  /** A total of `n` terms between `lo` and `hi` averages between them. */
  lemma MeanBound(s: real, n: real, lo: real, hi: real)
    requires n > 0.0 && n * lo <= s <= n * hi
    ensures lo <= s / n <= hi
  {
    DivMulCancel(s, n);
    MulCancel(s / n, hi, n);
    MulCancel(lo, s / n, n);
  }

  /** Dividing by a positive number keeps an order. */
  lemma DivMonotone(a: real, b: real, e: real)
    requires a <= b && e > 0.0
    ensures a / e <= b / e
  {
    assert a / e == a * (1.0 / e) && b / e == b * (1.0 / e);
    MulMonotone(a, b, 1.0 / e);
  }

  /** Python's `sum(xs)`, adding from the left. */
  function Sum(xs: seq<real>): real
  {
    if |xs| == 0 then 0.0 else Sum(xs[..|xs| - 1]) + xs[|xs| - 1]
  }

  /** `2 ** n` for a non-negative exponent. */
  function Pow2(n: nat): (r: nat)
    ensures r >= 1
  {
    if n == 0 then 1 else 2 * Pow2(n - 1)
  }

  lemma {:induction false} Pow2Monotone(m: nat, n: nat)
    requires m <= n
    ensures Pow2(m) <= Pow2(n)
    decreases n
  {
    if m < n {
      Pow2Monotone(m, n - 1);
    }
  }

  /** The length of Python's `s[:n]` for a sequence of length `len`. */
  function SliceLength(n: int, len: nat): nat
  {
    if n >= 0 then (if n <= len then n else len)
    else (if -n <= len then len + n else 0)
  }

  /** Python's `s[:n]`: a negative `n` counts from the end. */
  function PyTake<T>(s: seq<T>, n: int): (r: seq<T>)
    ensures r <= s
    ensures |r| == SliceLength(n, |s|)
    ensures n >= 0 ==> |r| == (if n <= |s| then n else |s|)
    ensures n < 0 ==> |r| == (if -n <= |s| then |s| + n else 0)
  {
    if n >= 0 then
      (if n <= |s| then s[..n] else s)
    else
      (if -n <= |s| then s[..|s| + n] else [])
  }
}

=== FILE: config.dfy ===
/** Configuration records of the trading system, their defaults, the startup
    validator and the constant table of risk profiles (config/config.py). */
module Config {
  import opened Basics

  datatype TradingMode = Paper | Live | Backtest

  datatype StrategyType =
    | MomentumScalperType
    | TrendFollowerType
    | RangeTraderType
    | VolatilityBreakoutType
    | OptionScalperType

  /** The three profiles of the enumeration, plus any other value stored in the
      untyped dataclass field (which the profile table does not know). */
  datatype RiskProfile = Conservative | Moderate | Aggressive | Unrecognised

  /** `position_sizing_method`; any other string falls back to fixed-fractional. */
  datatype SizingMethod = FixedFractional | KellyCriterion | VolatilityAdjusted | OtherSizing

  /** `stop_loss_type` / `take_profit_type`; "tiered" and unknown strings behave
      like neither "static" nor "dynamic". */
  datatype LevelMode = StaticLevel | DynamicLevel | TieredLevel | OtherLevel

  /** One tier of a tiered exit: the fraction of the position to sell and the
      profit ratio at which to sell it. */
  datatype Tier = Tier(percentage: real, profitTargetPct: real)

  datatype Credentials = Credentials(appKey: string, appSecret: string, accountNumber: string)

  datatype RiskConfig = RiskConfig(
    riskProfile: RiskProfile,
    maxPositionSizePct: real,
    maxTotalExposurePct: real,
    sizingMethod: SizingMethod,
    stopLossType: LevelMode,
    staticStopLossPct: real,
    dynamicStopLossAtrMultiplier: real,
    trailingStopEnabled: bool,
    trailingStopActivationPct: real,
    trailingStopDistancePct: real,
    takeProfitType: LevelMode,
    staticTakeProfitPct: real,
    tieredExits: seq<Tier>,
    dynamicTpVolatilityMultiplier: real,
    maxDailyLossPct: real,
    maxDailyTrades: int,
    enableMartingale: bool,
    martingaleMaxDoublings: nat,
    martingaleMinWinRate: real)

  datatype StrategyConfig = StrategyConfig(
    activeStrategies: seq<StrategyType>,
    trendFollowerMinTrendStrength: real,
    volatilityBreakoutMultiplier: real,
    optionMinDte: int,
    optionMaxDte: int,
    optionDeltaLow: real,
    optionDeltaHigh: real,
    optionMaxIvPercentile: real)

  datatype DataConfig = DataConfig(
    useMarketScanner: bool,
    maxScanSymbols: int,
    streamSymbols: seq<string>,
    minVolume: int,
    minPrice: real,
    maxPrice: real)

  datatype AppConfig = AppConfig(
    credentials: Credentials,
    mode: TradingMode,
    risk: RiskConfig,
    strategy: StrategyConfig,
    data: DataConfig)

  function SumPercentages(tiers: seq<Tier>): real
  {
    if |tiers| == 0 then 0.0 else tiers[0].percentage + SumPercentages(tiers[1..])
  }

  /** The tiers used when none are supplied: sell a third at 2%, a third at 3%
      and the rest at 5%. */
  function DefaultTieredExits(): (r: seq<Tier>)
    ensures |r| == 3
    ensures SumPercentages(r) == 1.0
    ensures forall i, j :: 0 <= i < j < |r| ==> r[i].profitTargetPct < r[j].profitTargetPct
    ensures forall i :: 0 <= i < |r| ==> 0.0 < r[i].percentage && 0.0 < r[i].profitTargetPct
  {
    var t := [Tier(0.33, 0.02), Tier(0.33, 0.03), Tier(0.34, 0.05)];
    assert SumPercentages(t[2..]) == 0.34;
    assert SumPercentages(t[1..]) == 0.33 + SumPercentages(t[2..]) by { assert t[1..][1..] == t[2..]; }
    t
  }

  /** `RiskManagementConfig.__post_init__`: only a missing (None) tier list is
      replaced; an explicitly empty list is kept. */
  function ResolveTieredExits(supplied: Option<seq<Tier>>): (r: seq<Tier>)
    ensures supplied.Some? ==> r == supplied.value
    ensures supplied.None? ==> |r| == 3 && SumPercentages(r) == 1.0
  {
    match supplied
    case Some(t) => t
    case None => DefaultTieredExits()
  }

  /** `StrategyConfig.__post_init__`. */
  function ResolveActiveStrategies(supplied: Option<seq<StrategyType>>): (r: seq<StrategyType>)
    ensures supplied.Some? ==> r == supplied.value
    ensures supplied.None? ==> r == [MomentumScalperType, TrendFollowerType]
  {
    match supplied
    case Some(s) => s
    case None => [MomentumScalperType, TrendFollowerType]
  }

  /** The fallback watchlist of `DataConfig.__post_init__`. */
  function DefaultWatchlist(): (r: seq<string>)
    ensures |r| == 11
    ensures forall i, j :: 0 <= i < j < |r| ==> r[i] != r[j]
    ensures "SPY" in r && "AAPL" in r
  {
    ["SPY", "QQQ", "IWM", "AAPL", "MSFT", "GOOGL", "AMZN", "NVDA", "TSLA", "AMD", "META"]
  }

  function ResolveWatchlist(supplied: Option<seq<string>>): (r: seq<string>)
    ensures supplied.Some? ==> r == supplied.value
    ensures supplied.None? ==> |r| == 11
  {
    match supplied
    case Some(s) => s
    case None => DefaultWatchlist()
  }

  /** The dataclass defaults of `RiskManagementConfig`. */
  function DefaultRiskConfig(): (r: RiskConfig)
    ensures r.maxPositionSizePct == 0.10 && r.maxTotalExposurePct == 0.50
    ensures !r.enableMartingale
    ensures |r.tieredExits| == 3
  {
    RiskConfig(
      riskProfile := Moderate,
      maxPositionSizePct := 0.10,
      maxTotalExposurePct := 0.50,
      sizingMethod := KellyCriterion,
      stopLossType := DynamicLevel,
      staticStopLossPct := 0.02,
      dynamicStopLossAtrMultiplier := 2.0,
      trailingStopEnabled := true,
      trailingStopActivationPct := 0.015,
      trailingStopDistancePct := 0.01,
      takeProfitType := TieredLevel,
      staticTakeProfitPct := 0.04,
      tieredExits := ResolveTieredExits(None),
      dynamicTpVolatilityMultiplier := 3.0,
      maxDailyLossPct := 0.05,
      maxDailyTrades := 20,
      enableMartingale := false,
      martingaleMaxDoublings := 2,
      martingaleMinWinRate := 0.70)
  }

  /** The dataclass defaults of `StrategyConfig`. */
  function DefaultStrategyConfig(): (r: StrategyConfig)
    ensures r.activeStrategies == [MomentumScalperType, TrendFollowerType]
    ensures r.optionMinDte <= r.optionMaxDte && r.optionDeltaLow <= r.optionDeltaHigh
  {
    StrategyConfig(
      activeStrategies := ResolveActiveStrategies(None),
      trendFollowerMinTrendStrength := 0.6,
      volatilityBreakoutMultiplier := 2.5,
      optionMinDte := 7,
      optionMaxDte := 45,
      optionDeltaLow := 0.30,
      optionDeltaHigh := 0.70,
      optionMaxIvPercentile := 0.75)
  }

  /** The dataclass defaults of `DataConfig`. */
  function DefaultDataConfig(): (r: DataConfig)
    ensures |r.streamSymbols| == 11
    ensures 0.0 < r.minPrice <= r.maxPrice
  {
    DataConfig(
      useMarketScanner := true,
      maxScanSymbols := 50,
      streamSymbols := ResolveWatchlist(None),
      minVolume := 500000,
      minPrice := 5.0,
      maxPrice := 1000.0)
  }

  /** Upper bounds the validator enforces on the risk percentages. */
  const MaxPositionSizeLimit: real := 0.25
  const MaxTotalExposureLimit: real := 1.0

  datatype ConfigError =
    | AppKeyNotSet
    | AppSecretNotSet
    | AccountNumberNotSet
    | PositionSizeTooHigh
    | ExposureTooHigh

  /** The error list `Config.validate` accumulates, in the order it checks. */
  function ValidationErrors(c: AppConfig): (errors: seq<ConfigError>)
    ensures AppKeyNotSet in errors <==> c.credentials.appKey == ""
    ensures AppSecretNotSet in errors <==> c.credentials.appSecret == ""
    ensures AccountNumberNotSet in errors <==> c.credentials.accountNumber == ""
    ensures PositionSizeTooHigh in errors <==> c.risk.maxPositionSizePct > MaxPositionSizeLimit
    ensures ExposureTooHigh in errors <==> c.risk.maxTotalExposurePct > MaxTotalExposureLimit
  {
    var e1 := if c.credentials.appKey == "" then [AppKeyNotSet] else [];
    var e2 := e1 + if c.credentials.appSecret == "" then [AppSecretNotSet] else [];
    var e3 := e2 + if c.credentials.accountNumber == "" then [AccountNumberNotSet] else [];
    var e4 := e3 + if c.risk.maxPositionSizePct > MaxPositionSizeLimit then [PositionSizeTooHigh] else [];
    e4 + if c.risk.maxTotalExposurePct > MaxTotalExposureLimit then [ExposureTooHigh] else []
  }

  /** `Config.validate`: true exactly when no error was collected. */
  function Validate(c: AppConfig): (ok: bool)
    ensures !ok <==>
      || c.credentials.appKey == ""
      || c.credentials.appSecret == ""
      || c.credentials.accountNumber == ""
      || c.risk.maxPositionSizePct > 0.25
      || c.risk.maxTotalExposurePct > 1.0
  {
    var errors := ValidationErrors(c);
    assert errors != [] ==> errors[0] in errors;
    |errors| == 0
  }

  /** The risk parameters one profile prescribes. */
  datatype ProfileParameters = ProfileParameters(
    maxPositionSizePct: real,
    maxTotalExposurePct: real,
    stopLossPct: real,
    takeProfitPct: real,
    enableMartingale: bool,
    maxDailyLossPct: real)

  /** `get_risk_parameters_for_profile`; an unknown profile gets the MODERATE row. */
  function ParametersForProfile(p: RiskProfile): (r: ProfileParameters)
    ensures r.maxPositionSizePct <= MaxPositionSizeLimit
    ensures r.maxTotalExposurePct <= MaxTotalExposureLimit
    ensures r.enableMartingale <==> p == Aggressive
    ensures 0.0 < r.stopLossPct < r.takeProfitPct
  {
    match p
    case Conservative => ProfileParameters(0.05, 0.30, 0.015, 0.03, false, 0.03)
    case Moderate => ProfileParameters(0.10, 0.50, 0.02, 0.04, false, 0.05)
    case Aggressive => ProfileParameters(0.15, 0.70, 0.03, 0.06, true, 0.08)
    case Unrecognised => ProfileParameters(0.10, 0.50, 0.02, 0.04, false, 0.05)
  }

  /** An unknown profile falls back to the MODERATE row. */
  lemma UnknownProfileIsModerate()
    ensures ParametersForProfile(Unrecognised) == ParametersForProfile(Moderate)
  {
  }

  /** Every numeric limit grows from one profile to the next riskier one. */
  predicate NoRiskier(a: ProfileParameters, b: ProfileParameters)
  {
    && a.maxPositionSizePct <= b.maxPositionSizePct
    && a.maxTotalExposurePct <= b.maxTotalExposurePct
    && a.stopLossPct <= b.stopLossPct
    && a.takeProfitPct <= b.takeProfitPct
    && a.maxDailyLossPct <= b.maxDailyLossPct
  }

  lemma ProfilesAreOrdered()
    ensures NoRiskier(ParametersForProfile(Conservative), ParametersForProfile(Moderate))
    ensures NoRiskier(ParametersForProfile(Moderate), ParametersForProfile(Aggressive))
  {
  }

  /** Every profile's position and exposure limits lie within the bounds the
      validator enforces: a configuration with credentials that carries them
      passes validation. The dataclass defaults pass as well. */
  lemma ProfilesPassValidation(c: AppConfig, p: RiskProfile)
    requires c.credentials.appKey != "" && c.credentials.appSecret != ""
    requires c.credentials.accountNumber != ""
    ensures var params := ParametersForProfile(p);
      Validate(c.(risk := c.risk.(maxPositionSizePct := params.maxPositionSizePct,
                                   maxTotalExposurePct := params.maxTotalExposurePct)))
    ensures Validate(c.(risk := DefaultRiskConfig()))
  {
  }

  /** The validator's bounds are inclusive: exactly 25% and 100% are accepted,
      anything above is rejected. */
  lemma ValidationBoundsAreInclusive(c: AppConfig, eps: real)
    requires c.credentials.appKey != "" && c.credentials.appSecret != ""
    requires c.credentials.accountNumber != ""
    requires eps > 0.0
    ensures Validate(c.(risk := c.risk.(maxPositionSizePct := 0.25, maxTotalExposurePct := 1.0)))
    ensures !Validate(c.(risk := c.risk.(maxPositionSizePct := 0.25 + eps)))
    ensures !Validate(c.(risk := c.risk.(maxTotalExposurePct := 1.0 + eps)))
  {
  }
}

=== FILE: market_scanner.dfy ===
/** The ranking half of core/market_scanner.py: the price, volume and spread
    filters, the piecewise candidate score, the ranked and truncated symbol
    lists, and the summary statistics, all over the in-memory quote cache.
    The cache is the scanner's insertion-ordered dictionary, modelled as a
    sequence of quotes in insertion order; filling it from the network is
    not modelled. */
module MarketScanner {
  import opened Basics
  import opened Config
  import opened Sorting

  /** One cached quote; a field missing from the broker's quote reads as 0. */
  datatype Quote = Quote(
    symbol: string,
    price: real,
    volume: int,
    bid: real,
    ask: real,
    changePct: real,
    high: real,
    low: real)

  // ---------------------------------------------------------------------------
  // Rescan timer
  // ---------------------------------------------------------------------------

  const ScanInterval: real := 300.0

  /** `_should_rescan`, given the seconds since the last scan (`None` before
      the first scan). */
  function ShouldRescan(elapsed: Option<real>): (r: bool)
    ensures r <==> elapsed.None? || elapsed.value >= ScanInterval
  {
    match elapsed
    case None => true
    case Some(e) => e >= ScanInterval
  }

  /** The first call always scans, and once a rescan is due it stays due
      for every longer elapsed time. */
  lemma RescanStaysDue(earlier: real, later: real)
    requires earlier <= later
    ensures ShouldRescan(None)
    ensures ShouldRescan(Some(earlier)) ==> ShouldRescan(Some(later))
    ensures !ShouldRescan(Some(later)) ==> !ShouldRescan(Some(earlier))
  {
  }

  // ---------------------------------------------------------------------------
  // Filters and score
  // ---------------------------------------------------------------------------

  const MaxSpreadPct: real := 0.005

  /** `_passes_filters`: price inside the configured band, enough volume, and
      a bid-ask spread of at most 0.5% whenever there is a positive bid. */
  predicate PassesFilters(cfg: DataConfig, q: Quote)
  {
    && cfg.minPrice <= q.price <= cfg.maxPrice
    && q.volume >= cfg.minVolume
    && (q.bid > 0.0 ==> (q.ask - q.bid) / q.bid <= MaxSpreadPct)
  }

  /** Liquidity points by daily volume. */
  function VolumeScore(volume: int): (r: real)
    ensures 10.0 <= r <= 30.0
  {
    if volume >= 10_000_000 then 30.0
    else if volume >= 5_000_000 then 25.0
    else if volume >= 1_000_000 then 20.0
    else if volume >= 500_000 then 15.0
    else 10.0
  }

  /** The intraday range divides by the price, which raises when the price
      is 0 and both high and low are positive. */
  predicate ScoreRaises(q: Quote)
  {
    q.high > 0.0 && q.low > 0.0 && q.price == 0.0
  }

  /** Points for the intraday range as a fraction of the price: 25 for 2-8%,
      20 for 1-10%, 5 below 1%, 10 above; none without a high and low. */
  function VolatilityScore(q: Quote): (r: Result<real>)
    ensures r.Err? <==> ScoreRaises(q)
    ensures r.Err? ==> r.error == ZeroDivisionError
    ensures r.Ok? && !(q.high > 0.0 && q.low > 0.0) ==> r.value == 0.0
    ensures r.Ok? && q.high > 0.0 && q.low > 0.0 ==> 5.0 <= r.value <= 25.0
  {
    if q.high > 0.0 && q.low > 0.0 then
      if q.price == 0.0 then Err(ZeroDivisionError)
      else
        var range := (q.high - q.low) / q.price;
        if 0.02 <= range <= 0.08 then Ok(25.0)
        else if 0.01 <= range <= 0.10 then Ok(20.0)
        else if range < 0.01 then Ok(5.0)
        else Ok(10.0)
    else Ok(0.0)
  }

  /** Points for the absolute daily change in percent. */
  function MomentumScore(changePct: real): (r: real)
    ensures 10.0 <= r <= 25.0
  {
    var change := Abs(changePct);
    if 0.5 <= change <= 5.0 then 25.0
    else if 0.2 <= change <= 7.0 then 20.0
    else 10.0
  }

  /** Points for the bid-ask spread; none without a positive bid. */
  function SpreadScore(bid: real, ask: real): (r: real)
    ensures bid <= 0.0 ==> r == 0.0
    ensures bid > 0.0 ==> 5.0 <= r <= 20.0
  {
    if bid > 0.0 then
      var spread := (ask - bid) / bid;
      if spread <= 0.001 then 20.0
      else if spread <= 0.002 then 15.0
      else if spread <= 0.005 then 10.0
      else 5.0
    else 0.0
  }

  /** `_calculate_score`: the sum of the four components, between 20 and 100. */
  function Score(q: Quote): (r: Result<real>)
    ensures r.Err? <==> ScoreRaises(q)
    ensures r.Err? ==> r.error == ZeroDivisionError
    ensures r.Ok? ==> 20.0 <= r.value <= 100.0
    ensures r.Ok? ==> r.value >= VolumeScore(q.volume) + MomentumScore(q.changePct)
  {
    match VolatilityScore(q)
    case Err(e) => Err(e)
    case Ok(v) => Ok(VolumeScore(q.volume) + v + MomentumScore(q.changePct) + SpreadScore(q.bid, q.ask))
  }

  /** More volume never lowers the score. */
  lemma ScoreMonotoneInVolume(q: Quote, moreVolume: int)
    requires q.volume <= moreVolume && !ScoreRaises(q)
    ensures Score(q.(volume := moreVolume)).Ok?
    ensures Score(q).value <= Score(q.(volume := moreVolume)).value
  {
  }

  /** A quote with a positive bid that passes the filters earns at least 10
      spread points: the filter's 0.5% ceiling is the score's third tier. */
  lemma FilteredSpreadScore(cfg: DataConfig, q: Quote)
    requires PassesFilters(cfg, q) && q.bid > 0.0
    ensures SpreadScore(q.bid, q.ask) >= 10.0
  {
  }

  /** With a positive minimum price the filters exclude every quote whose
      score would raise. */
  lemma FilteredScoreNeverRaises(cfg: DataConfig, q: Quote)
    requires cfg.minPrice > 0.0 && PassesFilters(cfg, q)
    ensures Score(q).Ok?
  {
  }

  // ---------------------------------------------------------------------------
  // Ranking
  // ---------------------------------------------------------------------------

  datatype Ranked = Ranked(symbol: string, score: real, quote: Quote)

  function RankKey(c: Ranked): real
  {
    c.score
  }

  /** A ranking entry built from a filtered cache quote. */
  predicate FaithfulEntry(cfg: DataConfig, cache: seq<Quote>, c: Ranked)
  {
    c.quote in cache && PassesFilters(cfg, c.quote)
    && c.symbol == c.quote.symbol && Score(c.quote) == Ok(c.score)
  }

  /** The loop of `_rank_candidates` before its sort: every quote that passes
      the filters, scored, in cache order. */
  function ScoreAll(cfg: DataConfig, cache: seq<Quote>): (r: Result<seq<Ranked>>)
    ensures r.Err? <==> exists i :: 0 <= i < |cache| && PassesFilters(cfg, cache[i]) && ScoreRaises(cache[i])
    ensures r.Err? ==> r.error == ZeroDivisionError
    ensures r.Ok? ==> |r.value| <= |cache|
    ensures r.Ok? ==> forall c :: c in r.value ==> FaithfulEntry(cfg, cache, c)
    ensures r.Ok? ==> forall i :: 0 <= i < |cache| && PassesFilters(cfg, cache[i]) ==>
      Ranked(cache[i].symbol, Score(cache[i]).value, cache[i]) in r.value
  {
    if |cache| == 0 then Ok([])
    else
      assert forall i :: 1 <= i < |cache| ==> cache[i] == cache[1..][i - 1];
      assert forall q :: q in cache[1..] ==> q in cache;
      var head := cache[0];
      if !PassesFilters(cfg, head) then
        ScoreAll(cfg, cache[1..])
      else
        match Score(head)
        case Err(e) => Err(e)
        case Ok(s) =>
          var rest := ScoreAll(cfg, cache[1..]);
          if rest.Err? then rest
          else Ok([Ranked(head.symbol, s, head)] + rest.value)
  }

  /** Scoring two stretches of the cache one after the other: the first
      raising stretch decides, otherwise the scored entries are concatenated. */
  function JoinScores(x: Result<seq<Ranked>>, y: Result<seq<Ranked>>): Result<seq<Ranked>>
  {
    if x.Err? then x else if y.Err? then y else Ok(x.value + y.value)
  }

  lemma JoinScoresAssociative(x: Result<seq<Ranked>>, y: Result<seq<Ranked>>, z: Result<seq<Ranked>>)
    ensures JoinScores(JoinScores(x, y), z) == JoinScores(x, JoinScores(y, z))
  {
    if x.Ok? && y.Ok? && z.Ok? {
      assert (x.value + y.value) + z.value == x.value + (y.value + z.value);
    }
  }

  /** A single quote: skipped when it fails the filters, otherwise scored
      into one entry, or the scoring error. */
  lemma ScoreAllOne(cfg: DataConfig, q: Quote)
    ensures !PassesFilters(cfg, q) ==> ScoreAll(cfg, [q]) == Ok([])
    ensures PassesFilters(cfg, q) && Score(q).Ok? ==> ScoreAll(cfg, [q]) == Ok([Ranked(q.symbol, Score(q).value, q)])
    ensures PassesFilters(cfg, q) && Score(q).Err? ==> ScoreAll(cfg, [q]) == Err(Score(q).error)
  {
    assert [q][1..] == [];
    assert ScoreAll(cfg, []) == Ok([]);
    if PassesFilters(cfg, q) && Score(q).Ok? {
      var c := Ranked(q.symbol, Score(q).value, q);
      assert [c] + [] == [c];
    }
  }

  /** Scoring a quote in front of a stretch scores it first. */
  lemma ScoreAllCons(cfg: DataConfig, q: Quote, t: seq<Quote>)
    ensures ScoreAll(cfg, [q] + t) == JoinScores(ScoreAll(cfg, [q]), ScoreAll(cfg, t))
  {
    assert ([q] + t)[0] == q;
    assert ([q] + t)[1..] == t;
    ScoreAllOne(cfg, q);
    var rest := ScoreAll(cfg, t);
    if rest.Ok? {
      assert [] + rest.value == rest.value;
    }
  }

  /** Scoring a concatenation scores the parts in order, so the entries keep
      the cache order and a raising quote aborts wherever it sits. */
  lemma {:induction false} ScoreAllAppend(cfg: DataConfig, a: seq<Quote>, b: seq<Quote>)
    ensures ScoreAll(cfg, a + b) == JoinScores(ScoreAll(cfg, a), ScoreAll(cfg, b))
    decreases |a|
  {
    if |a| == 0 {
      assert a + b == b;
      assert ScoreAll(cfg, a) == Ok([]);
      if ScoreAll(cfg, b).Ok? {
        assert [] + ScoreAll(cfg, b).value == ScoreAll(cfg, b).value;
      }
    } else {
      var h, t := a[0], a[1..];
      assert a == [h] + t;
      assert a + b == [h] + (t + b);
      ScoreAllCons(cfg, h, t + b);
      ScoreAllAppend(cfg, t, b);
      JoinScoresAssociative(ScoreAll(cfg, [h]), ScoreAll(cfg, t), ScoreAll(cfg, b));
      ScoreAllCons(cfg, h, t);
    }
  }

  /** `_rank_candidates`: the scored quotes sorted by score, highest first,
      keeping cache order among equal scores. */
  function RankCandidates(cfg: DataConfig, cache: seq<Quote>): (r: Result<seq<Ranked>>)
    ensures r.Err? <==> exists i :: 0 <= i < |cache| && PassesFilters(cfg, cache[i]) && ScoreRaises(cache[i])
    ensures r.Ok? ==> SortedDesc(r.value, RankKey)
    ensures r.Ok? ==> multiset(r.value) == multiset(ScoreAll(cfg, cache).value)
    ensures r.Ok? ==> forall v :: Ties(r.value, RankKey, v) == Ties(ScoreAll(cfg, cache).value, RankKey, v)
    ensures r.Ok? ==> forall c :: c in r.value ==> FaithfulEntry(cfg, cache, c)
    ensures r.Ok? ==> forall i :: 0 <= i < |cache| && PassesFilters(cfg, cache[i]) ==>
      Ranked(cache[i].symbol, Score(cache[i]).value, cache[i]) in r.value
  {
    match ScoreAll(cfg, cache)
    case Err(e) => Err(e)
    case Ok(xs) =>
      SortKeepsMembers(xs, RankKey);
      Ok(SortDesc(xs, RankKey))
  }

  function Symbols(xs: seq<Ranked>): (r: seq<string>)
    ensures |r| == |xs|
    ensures forall i :: 0 <= i < |xs| ==> r[i] == xs[i].symbol
  {
    if |xs| == 0 then [] else [xs[0].symbol] + Symbols(xs[1..])
  }

  /** The ranking part of `get_tradeable_symbols`: the symbols of the first
      `maxSymbols` ranked candidates. */
  function TradeableSymbols(cfg: DataConfig, cache: seq<Quote>, maxSymbols: int): (r: Result<seq<string>>)
    ensures r.Err? <==> RankCandidates(cfg, cache).Err?
    ensures r.Ok? ==> maxSymbols >= 0 ==> |r.value| <= maxSymbols
    ensures r.Ok? ==>
      var ranked := RankCandidates(cfg, cache).value;
      && |r.value| == SliceLength(maxSymbols, |ranked|)
      && forall i :: 0 <= i < |r.value| ==> r.value[i] == ranked[i].symbol
  {
    match RankCandidates(cfg, cache)
    case Err(e) => Err(e)
    case Ok(ranked) => Ok(Symbols(PyTake(ranked, maxSymbols)))
  }

  // ---------------------------------------------------------------------------
  // Top movers and high volume
  // ---------------------------------------------------------------------------

  datatype Mover = Mover(symbol: string, changePct: real, price: real, volume: int)

  function MoverKey(m: Mover): real
  {
    Abs(m.changePct)
  }

  /** The direction filter: 'up' keeps rises, 'down' keeps falls, anything
      else keeps every quote. */
  predicate KeepsMover(direction: string, changePct: real)
  {
    if direction == "up" then changePct > 0.0
    else if direction == "down" then changePct < 0.0
    else true
  }

  function ToMover(q: Quote): Mover
  {
    Mover(q.symbol, q.changePct, q.price, q.volume)
  }

  function Movers(cache: seq<Quote>, direction: string): (r: seq<Mover>)
    ensures |r| <= |cache|
    ensures forall k :: 0 <= k < |r| ==> KeepsMover(direction, r[k].changePct)
    ensures forall k :: 0 <= k < |r| ==> exists i :: 0 <= i < |cache| && r[k] == ToMover(cache[i])
    ensures forall i :: 0 <= i < |cache| && KeepsMover(direction, cache[i].changePct) ==> ToMover(cache[i]) in r
  {
    if |cache| == 0 then []
    else
      assert forall i :: 1 <= i < |cache| ==> cache[i] == cache[1..][i - 1];
      var rest := Movers(cache[1..], direction);
      assert forall k :: 0 <= k < |rest| ==> exists i :: 0 <= i < |cache| && rest[k] == ToMover(cache[i]) by {
        forall k | 0 <= k < |rest|
          ensures exists i :: 0 <= i < |cache| && rest[k] == ToMover(cache[i])
        {
          var i :| 0 <= i < |cache[1..]| && rest[k] == ToMover(cache[1..][i]);
          assert rest[k] == ToMover(cache[i + 1]);
        }
      }
      if KeepsMover(direction, cache[0].changePct) then [ToMover(cache[0])] + rest else rest
  }

  /** Filtering a concatenation filters the parts in order, so the movers
      keep the cache order and each kept quote appears once per occurrence. */
  lemma {:induction false} MoversAppend(a: seq<Quote>, b: seq<Quote>, direction: string)
    ensures Movers(a + b, direction) == Movers(a, direction) + Movers(b, direction)
    decreases |a|
  {
    if |a| == 0 {
      assert a + b == b;
    } else {
      assert (a + b)[0] == a[0];
      assert (a + b)[1..] == a[1..] + b;
      MoversAppend(a[1..], b, direction);
    }
  }

  /** A single quote is kept, as its mover, exactly when its change goes the
      requested way. */
  lemma MoversOne(q: Quote, direction: string)
    ensures Movers([q], direction) == if KeepsMover(direction, q.changePct) then [ToMover(q)] else []
  {
    assert [q][1..] == [];
  }

  /** `get_top_movers`: the kept quotes sorted by absolute change, largest
      first, truncated to `count`. */
  function TopMovers(cache: seq<Quote>, count: int, direction: string): (r: seq<Mover>)
    ensures |r| == SliceLength(count, |Movers(cache, direction)|)
    ensures r == SortDesc(Movers(cache, direction), MoverKey)[..|r|]
    ensures count >= 0 ==> |r| <= count
    ensures SortedDesc(r, MoverKey)
    ensures forall m :: m in r ==> m in Movers(cache, direction)
    ensures count >= |Movers(cache, direction)| ==> multiset(r) == multiset(Movers(cache, direction))
  {
    TopOfSorted(Movers(cache, direction), count, MoverKey)
  }

  /** The first `count` elements of a stable descending sort. */
  function TopOfSorted<T>(xs: seq<T>, count: int, key: T -> real): (r: seq<T>)
    ensures |r| == SliceLength(count, |xs|)
    ensures r == SortDesc(xs, key)[..|r|]
    ensures count >= 0 ==> |r| <= count
    ensures SortedDesc(r, key)
    ensures forall m :: m in r ==> m in xs
    ensures count >= |xs| ==> multiset(r) == multiset(xs)
  {
    var sorted := SortDesc(xs, key);
    SortKeepsMembers(xs, key);
    var r := PyTake(sorted, count);
    PrefixSortedDesc(sorted, |r|, key);
    assert r == sorted[..|r|];
    assert count >= |xs| ==> r == sorted;
    r
  }

  /** 'up' returns only rises and 'down' only falls. */
  lemma TopMoversDirection(cache: seq<Quote>, count: int, direction: string)
    ensures direction == "up" ==> forall m :: m in TopMovers(cache, count, direction) ==> m.changePct > 0.0
    ensures direction == "down" ==> forall m :: m in TopMovers(cache, count, direction) ==> m.changePct < 0.0
  {
    var movers := Movers(cache, direction);
    assert forall m :: m in movers ==> KeepsMover(direction, m.changePct);
  }

  function VolumeKey(q: Quote): real
  {
    q.volume as real
  }

  function QuoteSymbols(qs: seq<Quote>): (r: seq<string>)
    ensures |r| == |qs|
    ensures forall i :: 0 <= i < |qs| ==> r[i] == qs[i].symbol
  {
    seq(|qs|, i requires 0 <= i < |qs| => qs[i].symbol)
  }

  /** The cache sorted by volume, highest first, ties in cache order. */
  function VolumeRanking(cache: seq<Quote>): (r: seq<Quote>)
    ensures SortedDesc(r, VolumeKey)
    ensures multiset(r) == multiset(cache)
    ensures forall v :: Ties(r, VolumeKey, v) == Ties(cache, VolumeKey, v)
  {
    SortDesc(cache, VolumeKey)
  }

  /** `get_high_volume_symbols`: the symbols of the first `count` quotes of
      the volume ranking. */
  function HighVolumeSymbols(cache: seq<Quote>, count: int): (r: seq<string>)
    ensures |r| == SliceLength(count, |cache|)
    ensures count >= 0 ==> |r| <= count
    ensures forall i :: 0 <= i < |r| ==> r[i] == VolumeRanking(cache)[i].symbol
  {
    QuoteSymbols(PyTake(VolumeRanking(cache), count))
  }

  /** The returned symbols come in non-increasing volume order, and each
      belongs to a cached quote. */
  lemma HighVolumeOrdered(cache: seq<Quote>, count: int)
    ensures var r := HighVolumeSymbols(cache, count);
      var ranking := VolumeRanking(cache);
      && (forall i, j :: 0 <= i < j < |r| ==> ranking[i].volume >= ranking[j].volume)
      && (forall i :: 0 <= i < |r| ==> ranking[i] in cache && ranking[i].symbol == r[i])
  {
    var ranking := VolumeRanking(cache);
    forall i | 0 <= i < |ranking|
      ensures ranking[i] in cache
    {
      SameElements(ranking, cache, ranking[i]);
    }
  }

  // ---------------------------------------------------------------------------
  // Custom criteria
  // ---------------------------------------------------------------------------

  /** Python truthiness of an optional integer. */
  predicate TruthyInt(o: Option<int>)
  {
    o.Some? && o.value != 0
  }

  datatype Criteria = Criteria(
    minVolume: Option<int>,
    minPrice: Option<real>,
    maxPrice: Option<real>,
    minChangePct: Option<real>,
    maxChangePct: Option<real>)

  /** A quote meets every truthy bound; change is compared by absolute value. */
  predicate MeetsCriteria(c: Criteria, q: Quote)
  {
    && (TruthyInt(c.minVolume) ==> q.volume >= c.minVolume.value)
    && (Truthy(c.minPrice) ==> q.price >= c.minPrice.value)
    && (Truthy(c.maxPrice) ==> q.price <= c.maxPrice.value)
    && (Truthy(c.minChangePct) ==> Abs(q.changePct) >= c.minChangePct.value)
    && (Truthy(c.maxChangePct) ==> Abs(q.changePct) <= c.maxChangePct.value)
  }

  /** `filter_by_criteria`: the symbols of the quotes meeting the criteria,
      in cache order. */
  function FilterByCriteria(cache: seq<Quote>, c: Criteria): (r: seq<string>)
    ensures |r| <= |cache|
    ensures forall s :: s in r ==> exists q :: q in cache && q.symbol == s && MeetsCriteria(c, q)
    ensures forall q :: q in cache && MeetsCriteria(c, q) ==> q.symbol in r
  {
    if |cache| == 0 then []
    else
      assert forall q :: q in cache <==> q == cache[0] || q in cache[1..];
      var rest := FilterByCriteria(cache[1..], c);
      if MeetsCriteria(c, cache[0]) then [cache[0].symbol] + rest else rest
  }

  /** Filtering a concatenation filters the parts in order: the symbols keep
      the cache order. */
  lemma {:induction false} FilterByCriteriaAppend(a: seq<Quote>, b: seq<Quote>, c: Criteria)
    ensures FilterByCriteria(a + b, c) == FilterByCriteria(a, c) + FilterByCriteria(b, c)
    decreases |a|
  {
    if |a| == 0 {
      assert a + b == b;
    } else {
      assert (a + b)[0] == a[0];
      assert (a + b)[1..] == a[1..] + b;
      FilterByCriteriaAppend(a[1..], b, c);
    }
  }

  /** A single quote contributes its symbol exactly when it meets the
      criteria. */
  lemma FilterByCriteriaOne(q: Quote, c: Criteria)
    ensures FilterByCriteria([q], c) == if MeetsCriteria(c, q) then [q.symbol] else []
  {
    assert [q][1..] == [];
  }

  /** A criterion left at None or 0 filters nothing. */
  lemma EmptyCriteriaKeepAll(cache: seq<Quote>)
    ensures var none := Criteria(None, Some(0.0), None, Some(0.0), None);
      forall q :: q in cache ==> q.symbol in FilterByCriteria(cache, none)
  {
  }

  // ---------------------------------------------------------------------------
  // Statistics
  // ---------------------------------------------------------------------------

  /** Python's `max(xs)`. */
  function MaxOf(xs: seq<real>): (r: real)
    requires |xs| > 0
    ensures forall i :: 0 <= i < |xs| ==> xs[i] <= r
  {
    if |xs| == 1 then xs[0] else Max(MaxOf(xs[..|xs| - 1]), xs[|xs| - 1])
  }

  /** Python's `min(xs)`. */
  function MinOf(xs: seq<real>): (r: real)
    requires |xs| > 0
    ensures forall i :: 0 <= i < |xs| ==> r <= xs[i]
  {
    if |xs| == 1 then xs[0] else Min(MinOf(xs[..|xs| - 1]), xs[|xs| - 1])
  }

  /** The maximum and the minimum are elements of the sequence. */
  lemma {:induction false} ExtremesAttained(xs: seq<real>)
    requires |xs| > 0
    ensures exists i :: 0 <= i < |xs| && xs[i] == MaxOf(xs)
    ensures exists i :: 0 <= i < |xs| && xs[i] == MinOf(xs)
    decreases |xs|
  {
    if |xs| > 1 {
      var p := xs[..|xs| - 1];
      ExtremesAttained(p);
      var i :| 0 <= i < |p| && p[i] == MaxOf(p);
      var j :| 0 <= j < |p| && p[j] == MinOf(p);
      assert xs[i] == p[i] && xs[j] == p[j];
      if MaxOf(xs) == MaxOf(p) {
        assert xs[i] == MaxOf(xs);
      } else {
        assert xs[|xs| - 1] == MaxOf(xs);
      }
      if MinOf(xs) == MinOf(p) {
        assert xs[j] == MinOf(xs);
      } else {
        assert xs[|xs| - 1] == MinOf(xs);
      }
    } else {
      assert xs[0] == MaxOf(xs) && xs[0] == MinOf(xs);
    }
  }

  lemma {:induction false} SumAtMostMax(xs: seq<real>)
    requires |xs| > 0
    ensures Sum(xs) <= |xs| as real * MaxOf(xs)
    decreases |xs|
  {
    var p := xs[..|xs| - 1];
    if |xs| > 1 {
      SumAtMostMax(p);
      SumStepUpper(Sum(p), xs[|xs| - 1], |p| as real, MaxOf(p), MaxOf(xs));
    } else {
      assert p == [];
    }
  }

  lemma {:induction false} SumAtLeastMin(xs: seq<real>)
    requires |xs| > 0
    ensures |xs| as real * MinOf(xs) <= Sum(xs)
    decreases |xs|
  {
    var p := xs[..|xs| - 1];
    if |xs| > 1 {
      SumAtLeastMin(p);
      SumStepLower(Sum(p), xs[|xs| - 1], |p| as real, MinOf(p), MinOf(xs));
    } else {
      assert p == [];
    }
  }

  /** The mean lies between the minimum and the maximum. */
  lemma MeanBetweenExtremes(xs: seq<real>)
    requires |xs| > 0
    ensures MinOf(xs) <= Sum(xs) / |xs| as real <= MaxOf(xs)
  {
    SumAtMostMax(xs);
    SumAtLeastMin(xs);
    MeanBound(Sum(xs), |xs| as real, MinOf(xs), MaxOf(xs));
  }

  datatype ScanStats = ScanStats(
    totalSymbols: nat,
    avgVolume: real,
    avgPrice: real,
    avgChange: real,
    maxChange: real,
    minChange: real)

  function Changes(cache: seq<Quote>): (r: seq<real>)
    ensures |r| == |cache|
    ensures forall i :: 0 <= i < |cache| ==> r[i] == cache[i].changePct
  {
    if |cache| == 0 then [] else [cache[0].changePct] + Changes(cache[1..])
  }

  function Prices(cache: seq<Quote>): (r: seq<real>)
    ensures |r| == |cache|
    ensures forall i :: 0 <= i < |cache| ==> r[i] == cache[i].price
  {
    if |cache| == 0 then [] else [cache[0].price] + Prices(cache[1..])
  }

  function Volumes(cache: seq<Quote>): (r: seq<real>)
    ensures |r| == |cache|
    ensures forall i :: 0 <= i < |cache| ==> r[i] == cache[i].volume as real
  {
    if |cache| == 0 then [] else [cache[0].volume as real] + Volumes(cache[1..])
  }

  /** The arithmetic mean of a non-empty sequence. */
  function Mean(xs: seq<real>): (r: real)
    requires |xs| > 0
    ensures r * |xs| as real == Sum(xs)
    ensures MinOf(xs) <= r <= MaxOf(xs)
  {
    DivMulCancel(Sum(xs), |xs| as real);
    MeanBetweenExtremes(xs);
    Sum(xs) / |xs| as real
  }

  /** `get_stats`: nothing for an empty cache; otherwise counts, means and the
      extreme daily changes (the scan timestamp is not modelled). */
  function Stats(cache: seq<Quote>): (r: Option<ScanStats>)
    ensures r.None? <==> |cache| == 0
    ensures r.Some? ==>
      && r.value.totalSymbols == |cache|
      && r.value.minChange <= r.value.avgChange <= r.value.maxChange
      && (forall i :: 0 <= i < |cache| ==> r.value.minChange <= cache[i].changePct <= r.value.maxChange)
      && (exists i :: 0 <= i < |cache| && cache[i].changePct == r.value.maxChange)
      && (exists i :: 0 <= i < |cache| && cache[i].changePct == r.value.minChange)
      && r.value.avgChange == Mean(Changes(cache))
      && r.value.avgPrice == Mean(Prices(cache))
      && r.value.avgVolume == Mean(Volumes(cache))
  {
    if |cache| == 0 then None
    else
      var changes := Changes(cache);
      ExtremesAttained(changes);
      Some(ScanStats(|cache|, Mean(Volumes(cache)), Mean(Prices(cache)), Mean(changes),
                     MaxOf(changes), MinOf(changes)))
  }
}

=== FILE: options_strategies.dfy ===
/** The options strategies of strategies/options_strategies.py: the contract
    filter and delta-closest pick of OptionsScalper, its signal rule, and the
    early-exit rules of the CreditSpread and IronCondor placeholders.
    Days to expiration arrive as an input per expiration rather than being
    computed from the clock. */
module OptionsStrategies {
  import opened Basics
  import opened Config
  import opened Strategies

  /** One contract of an option chain, with the quote fields the filter reads
      (a field missing from the quote reads as 0). */
  datatype OptionContract = OptionContract(
    symbol: string,
    delta: real,
    totalVolume: real,
    openInterest: real,
    theoreticalOptionValue: real,
    bid: real,
    ask: real,
    mark: real,
    volatility: real)

  datatype StrikeRow = StrikeRow(strike: real, contracts: seq<OptionContract>)

  /** One expiration of a chain: its key, its days to expiration, and its
      strikes in the chain's order. */
  datatype Expiration = Expiration(expiry: string, dte: int, strikes: seq<StrikeRow>)

  /** The call and put maps of a chain; a missing map is empty. */
  datatype OptionChain = OptionChain(calls: seq<Expiration>, puts: seq<Expiration>)

  datatype OptionRight = Call | Put

  /** One contract together with where it sits in the chain, in the order the
      nested loops visit it. */
  datatype Listing = Listing(expiration: string, dte: int, strike: real, contract: OptionContract)

  /** The record the filter builds for a contract that passes. */
  datatype Candidate = Candidate(
    symbol: string,
    strike: real,
    expiration: string,
    dte: int,
    delta: real,
    bid: real,
    ask: real,
    mark: real,
    volume: real,
    openInterest: real,
    iv: real)

  function RowListings(expiry: string, dte: int, strike: real, cs: seq<OptionContract>): (r: seq<Listing>)
    ensures |r| == |cs|
    ensures forall i :: 0 <= i < |r| ==> r[i] == Listing(expiry, dte, strike, cs[i])
  {
    if |cs| == 0 then [] else [Listing(expiry, dte, strike, cs[0])] + RowListings(expiry, dte, strike, cs[1..])
  }

  function StrikeListings(expiry: string, dte: int, rows: seq<StrikeRow>): seq<Listing>
  {
    if |rows| == 0 then []
    else RowListings(expiry, dte, rows[0].strike, rows[0].contracts) + StrikeListings(expiry, dte, rows[1..])
  }

  /** Every contract of the expirations, expiration by expiration, strike by
      strike. */
  function Listings(exps: seq<Expiration>): seq<Listing>
  {
    if |exps| == 0 then []
    else StrikeListings(exps[0].expiry, exps[0].dte, exps[0].strikes) + Listings(exps[1..])
  }

  /** The four filters of `_find_suitable_option`. */
  predicate Suitable(cfg: StrategyConfig, l: Listing)
  {
    && cfg.optionMinDte <= l.dte <= cfg.optionMaxDte
    && cfg.optionDeltaLow <= Abs(l.contract.delta) <= cfg.optionDeltaHigh
    && l.contract.totalVolume >= 10.0
    && l.contract.openInterest >= 100.0
    && l.contract.theoreticalOptionValue <= cfg.optionMaxIvPercentile
  }

  function ToCandidate(l: Listing): Candidate
  {
    var c := l.contract;
    Candidate(c.symbol, l.strike, l.expiration, l.dte, Abs(c.delta), c.bid, c.ask, c.mark,
              c.totalVolume, c.openInterest, c.volatility)
  }

  /** The candidates of the filter loop: the suitable listings, converted, in
      visiting order. */
  function SuitableOptions(cfg: StrategyConfig, ls: seq<Listing>): (r: seq<Candidate>)
    ensures |r| <= |ls|
    ensures forall i :: 0 <= i < |r| ==>
      exists j :: 0 <= j < |ls| && Suitable(cfg, ls[j]) && r[i] == ToCandidate(ls[j])
    ensures forall j :: 0 <= j < |ls| && Suitable(cfg, ls[j]) ==> ToCandidate(ls[j]) in r
  {
    if |ls| == 0 then []
    else
      var rest := SuitableOptions(cfg, ls[1..]);
      assert forall j :: 1 <= j < |ls| ==> ls[j] == ls[1..][j - 1];
      if Suitable(cfg, ls[0]) then [ToCandidate(ls[0])] + rest else rest
  }

  /** Filtering a concatenation filters the parts in order: the candidates
      keep the visiting order, which decides the tie-break of the pick. */
  lemma {:induction false} SuitableOptionsAppend(cfg: StrategyConfig, a: seq<Listing>, b: seq<Listing>)
    ensures SuitableOptions(cfg, a + b) == SuitableOptions(cfg, a) + SuitableOptions(cfg, b)
    decreases |a|
  {
    if |a| == 0 {
      assert a + b == b;
    } else {
      assert (a + b)[0] == a[0];
      assert (a + b)[1..] == a[1..] + b;
      SuitableOptionsAppend(cfg, a[1..], b);
    }
  }

  /** A single listing becomes one candidate exactly when it is suitable. */
  lemma SuitableOptionsOne(cfg: StrategyConfig, l: Listing)
    ensures SuitableOptions(cfg, [l]) == if Suitable(cfg, l) then [ToCandidate(l)] else []
  {
    assert [l][1..] == [];
  }

  /** The pick key: distance of the contract's delta from 0.50. */
  function DeltaDistance(c: Candidate): real
  {
    Abs(c.delta - 0.5)
  }

  /** Index of the first candidate with the smallest distance: the head of a
      stable sort by that distance. */
  function FirstClosest(cs: seq<Candidate>): (i: nat)
    requires |cs| > 0
    ensures i < |cs|
    ensures forall j :: 0 <= j < |cs| ==> DeltaDistance(cs[i]) <= DeltaDistance(cs[j])
    ensures forall j :: 0 <= j < i ==> DeltaDistance(cs[j]) > DeltaDistance(cs[i])
    decreases |cs|
  {
    if |cs| == 1 then 0
    else
      var k := FirstClosest(cs[..|cs| - 1]);
      if DeltaDistance(cs[|cs| - 1]) < DeltaDistance(cs[k]) then |cs| - 1 else k
  }

  function ExpirationsFor(chain: OptionChain, right: OptionRight): seq<Expiration>
  {
    match right
    case Call => chain.calls
    case Put => chain.puts
  }

  /** `_find_suitable_option`: None when no contract passes the filters,
      otherwise the first passing contract whose delta is closest to 0.50. */
  function FindSuitableOption(cfg: StrategyConfig, chain: OptionChain, right: OptionRight): (r: Option<Candidate>)
    ensures var cs := SuitableOptions(cfg, Listings(ExpirationsFor(chain, right)));
      && (r.None? <==> |cs| == 0)
      && (r.Some? ==>
            && r.value in cs
            && (forall c :: c in cs ==> DeltaDistance(r.value) <= DeltaDistance(c))
            && (exists i :: 0 <= i < |cs| && cs[i] == r.value
                  && forall j :: 0 <= j < i ==> DeltaDistance(cs[j]) > DeltaDistance(r.value)))
  {
    var cs := SuitableOptions(cfg, Listings(ExpirationsFor(chain, right)));
    if |cs| == 0 then None else Some(cs[FirstClosest(cs)])
  }

  /** The picked contract meets every filter bound that its record carries. */
  lemma PickedOptionWithinBounds(cfg: StrategyConfig, chain: OptionChain, right: OptionRight)
    ensures var r := FindSuitableOption(cfg, chain, right);
      r.Some? ==>
        && cfg.optionMinDte <= r.value.dte <= cfg.optionMaxDte
        && cfg.optionDeltaLow <= r.value.delta <= cfg.optionDeltaHigh
        && r.value.volume >= 10.0 && r.value.openInterest >= 100.0
  {
    var cs := SuitableOptions(cfg, Listings(ExpirationsFor(chain, right)));
    var r := FindSuitableOption(cfg, chain, right);
    if r.Some? {
      var i :| 0 <= i < |cs| && cs[i] == r.value;
      var j :| 0 <= j < |Listings(ExpirationsFor(chain, right))|
        && Suitable(cfg, Listings(ExpirationsFor(chain, right))[j])
        && cs[i] == ToCandidate(Listings(ExpirationsFor(chain, right))[j]);
    }
  }

  const OptionTargetProfitPct: real := 0.25
  const OptionStopLossPct: real := 0.50

  /** `_create_option_signal`: entry at the mark, stop 50% below it, target
      25% above it, fixed strength 0.7; always counted. */
  function CreateOptionSignal(st: StrategyStats, option: Candidate, direction: Direction): (r: Analysis)
    ensures CountsSignal(st, r) && r.signal.Some?
    ensures var s := r.signal.value;
      && s.symbol == option.symbol && s.direction == direction
      && s.strength == 0.7 && s.entryPrice == option.mark
      && s.stopLoss == option.mark * 0.5 && s.takeProfit == option.mark * 1.25
      && s.strategyName == "OptionsScalper"
  {
    Emit(st, Some(Signal(option.symbol, direction, 0.7, option.mark,
                         option.mark * (1.0 - OptionStopLossPct),
                         option.mark * (1.0 + OptionTargetProfitPct), "OptionsScalper")))
  }

  /** A bought option exits below its premium on the stop and above it on the
      target, for calls and puts alike. */
  lemma OptionSignalLevels(st: StrategyStats, option: Candidate, direction: Direction)
    requires option.mark > 0.0
    ensures var s := CreateOptionSignal(st, option, direction).signal.value;
      s.stopLoss < s.entryPrice < s.takeProfit
  {
  }

  /** The comparisons `ema8 > ema21` and `ema8 < ema21` raise on a missing
      EMA21, but each is reached only when its RSI condition holds. */
  predicate ScalperRaises(ind: Indicators)
  {
    ind.ema21.None? && ind.rsi.Some? && (ind.rsi.value < 40.0 || ind.rsi.value > 60.0)
  }

  predicate ScalperBullish(ind: Indicators)
    requires ind.rsi.Some? && ind.ema8.Some? && ind.ema21.Some?
  {
    && ind.rsi.value < 40.0 && ind.ema8.value > ind.ema21.value
    && Truthy(ind.volumeRatio) && ind.volumeRatio.value > 1.5
  }

  predicate ScalperBearish(ind: Indicators)
    requires ind.rsi.Some? && ind.ema8.Some? && ind.ema21.Some?
  {
    && ind.rsi.value > 60.0 && ind.ema8.value < ind.ema21.value
    && Truthy(ind.volumeRatio) && ind.volumeRatio.value > 1.5
  }

  /** `OptionsScalper.analyze`. The chain is `None` when it is missing or
      empty. A bullish setup looks only for a call (LONG), a bearish one only
      for a put (SHORT); no suitable contract means no signal. */
  function OptionsScalperAnalyze(cfg: StrategyConfig, st: StrategyStats, ind: Indicators,
                                 chain: Option<OptionChain>): (r: Result<Analysis>)
    ensures r.Err? <==> (Truthy(ind.rsi) && Truthy(ind.ema8) && chain.Some? && ScalperRaises(ind))
    ensures r.Err? ==> r.error == TypeError
    ensures r.Ok? ==> CountsSignal(st, r.value)
    ensures r.Ok? && r.value.signal.Some? ==>
      && Truthy(ind.rsi) && Truthy(ind.ema8) && ind.ema21.Some? && chain.Some?
      && (r.value.signal.value.direction == Long ==>
            && ScalperBullish(ind)
            && FindSuitableOption(cfg, chain.value, Call).Some?
            && r.value == CreateOptionSignal(st, FindSuitableOption(cfg, chain.value, Call).value, Long))
      && (r.value.signal.value.direction == Short ==>
            && !ScalperBullish(ind) && ScalperBearish(ind)
            && FindSuitableOption(cfg, chain.value, Put).Some?
            && r.value == CreateOptionSignal(st, FindSuitableOption(cfg, chain.value, Put).value, Short))
    ensures r.Ok? && Truthy(ind.rsi) && Truthy(ind.ema8) && ind.ema21.Some? && chain.Some? ==>
      && (ScalperBullish(ind) ==>
            (r.value.signal.Some? <==> FindSuitableOption(cfg, chain.value, Call).Some?))
      && (!ScalperBullish(ind) && ScalperBearish(ind) ==>
            (r.value.signal.Some? <==> FindSuitableOption(cfg, chain.value, Put).Some?))
      && (!ScalperBullish(ind) && !ScalperBearish(ind) ==> r.value.signal.None?)
  {
    if !Truthy(ind.rsi) || !Truthy(ind.ema8) then Ok(Emit(st, None))
    else if chain.None? then Ok(Emit(st, None))
    else if ScalperRaises(ind) then Err(TypeError)
    else if ind.ema21.None? then Ok(Emit(st, None))
    else if ScalperBullish(ind) then
      match FindSuitableOption(cfg, chain.value, Call)
      case Some(option) => Ok(CreateOptionSignal(st, option, Long))
      case None => Ok(Emit(st, None))
    else if ScalperBearish(ind) then
      match FindSuitableOption(cfg, chain.value, Put)
      case Some(option) => Ok(CreateOptionSignal(st, option, Short))
      case None => Ok(Emit(st, None))
    else Ok(Emit(st, None))
  }

  /** Every options-scalper signal buys a contract of the chain that passes
      the filters (a call for LONG, a put for SHORT), at its mark, and for a
      positive mark its stop and target bracket that premium. */
  lemma ScalperSignalTradesSuitableContract(cfg: StrategyConfig, st: StrategyStats, ind: Indicators,
                                            chain: Option<OptionChain>)
    ensures var r := OptionsScalperAnalyze(cfg, st, ind, chain);
      r.Ok? && r.value.signal.Some? ==>
        var s := r.value.signal.value;
        var o := FindSuitableOption(cfg, chain.value, if s.direction == Long then Call else Put);
        && o.Some? && s.symbol == o.value.symbol && s.entryPrice == o.value.mark
        && cfg.optionMinDte <= o.value.dte <= cfg.optionMaxDte
        && cfg.optionDeltaLow <= o.value.delta <= cfg.optionDeltaHigh
        && o.value.volume >= 10.0 && o.value.openInterest >= 100.0
        && (o.value.mark > 0.0 ==> s.stopLoss < s.entryPrice < s.takeProfit)
  {
    var r := OptionsScalperAnalyze(cfg, st, ind, chain);
    if r.Ok? && r.value.signal.Some? {
      var right := if r.value.signal.value.direction == Long then Call else Put;
      PickedOptionWithinBounds(cfg, chain.value, right);
      var o := FindSuitableOption(cfg, chain.value, right);
      if o.value.mark > 0.0 {
        OptionSignalLevels(st, o.value, r.value.signal.value.direction);
      }
    }
  }

  // ---------------------------------------------------------------------------
  // Placeholder strategies
  // ---------------------------------------------------------------------------

  datatype SpreadKind = BullPut | BearCall

  /** The market direction CreditSpread reads; every comparison is guarded by
      the truthiness of its operands, so it never raises. */
  function CreditSpreadSetup(ind: Indicators): (r: Option<SpreadKind>)
    ensures r == Some(BullPut) ==>
      Truthy(ind.ema8) && Truthy(ind.ema21) && ind.ema8.value > ind.ema21.value
      && Truthy(ind.rsi) && ind.rsi.value < 60.0
    ensures r == Some(BearCall) ==>
      Truthy(ind.ema8) && Truthy(ind.ema21) && ind.ema8.value < ind.ema21.value
      && Truthy(ind.rsi) && ind.rsi.value > 40.0
    ensures r.None? ==>
      !(Truthy(ind.ema8) && Truthy(ind.ema21) && Truthy(ind.rsi)) || ind.ema8.value == ind.ema21.value
      || (ind.ema8.value > ind.ema21.value && ind.rsi.value >= 60.0)
      || (ind.ema8.value < ind.ema21.value && ind.rsi.value <= 40.0)
  {
    if !(Truthy(ind.ema8) && Truthy(ind.ema21) && Truthy(ind.rsi)) then None
    else if ind.ema8.value > ind.ema21.value && ind.rsi.value < 60.0 then Some(BullPut)
    else if ind.ema8.value < ind.ema21.value && ind.rsi.value > 40.0 then Some(BearCall)
    else None
  }

  /** The spread finders are placeholders that find nothing. */
  function FindSpread(chain: OptionChain, kind: SpreadKind, price: real): Option<Candidate>
  {
    None
  }

  /** `CreditSpread.analyze`: whatever the setup, the finder returns nothing,
      so no signal is produced and nothing is counted. */
  function CreditSpreadAnalyze(st: StrategyStats, ind: Indicators, chain: Option<OptionChain>): (r: Analysis)
    ensures r.signal.None? && r.stats == st
  {
    if chain.None? then Emit(st, None)
    else
      match CreditSpreadSetup(ind)
      case None => Emit(st, None)
      case Some(kind) =>
        match FindSpread(chain.value, kind, ind.close)
        case None => Emit(st, None)
        case Some(_) => Emit(st, None)
  }

  const IronCondorMaxWidth: real := 0.08

  /** `IronCondor.analyze`. With a truthy upper band the band width is
      computed first: a missing lower band raises TypeError and a zero close
      ZeroDivisionError. Past the width and RSI gates the finder is a
      placeholder, so no signal is ever produced. */
  function IronCondorAnalyze(st: StrategyStats, ind: Indicators, chain: Option<OptionChain>): (r: Result<Analysis>)
    ensures r.Err? <==> Truthy(ind.bollingerUpper) && (ind.bollingerLower.None? || ind.close == 0.0)
    ensures r.Err? ==> r.error == (if ind.bollingerLower.None? then TypeError else ZeroDivisionError)
    ensures r.Ok? ==> r.value.signal.None? && r.value.stats == st
  {
    if !Truthy(ind.bollingerUpper) then Ok(Emit(st, None))
    else if ind.bollingerLower.None? then Err(TypeError)
    else if ind.close == 0.0 then Err(ZeroDivisionError)
    else
      var width := (ind.bollingerUpper.value - ind.bollingerLower.value) / ind.close;
      if width > IronCondorMaxWidth then Ok(Emit(st, None))
      else if !Truthy(ind.rsi) || ind.rsi.value < 40.0 || ind.rsi.value > 60.0 then Ok(Emit(st, None))
      else if chain.None? then Ok(Emit(st, None))
      else Ok(Emit(st, FindIronCondor(chain.value, ind.close)))
  }

  /** The iron-condor finder is a placeholder that finds nothing. */
  function FindIronCondor(chain: OptionChain, price: real): (r: Option<Signal>)
    ensures r.None?
  {
    None
  }
}

=== FILE: order_builder.dfy ===
/** Order payloads for the Schwab trading API, after core/order_builder.py:
    the wire enumerations, the static builders (single equity and option
    orders, brackets, trailing stops, option spreads), the option-symbol
    formatter and the structural validator.

    A payload is a JSON object. It is modelled as a record whose every key is
    an `Option`: `None` is a key the dictionary does not contain. Prices are
    kept exact; the two-decimal rounding the builders apply is not modelled. */
module OrderBuilder {
  import opened Basics

  // ---------------------------------------------------------------------------
  // Wire enumerations
  // ---------------------------------------------------------------------------

  datatype OrderType = Market | Limit | Stop | StopLimit | TrailingStop
  datatype OrderDuration = Day | GoodTillCancel | FillOrKill
  datatype OrderInstruction =
    | Buy | Sell | BuyToCover | SellShort
    | BuyToOpen | BuyToClose | SellToOpen | SellToClose
  datatype AssetType = Equity | OptionAsset
  datatype OptionType = CallOption | PutOption

  function OrderTypeWire(t: OrderType): string
  {
    match t
    case Market => "MARKET"
    case Limit => "LIMIT"
    case Stop => "STOP"
    case StopLimit => "STOP_LIMIT"
    case TrailingStop => "TRAILING_STOP"
  }

  function OrderTypeFromWire(s: string): (r: Option<OrderType>)
    ensures r.Some? ==> OrderTypeWire(r.value) == s
  {
    if s == "MARKET" then Some(Market)
    else if s == "LIMIT" then Some(Limit)
    else if s == "STOP" then Some(Stop)
    else if s == "STOP_LIMIT" then Some(StopLimit)
    else if s == "TRAILING_STOP" then Some(TrailingStop)
    else None
  }

  function DurationWire(d: OrderDuration): string
  {
    match d
    case Day => "DAY"
    case GoodTillCancel => "GOOD_TILL_CANCEL"
    case FillOrKill => "FILL_OR_KILL"
  }

  function DurationFromWire(s: string): (r: Option<OrderDuration>)
    ensures r.Some? ==> DurationWire(r.value) == s
  {
    if s == "DAY" then Some(Day)
    else if s == "GOOD_TILL_CANCEL" then Some(GoodTillCancel)
    else if s == "FILL_OR_KILL" then Some(FillOrKill)
    else None
  }

  function InstructionWire(i: OrderInstruction): string
  {
    match i
    case Buy => "BUY"
    case Sell => "SELL"
    case BuyToCover => "BUY_TO_COVER"
    case SellShort => "SELL_SHORT"
    case BuyToOpen => "BUY_TO_OPEN"
    case BuyToClose => "BUY_TO_CLOSE"
    case SellToOpen => "SELL_TO_OPEN"
    case SellToClose => "SELL_TO_CLOSE"
  }

  function InstructionFromWire(s: string): (r: Option<OrderInstruction>)
    ensures r.Some? ==> InstructionWire(r.value) == s
  {
    if s == "BUY" then Some(Buy)
    else if s == "SELL" then Some(Sell)
    else if s == "BUY_TO_COVER" then Some(BuyToCover)
    else if s == "SELL_SHORT" then Some(SellShort)
    else if s == "BUY_TO_OPEN" then Some(BuyToOpen)
    else if s == "BUY_TO_CLOSE" then Some(BuyToClose)
    else if s == "SELL_TO_OPEN" then Some(SellToOpen)
    else if s == "SELL_TO_CLOSE" then Some(SellToClose)
    else None
  }

  function AssetTypeWire(a: AssetType): string
  {
    match a
    case Equity => "EQUITY"
    case OptionAsset => "OPTION"
  }

  function AssetTypeFromWire(s: string): (r: Option<AssetType>)
    ensures r.Some? ==> AssetTypeWire(r.value) == s
  {
    if s == "EQUITY" then Some(Equity) else if s == "OPTION" then Some(OptionAsset) else None
  }

  function OptionTypeWire(t: OptionType): string
  {
    match t
    case CallOption => "CALL"
    case PutOption => "PUT"
  }

  /** Every enumeration member has its own wire string, and the string reads
      back as that member. */
  lemma WireRoundTrips(t: OrderType, d: OrderDuration, i: OrderInstruction, a: AssetType)
    ensures OrderTypeFromWire(OrderTypeWire(t)) == Some(t)
    ensures DurationFromWire(DurationWire(d)) == Some(d)
    ensures InstructionFromWire(InstructionWire(i)) == Some(i)
    ensures AssetTypeFromWire(AssetTypeWire(a)) == Some(a)
  {
  }

  /** A purchase: the instruction adds to a long holding or covers a short. */
  predicate IsBuy(i: OrderInstruction)
  {
    i.Buy? || i.BuyToCover? || i.BuyToOpen? || i.BuyToClose?
  }

  /** The instruction opens a position (as opposed to closing one). */
  predicate Opens(i: OrderInstruction)
  {
    i.Buy? || i.SellShort? || i.BuyToOpen? || i.SellToOpen?
  }

  // ---------------------------------------------------------------------------
  // Payload
  // ---------------------------------------------------------------------------

  datatype Instrument = Instrument(symbol: Option<string>, assetType: Option<string>)

  datatype Leg = Leg(instruction: Option<string>, quantity: Option<int>, instrument: Option<Instrument>)

  datatype Order = Order(
    orderType: Option<string>,
    session: Option<string>,
    duration: Option<string>,
    orderStrategyType: Option<string>,
    orderLegCollection: Option<seq<Leg>>,
    price: Option<real>,
    stopPrice: Option<real>,
    stopPriceLinkBasis: Option<string>,
    stopPriceLinkType: Option<string>,
    stopPriceOffset: Option<real>,
    childOrderStrategies: Option<seq<Order>>)

  function MakeLeg(instruction: string, quantity: int, symbol: string, asset: AssetType): Leg
  {
    Leg(Some(instruction), Some(quantity), Some(Instrument(Some(symbol), Some(AssetTypeWire(asset)))))
  }

  /** A payload with the five common keys and nothing else. */
  function BaseOrder(orderType: string, duration: string, strategy: string, legs: seq<Leg>): Order
  {
    Order(Some(orderType), Some("NORMAL"), Some(duration), Some(strategy), Some(legs),
          None, None, None, None, None, None)
  }

  /** The price keys of a single order: `price` for a LIMIT with a truthy
      price, `stopPrice` for a STOP or STOP_LIMIT with a truthy stop, and
      `price` too for a STOP_LIMIT with both. */
  function WithPrices(o: Order, t: OrderType, price: Option<real>, stopPrice: Option<real>): (r: Order)
    requires o.price.None? && o.stopPrice.None?
    ensures r.price.Some? <==>
      (t == Limit && Truthy(price)) || (t == StopLimit && Truthy(stopPrice) && Truthy(price))
    ensures r.price.Some? ==> r.price == price
    ensures r.stopPrice.Some? <==> (t == Stop || t == StopLimit) && Truthy(stopPrice)
    ensures r.stopPrice.Some? ==> r.stopPrice == stopPrice
    ensures r == o.(price := r.price, stopPrice := r.stopPrice)
  {
    var o1 := if t == Limit && Truthy(price) then o.(price := price) else o;
    if (t == Stop || t == StopLimit) && Truthy(stopPrice) then
      var o2 := o1.(stopPrice := stopPrice);
      if t == StopLimit && Truthy(price) then o2.(price := price) else o2
    else o1
  }

  function SingleOrder(symbol: string, quantity: int, instruction: OrderInstruction, asset: AssetType,
                       t: OrderType, d: OrderDuration, price: Option<real>, stopPrice: Option<real>): Order
  {
    WithPrices(BaseOrder(OrderTypeWire(t), DurationWire(d), "SINGLE",
                         [MakeLeg(InstructionWire(instruction), quantity, symbol, asset)]),
               t, price, stopPrice)
  }

  /** What every single-leg order states: the wire enumerations, one leg with
      the given symbol, quantity, instruction and asset type, and the price
      keys exactly as `WithPrices` decides. */
  predicate IsSingleOrder(o: Order, symbol: string, quantity: int, instruction: OrderInstruction, asset: AssetType,
                          t: OrderType, d: OrderDuration, price: Option<real>, stopPrice: Option<real>)
  {
    && o.orderType == Some(OrderTypeWire(t))
    && o.session == Some("NORMAL")
    && o.duration == Some(DurationWire(d))
    && o.orderStrategyType == Some("SINGLE")
    && o.orderLegCollection == Some([MakeLeg(InstructionWire(instruction), quantity, symbol, asset)])
    && (o.price.Some? <==> (t == Limit && Truthy(price)) || (t == StopLimit && Truthy(stopPrice) && Truthy(price)))
    && (o.price.Some? ==> o.price == price)
    && (o.stopPrice.Some? <==> (t == Stop || t == StopLimit) && Truthy(stopPrice))
    && (o.stopPrice.Some? ==> o.stopPrice == stopPrice)
    && o.childOrderStrategies.None? && o.stopPriceOffset.None?
  }

  /** `build_equity_order`. */
  function BuildEquityOrder(symbol: string, quantity: int, instruction: OrderInstruction,
                            t: OrderType, d: OrderDuration, price: Option<real>, stopPrice: Option<real>): (r: Order)
    ensures IsSingleOrder(r, symbol, quantity, instruction, Equity, t, d, price, stopPrice)
  {
    SingleOrder(symbol, quantity, instruction, Equity, t, d, price, stopPrice)
  }

  /** `build_option_order`: the equity order with asset type OPTION. */
  function BuildOptionOrder(optionSymbol: string, quantity: int, instruction: OrderInstruction,
                            t: OrderType, d: OrderDuration, price: Option<real>, stopPrice: Option<real>): (r: Order)
    ensures IsSingleOrder(r, optionSymbol, quantity, instruction, OptionAsset, t, d, price, stopPrice)
  {
    SingleOrder(optionSymbol, quantity, instruction, OptionAsset, t, d, price, stopPrice)
  }

  /** A market order never carries a price or a stop price. */
  lemma MarketOrdersCarryNoPrice(symbol: string, quantity: int, instruction: OrderInstruction,
                                 d: OrderDuration, price: Option<real>, stopPrice: Option<real>)
    ensures BuildEquityOrder(symbol, quantity, instruction, Market, d, price, stopPrice).price.None?
    ensures BuildEquityOrder(symbol, quantity, instruction, Market, d, price, stopPrice).stopPrice.None?
    ensures BuildOptionOrder(symbol, quantity, instruction, Market, d, price, stopPrice).price.None?
    ensures BuildOptionOrder(symbol, quantity, instruction, Market, d, price, stopPrice).stopPrice.None?
  {
  }

  // ---------------------------------------------------------------------------
  // Bracket
  // ---------------------------------------------------------------------------

  /** Entry and exit instructions of a bracket, by asset type and side. */
  function BracketInstructions(asset: AssetType, isLong: bool): (r: (OrderInstruction, OrderInstruction))
    ensures asset == Equity ==> r == (if isLong then (Buy, Sell) else (SellShort, BuyToCover))
    ensures asset == OptionAsset ==>
      r == (if isLong then (BuyToOpen, SellToClose) else (SellToOpen, BuyToClose))
  {
    match asset
    case Equity => if isLong then (Buy, Sell) else (SellShort, BuyToCover)
    case OptionAsset => if isLong then (BuyToOpen, SellToClose) else (SellToOpen, BuyToClose)
  }

  /** The entry buys exactly when the bracket is long, the exit trades the
      other side, the entry opens and the exit closes. */
  lemma BracketSidesAreOpposite(asset: AssetType, isLong: bool)
    ensures var (entry, exit) := BracketInstructions(asset, isLong);
      && (IsBuy(entry) <==> isLong)
      && (IsBuy(exit) <==> !isLong)
      && Opens(entry) && !Opens(exit)
  {
  }

  /** `build_bracket_order`: a TRIGGER LIMIT entry whose children are a GTC
      stop and then a GTC limit, all on the same instrument and quantity. */
  function BuildBracketOrder(symbol: string, quantity: int, entryPrice: real, stopLossPrice: real,
                             takeProfitPrice: real, asset: AssetType, isLong: bool): (r: Order)
    ensures var (entry, exit) := BracketInstructions(asset, isLong);
      && r.orderType == Some("LIMIT") && r.orderStrategyType == Some("TRIGGER")
      && r.duration == Some("DAY") && r.price == Some(entryPrice)
      && r.orderLegCollection == Some([MakeLeg(InstructionWire(entry), quantity, symbol, asset)])
      && r.childOrderStrategies.Some? && |r.childOrderStrategies.value| == 2
      && var stop := r.childOrderStrategies.value[0];
         var target := r.childOrderStrategies.value[1];
         && stop.orderType == Some("STOP") && stop.duration == Some("GOOD_TILL_CANCEL")
         && stop.stopPrice == Some(stopLossPrice) && stop.price.None?
         && target.orderType == Some("LIMIT") && target.duration == Some("GOOD_TILL_CANCEL")
         && target.price == Some(takeProfitPrice) && target.stopPrice.None?
         && stop.orderStrategyType == Some("SINGLE") && target.orderStrategyType == Some("SINGLE")
         && stop.orderLegCollection == Some([MakeLeg(InstructionWire(exit), quantity, symbol, asset)])
         && target.orderLegCollection == Some([MakeLeg(InstructionWire(exit), quantity, symbol, asset)])
         && stop.childOrderStrategies.None? && target.childOrderStrategies.None?
  {
    var (entry, exit) := BracketInstructions(asset, isLong);
    var exitLeg := MakeLeg(InstructionWire(exit), quantity, symbol, asset);
    var stop := BaseOrder("STOP", "GOOD_TILL_CANCEL", "SINGLE", [exitLeg]).(stopPrice := Some(stopLossPrice));
    var target := BaseOrder("LIMIT", "GOOD_TILL_CANCEL", "SINGLE", [exitLeg]).(price := Some(takeProfitPrice));
    BaseOrder("LIMIT", "DAY", "TRIGGER", [MakeLeg(InstructionWire(entry), quantity, symbol, asset)])
      .(price := Some(entryPrice), childOrderStrategies := Some([stop, target]))
  }

  // ---------------------------------------------------------------------------
  // Trailing stop and spreads
  // ---------------------------------------------------------------------------

  /** `build_trailing_stop_order`: linked to the bid, by percent for trail
      type "PERCENTAGE" and by value for anything else. */
  function BuildTrailingStopOrder(symbol: string, quantity: int, instruction: OrderInstruction,
                                  trailType: string, trailValue: real, asset: AssetType): (r: Order)
    ensures r.orderType == Some("TRAILING_STOP") && r.duration == Some("GOOD_TILL_CANCEL")
    ensures r.orderStrategyType == Some("SINGLE")
    ensures r.orderLegCollection == Some([MakeLeg(InstructionWire(instruction), quantity, symbol, asset)])
    ensures r.stopPriceLinkBasis == Some("BID")
    ensures r.stopPriceLinkType == Some("PERCENT") <==> trailType == "PERCENTAGE"
    ensures r.stopPriceLinkType == Some("VALUE") <==> trailType != "PERCENTAGE"
    ensures r.stopPriceOffset == Some(trailValue)
    ensures r.price.None? && r.stopPrice.None?
  {
    var o := BaseOrder("TRAILING_STOP", "GOOD_TILL_CANCEL", "SINGLE",
                       [MakeLeg(InstructionWire(instruction), quantity, symbol, asset)]);
    var linkType := if trailType == "PERCENTAGE" then "PERCENT" else "VALUE";
    o.(stopPriceLinkBasis := Some("BID"), stopPriceLinkType := Some(linkType), stopPriceOffset := Some(trailValue))
  }

  /** One leg as the caller of `build_option_spread` supplies it. */
  datatype SpreadLeg = SpreadLeg(symbol: string, quantity: int, instruction: string)

  function SpreadLegs(legs: seq<SpreadLeg>): (r: seq<Leg>)
    ensures |r| == |legs|
    ensures forall i :: 0 <= i < |legs| ==>
      r[i] == Leg(Some(legs[i].instruction), Some(legs[i].quantity),
                  Some(Instrument(Some(legs[i].symbol), Some("OPTION"))))
  {
    if |legs| == 0 then []
    else [Leg(Some(legs[0].instruction), Some(legs[0].quantity), Some(Instrument(Some(legs[0].symbol), Some("OPTION"))))]
         + SpreadLegs(legs[1..])
  }

  /** `build_option_spread`: one OPTION leg per input leg, in order, and the
      absolute net price only for a LIMIT order given one. */
  function BuildOptionSpread(legs: seq<SpreadLeg>, t: OrderType, d: OrderDuration, net: Option<real>): (r: Order)
    ensures r.orderType == Some(OrderTypeWire(t)) && r.duration == Some(DurationWire(d))
    ensures r.orderStrategyType == Some("SINGLE")
    ensures r.orderLegCollection == Some(SpreadLegs(legs))
    ensures r.price.Some? <==> t == Limit && net.Some?
    ensures r.price.Some? ==> r.price.value == Abs(net.value)
    ensures r.stopPrice.None? && r.childOrderStrategies.None?
  {
    var o := BaseOrder(OrderTypeWire(t), DurationWire(d), "SINGLE", SpreadLegs(legs));
    if t == Limit && net.Some? then o.(price := Some(Abs(net.value))) else o
  }

  // ---------------------------------------------------------------------------
  // Option symbol
  // ---------------------------------------------------------------------------

  /** `s.ljust(width)`: pads with spaces on the right, never truncates. */
  function Ljust(s: string, width: nat): (r: string)
    ensures |r| == if |s| >= width then |s| else width
    ensures s <= r
    ensures forall i :: |s| <= i < |r| ==> r[i] == ' '
  {
    if |s| >= width then s else s + seq(width - |s|, _ => ' ')
  }

  function DigitChar(d: nat): (c: char)
    requires d < 10
  {
    "0123456789"[d]
  }

  predicate IsDigit(c: char)
  {
    '0' <= c <= '9'
  }

  function DigitValue(c: char): (d: nat)
    requires IsDigit(c)
    ensures d < 10
  {
    (c - '0') as nat
  }

  /** Decimal digits of a natural number, without leading zeros. */
  function Digits(n: nat): (r: string)
    ensures |r| >= 1
    ensures forall i :: 0 <= i < |r| ==> IsDigit(r[i])
    decreases n
  {
    if n < 10 then [DigitChar(n)] else Digits(n / 10) + [DigitChar(n % 10)]
  }

  /** The value of a string of decimal digits. */
  function ParseDigits(s: string): nat
    requires forall i :: 0 <= i < |s| ==> IsDigit(s[i])
  {
    if |s| == 0 then 0 else ParseDigits(s[..|s| - 1]) * 10 + DigitValue(s[|s| - 1])
  }

  function Pow10(k: nat): (r: nat)
    ensures r >= 1
  {
    if k == 0 then 1 else 10 * Pow10(k - 1)
  }

  function Zeros(k: nat): (r: string)
    ensures |r| == k
    ensures forall i :: 0 <= i < k ==> r[i] == '0'
  {
    seq(k, _ => '0')
  }

  /** Python's `f"{n:0{width}d}"`: zero-padded after the sign, the sign
      counting toward the width, never truncated. */
  function ZeroPadded(n: int, width: nat): (r: string)
  {
    if n >= 0 then
      var ds := Digits(n);
      if |ds| >= width then ds else Zeros(width - |ds|) + ds
    else
      var ds := Digits(-n);
      "-" + (if |ds| + 1 >= width then ds else Zeros(width - 1 - |ds|) + ds)
  }

  /** `parse_option_symbol`: the underlying padded to six characters, the
      expiration, 'C' or 'P', and the strike in thousandths zero-padded to
      eight digits. */
  function OptionSymbol(underlying: string, expiration: string, t: OptionType, strike: real): (r: string)
    ensures underlying <= r
    ensures |r| >= 6 + |expiration| + 1 + 8
  {
    Ljust(underlying, 6) + expiration + [OptionTypeWire(t)[0]] + ZeroPadded(Trunc(strike * 1000.0), 8)
  }

  lemma {:induction false} ParseDigitsOfDigits(n: nat)
    ensures ParseDigits(Digits(n)) == n
    decreases n
  {
    if n >= 10 {
      var ds := Digits(n);
      assert ds[..|ds| - 1] == Digits(n / 10);
      ParseDigitsOfDigits(n / 10);
    }
  }

  /** Leading zeros do not change the value. */
  lemma {:induction false} ParseDigitsIgnoresZeros(k: nat, s: string)
    requires forall i :: 0 <= i < |s| ==> IsDigit(s[i])
    ensures forall i :: 0 <= i < |Zeros(k) + s| ==> IsDigit((Zeros(k) + s)[i])
    ensures ParseDigits(Zeros(k) + s) == ParseDigits(s)
    decreases |s|, k
  {
    var z := Zeros(k) + s;
    assert forall i :: 0 <= i < |z| ==> IsDigit(z[i]) by {
      forall i | 0 <= i < |z|
        ensures IsDigit(z[i])
      {
        if i < k { assert z[i] == '0'; } else { assert z[i] == s[i - k]; }
      }
    }
    if |s| == 0 {
      if k > 0 {
        assert z[..|z| - 1] == Zeros(k - 1) + [];
        ParseDigitsIgnoresZeros(k - 1, []);
        assert Zeros(k - 1) + [] == Zeros(k - 1);
      } else {
        assert z == [];
      }
    } else {
      var s' := s[..|s| - 1];
      assert z[..|z| - 1] == Zeros(k) + s';
      ParseDigitsIgnoresZeros(k, s');
    }
  }

  /** A number below 10^k needs at most k digits. */
  lemma {:induction false} DigitsLength(n: nat, k: nat)
    requires k >= 1 && n < Pow10(k)
    ensures |Digits(n)| <= k
    decreases n
  {
    if n >= 10 {
      assert Pow10(1) == 10;
      assert n / 10 < Pow10(k - 1);
      DigitsLength(n / 10, k - 1);
    }
  }

  /** The four fields of an option symbol. */
  datatype OptionSymbolFields = OptionSymbolFields(root: string, expiration: string, right: OptionType, strikeThousandths: nat)

  /** Reads a 21-character symbol back into its fields. */
  function DecodeOptionSymbol(sym: string): (r: Option<OptionSymbolFields>)
    ensures r.Some? ==> |sym| == 21 && |r.value.root| == 6 && |r.value.expiration| == 6
    ensures r.Some? ==> r.value.strikeThousandths < Pow10(8)
  {
    if |sym| == 21 && (sym[12] == 'C' || sym[12] == 'P')
       && forall i :: 13 <= i < 21 ==> IsDigit(sym[i])
    then
      var digits := sym[13..];
      assert forall i :: 0 <= i < |digits| ==> IsDigit(digits[i]);
      var v := ParseDigits(digits);
      if v < Pow10(8) then
        Some(OptionSymbolFields(sym[..6], sym[6..12], if sym[12] == 'C' then CallOption else PutOption, v))
      else None
    else None
  }

  /** The value of an eight-character digit string is below 10^8. */
  lemma {:induction false} ParseDigitsBound(s: string)
    requires forall i :: 0 <= i < |s| ==> IsDigit(s[i])
    ensures ParseDigits(s) < Pow10(|s|)
    decreases |s|
  {
    if |s| > 0 {
      ParseDigitsBound(s[..|s| - 1]);
    }
  }

  /** An eight-digit zero-padded strike is all digits and reads back as
      itself. */
  lemma PaddedStrikeReads(n: nat)
    requires n < Pow10(8)
    ensures |ZeroPadded(n, 8)| == 8
    ensures forall i :: 0 <= i < 8 ==> IsDigit(ZeroPadded(n, 8)[i])
    ensures ParseDigits(ZeroPadded(n, 8)) == n
  {
    var ds := Digits(n);
    DigitsLength(n, 8);
    ParseDigitsIgnoresZeros(8 - |ds|, ds);
    ParseDigitsOfDigits(n);
  }

  /** A root, an expiration, a right letter and eight digits decode into
      their fields. */
  lemma DecodeOfParts(root: string, expiration: string, right: char, digits: string)
    requires |root| == 6 && |expiration| == 6 && (right == 'C' || right == 'P')
    requires |digits| == 8 && forall i :: 0 <= i < 8 ==> IsDigit(digits[i])
    requires ParseDigits(digits) < Pow10(8)
    ensures DecodeOptionSymbol(root + expiration + [right] + digits)
         == Some(OptionSymbolFields(root, expiration, if right == 'C' then CallOption else PutOption,
                                    ParseDigits(digits)))
  {
    var sym := root + expiration + [right] + digits;
    assert sym[..6] == root;
    assert sym[6..12] == expiration;
    assert sym[12] == right;
    assert sym[13..] == digits;
    forall i | 13 <= i < 21
      ensures IsDigit(sym[i])
    {
      assert sym[i] == digits[i - 13];
    }
  }

  /** The symbol reads back into the padded root, the expiration, the right
      and the strike in thousandths, whenever the underlying fits six
      characters, the expiration has six and the strike is below 100000. */
  lemma OptionSymbolRoundTrip(underlying: string, expiration: string, t: OptionType, strike: real)
    requires |underlying| <= 6 && |expiration| == 6
    requires 0.0 <= strike && Trunc(strike * 1000.0) < Pow10(8)
    ensures DecodeOptionSymbol(OptionSymbol(underlying, expiration, t, strike))
         == Some(OptionSymbolFields(Ljust(underlying, 6), expiration, t, Trunc(strike * 1000.0)))
  {
    var n := Trunc(strike * 1000.0);
    PaddedStrikeReads(n);
    var right := OptionTypeWire(t)[0];
    assert right == (if t == CallOption then 'C' else 'P');
    DecodeOfParts(Ljust(underlying, 6), expiration, right, ZeroPadded(n, 8));
  }

  /** The strike part of the documented example. */
  lemma StrikePartExample()
    ensures ZeroPadded(Trunc(50.0 * 1000.0), 8) == "00050000"
  {
    assert Trunc(50.0 * 1000.0) == 50000;
    assert Digits(5) == "5";
    assert Digits(50) == "50";
    assert Digits(500) == "500";
    assert Digits(5000) == "5000";
    assert Digits(50000) == "50000";
    assert Zeros(3) == "000";
  }

  /** The root part of the documented example. */
  lemma RootPartExample()
    ensures Ljust("AAPL", 6) == "AAPL  "
  {
    assert seq(2, _ => ' ') == "  ";
  }

  /** The documented example: 50-dollar AAPL call expiring 2021-01-15. */
  lemma OptionSymbolExample()
    ensures OptionSymbol("AAPL", "210115", CallOption, 50.0) == "AAPL  210115C00050000"
  {
    StrikePartExample();
    RootPartExample();
    assert OptionTypeWire(CallOption)[0] == 'C';
  }

  // ---------------------------------------------------------------------------
  // Validation
  // ---------------------------------------------------------------------------

  /** A leg carries instruction, quantity and an instrument with symbol and
      asset type. */
  predicate LegComplete(leg: Leg)
  {
    && leg.instruction.Some? && leg.quantity.Some? && leg.instrument.Some?
    && leg.instrument.value.symbol.Some? && leg.instrument.value.assetType.Some?
  }

  /** The structure `validate_order` accepts. */
  predicate WellFormed(o: Order)
  {
    && o.orderType.Some? && o.session.Some? && o.duration.Some?
    && o.orderStrategyType.Some? && o.orderLegCollection.Some?
    && |o.orderLegCollection.value| > 0
    && forall i :: 0 <= i < |o.orderLegCollection.value| ==> LegComplete(o.orderLegCollection.value[i])
  }

  /** The error of one leg, in the order the keys are checked. */
  function LegError(leg: Leg): (r: Option<string>)
    ensures r.None? <==> LegComplete(leg)
  {
    if leg.instruction.None? then Some("Order leg missing instruction")
    else if leg.quantity.None? then Some("Order leg missing quantity")
    else if leg.instrument.None? then Some("Order leg missing instrument")
    else if leg.instrument.value.symbol.None? then Some("Order leg instrument missing symbol")
    else if leg.instrument.value.assetType.None? then Some("Order leg instrument missing assetType")
    else None
  }

  /** The legs in order; the first incomplete leg decides the error. */
  function CheckLegs(legs: seq<Leg>): (r: Result<bool>)
    ensures r.Ok? <==> forall i :: 0 <= i < |legs| ==> LegComplete(legs[i])
    ensures r.Ok? ==> r.value
    ensures r.Err? ==> r.error.ValueError?
    ensures r.Err? && r.error.ValueError? ==>
      exists i :: 0 <= i < |legs| && (forall j :: 0 <= j < i ==> LegComplete(legs[j]))
                  && LegError(legs[i]) == Some(r.error.message)
  {
    if |legs| == 0 then Ok(true)
    else match LegError(legs[0])
      case Some(msg) => Err(ValueError(msg))
      case None =>
        var rest := CheckLegs(legs[1..]);
        assert forall i :: 1 <= i < |legs| ==> legs[i] == legs[1..][i - 1];
        if rest.Err? && rest.error.ValueError? then
          var k :| 0 <= k < |legs[1..]| && (forall j :: 0 <= j < k ==> LegComplete(legs[1..][j]))
                   && LegError(legs[1..][k]) == Some(rest.error.message);
          assert LegError(legs[k + 1]) == Some(rest.error.message);
          rest
        else rest
  }

  /** `validate_order`: True, or ValueError naming the first problem. */
  function ValidateOrder(o: Order): (r: Result<bool>)
    ensures r.Ok? <==> WellFormed(o)
    ensures r.Ok? ==> r.value
    ensures r.Err? ==> r.error.ValueError?
    ensures o.orderType.None? ==> r == Err(ValueError("Missing required field: orderType"))
    ensures o.orderType.Some? && o.session.None? ==> r == Err(ValueError("Missing required field: session"))
    ensures o.orderType.Some? && o.session.Some? && o.duration.None? ==>
      r == Err(ValueError("Missing required field: duration"))
    ensures o.orderType.Some? && o.session.Some? && o.duration.Some? && o.orderStrategyType.None? ==>
      r == Err(ValueError("Missing required field: orderStrategyType"))
    ensures o.orderType.Some? && o.session.Some? && o.duration.Some? && o.orderStrategyType.Some?
            && o.orderLegCollection.None? ==>
      r == Err(ValueError("Missing required field: orderLegCollection"))
    ensures o.orderType.Some? && o.session.Some? && o.duration.Some? && o.orderStrategyType.Some?
            && o.orderLegCollection == Some([]) ==>
      r == Err(ValueError("orderLegCollection cannot be empty"))
  {
    if o.orderType.None? then Err(ValueError("Missing required field: orderType"))
    else if o.session.None? then Err(ValueError("Missing required field: session"))
    else if o.duration.None? then Err(ValueError("Missing required field: duration"))
    else if o.orderStrategyType.None? then Err(ValueError("Missing required field: orderStrategyType"))
    else if o.orderLegCollection.None? then Err(ValueError("Missing required field: orderLegCollection"))
    else if |o.orderLegCollection.value| == 0 then Err(ValueError("orderLegCollection cannot be empty"))
    else CheckLegs(o.orderLegCollection.value)
  }

  /** Every builder's payload passes validation; a spread does exactly when
      it has at least one leg. */
  lemma BuiltOrdersValidate(symbol: string, quantity: int, instruction: OrderInstruction, asset: AssetType,
                            t: OrderType, d: OrderDuration, price: Option<real>, stopPrice: Option<real>,
                            entryPrice: real, stopLossPrice: real, takeProfitPrice: real, isLong: bool,
                            trailType: string, trailValue: real, legs: seq<SpreadLeg>, net: Option<real>)
    ensures ValidateOrder(BuildEquityOrder(symbol, quantity, instruction, t, d, price, stopPrice)) == Ok(true)
    ensures ValidateOrder(BuildOptionOrder(symbol, quantity, instruction, t, d, price, stopPrice)) == Ok(true)
    ensures ValidateOrder(BuildBracketOrder(symbol, quantity, entryPrice, stopLossPrice, takeProfitPrice, asset, isLong)) == Ok(true)
    ensures ValidateOrder(BuildTrailingStopOrder(symbol, quantity, instruction, trailType, trailValue, asset)) == Ok(true)
    ensures ValidateOrder(BuildOptionSpread(legs, t, d, net)).Ok? <==> |legs| > 0
  {
  }

  /** The bracket's child orders pass validation as well. */
  lemma BracketChildrenValidate(symbol: string, quantity: int, entryPrice: real, stopLossPrice: real,
                                takeProfitPrice: real, asset: AssetType, isLong: bool)
    ensures var o := BuildBracketOrder(symbol, quantity, entryPrice, stopLossPrice, takeProfitPrice, asset, isLong);
      forall i :: 0 <= i < |o.childOrderStrategies.value| ==> ValidateOrder(o.childOrderStrategies.value[i]) == Ok(true)
  {
  }
}

=== FILE: risk_manager.dfy ===
/** The risk gate of core/risk_manager.py: the daily circuit breaker, position
    sizing, stop and target levels, the trailing-stop ratchet, the martingale
    multiplier and the risk metrics. The mutable attributes of `RiskManager`
    are an explicit state record that each operation takes and returns. */
module RiskManager {
  import opened Basics
  import opened Config

  /** The mutable part of a `RiskManager`. Calendar days are plain integers. */
  datatype RiskState = RiskState(
    dailyPnl: real,
    dailyTrades: nat,
    resetDay: int,
    trailingStops: map<string, real>,
    consecutiveLosses: map<string, nat>)

  /** A freshly constructed risk manager on day `today`. */
  function InitialState(today: int): (s: RiskState)
    ensures s.dailyPnl == 0.0 && s.dailyTrades == 0 && s.resetDay == today
    ensures s.trailingStops == map[] && s.consecutiveLosses == map[]
  {
    RiskState(0.0, 0, today, map[], map[])
  }

  // ---------------------------------------------------------------------------
  // Daily circuit breaker
  // ---------------------------------------------------------------------------

  /** `reset_daily_stats`: zeroes the daily counters only when the calendar day
      has moved past the stored reset day. */
  function ResetDailyStats(s: RiskState, today: int): (r: RiskState)
    ensures today > s.resetDay ==> r.dailyPnl == 0.0 && r.dailyTrades == 0 && r.resetDay == today
    ensures today <= s.resetDay ==> r == s
    ensures r.resetDay >= s.resetDay
    ensures r.trailingStops == s.trailingStops && r.consecutiveLosses == s.consecutiveLosses
  {
    if today > s.resetDay then s.(dailyPnl := 0.0, dailyTrades := 0, resetDay := today) else s
  }

  /** Two rolls on the same day reset at most once: the second one is a no-op. */
  lemma ResetIsIdempotent(s: RiskState, today: int)
    ensures ResetDailyStats(ResetDailyStats(s, today), today) == ResetDailyStats(s, today)
  {
  }

  /** Rolling never goes back in time: after a roll to `later`, a roll to an
      earlier or equal day changes nothing. */
  lemma ResetNeverRetroactive(s: RiskState, earlier: int, later: int)
    requires earlier <= later
    ensures ResetDailyStats(ResetDailyStats(s, later), earlier) == ResetDailyStats(s, later)
  {
  }

  /** `record_trade`: one closed trade adds its PnL to the day's total. */
  function RecordTrade(s: RiskState, pnl: real): (r: RiskState)
    ensures r.dailyPnl == s.dailyPnl + pnl
    ensures r.dailyTrades == s.dailyTrades + 1
    ensures r.resetDay == s.resetDay
    ensures r.trailingStops == s.trailingStops && r.consecutiveLosses == s.consecutiveLosses
  {
    s.(dailyPnl := s.dailyPnl + pnl, dailyTrades := s.dailyTrades + 1)
  }

  /** Recording several trades in a row. */
  function RecordTrades(s: RiskState, pnls: seq<real>): RiskState
  {
    if |pnls| == 0 then s else RecordTrade(RecordTrades(s, pnls[..|pnls| - 1]), pnls[|pnls| - 1])
  }

  /** A day of trades accumulates exactly the sum of their PnLs and their count. */
  lemma {:induction false} RecordTradesAccumulate(s: RiskState, pnls: seq<real>)
    ensures RecordTrades(s, pnls).dailyPnl == s.dailyPnl + Sum(pnls)
    ensures RecordTrades(s, pnls).dailyTrades == s.dailyTrades + |pnls|
    ensures RecordTrades(s, pnls).resetDay == s.resetDay
    decreases |pnls|
  {
    if |pnls| > 0 {
      RecordTradesAccumulate(s, pnls[..|pnls| - 1]);
    }
  }

  /** Why `can_trade` refused, or that it allowed trading ("OK"). */
  datatype GateReason = AllowedOk | DailyLossLimit(pnl: real) | DailyTradeLimit(trades: nat)

  datatype GateDecision = GateDecision(state: RiskState, allowed: bool, reason: GateReason)

  /** The daily loss limit in currency: `account_value * max_daily_loss_pct`. */
  function LossLimit(cfg: RiskConfig, accountValue: real): real
  {
    accountValue * cfg.maxDailyLossPct
  }

  /** `can_trade`: rolls the day, then refuses on a PnL strictly below the
      negative loss limit (checked first) or on a full trade count. */
  function CanTrade(cfg: RiskConfig, s: RiskState, accountValue: real, today: int): (d: GateDecision)
    ensures d.state == ResetDailyStats(s, today)
    ensures !d.allowed <==>
      (d.state.dailyPnl < -(accountValue * cfg.maxDailyLossPct) || d.state.dailyTrades >= cfg.maxDailyTrades)
    ensures d.allowed <==> d.reason == AllowedOk
    ensures d.state.dailyPnl < -(accountValue * cfg.maxDailyLossPct) ==> d.reason.DailyLossLimit?
  {
    var r := ResetDailyStats(s, today);
    if r.dailyPnl < -LossLimit(cfg, accountValue) then
      GateDecision(r, false, DailyLossLimit(r.dailyPnl))
    else if r.dailyTrades >= cfg.maxDailyTrades then
      GateDecision(r, false, DailyTradeLimit(r.dailyTrades))
    else
      GateDecision(r, true, AllowedOk)
  }

  /** The worked example: with 10,000 in the account and a 5% limit, a loss of
      exactly 500 still trades and any larger loss halts trading. */
  lemma CanTradeLossBoundary(cfg: RiskConfig, s: RiskState, today: int, extra: real)
    requires cfg.maxDailyLossPct == 0.05 && cfg.maxDailyTrades > s.dailyTrades
    requires s.resetDay >= today && extra > 0.0
    ensures CanTrade(cfg, s.(dailyPnl := -500.0), 10000.0, today).allowed
    ensures !CanTrade(cfg, s.(dailyPnl := -500.0 - extra), 10000.0, today).allowed
  {
  }

  /** Once the trade cap is reached, recording further trades keeps the gate
      shut for the rest of the day, whatever their PnL. */
  lemma TradeCapStaysShut(cfg: RiskConfig, s: RiskState, accountValue: real, today: int, pnls: seq<real>)
    requires s.resetDay >= today
    requires s.dailyTrades >= cfg.maxDailyTrades
    ensures !CanTrade(cfg, RecordTrades(s, pnls), accountValue, today).allowed
  {
    RecordTradesAccumulate(s, pnls);
  }

  // ---------------------------------------------------------------------------
  // Position sizing
  // ---------------------------------------------------------------------------

  /** The capital the exposure rules leave for one new position, given a
      fraction of the account it may take. */
  function CapitalFor(cfg: RiskConfig, fraction: real, accountValue: real, exposure: real): real
  {
    Min(accountValue * fraction, accountValue * cfg.maxTotalExposurePct - exposure)
  }

  /** `max(0, int(capital / entry))` guarded by `capital <= 0`; dividing by a
      zero entry price raises. */
  function SharesFor(capital: real, entry: real): (r: Result<nat>)
    ensures capital <= 0.0 ==> r == Ok(0)
    ensures capital > 0.0 && entry == 0.0 ==> r == Err(ZeroDivisionError)
    ensures capital > 0.0 && entry < 0.0 ==> r == Ok(0)
    ensures capital > 0.0 && entry > 0.0 ==>
      r.Ok? && r.value as real * entry <= capital < (r.value + 1) as real * entry
  {
    if capital <= 0.0 then Ok(0)
    else if entry == 0.0 then Err(ZeroDivisionError)
    else
      var t := Trunc(capital / entry);
      if entry > 0.0 then
        TruncQuotientBracket(capital, entry);
        Ok(t)
      else
        Ok(if t < 0 then 0 else t)
  }

  /** `_fixed_fractional_size`: the stop price is accepted but never used. */
  function FixedFractionalSize(cfg: RiskConfig, entry: real, stop: real, accountValue: real, exposure: real): (r: Result<nat>)
    ensures CapitalFor(cfg, cfg.maxPositionSizePct, accountValue, exposure) <= 0.0 ==> r == Ok(0)
    ensures var c := CapitalFor(cfg, cfg.maxPositionSizePct, accountValue, exposure);
      && (c > 0.0 && entry == 0.0 ==> r == Err(ZeroDivisionError))
      && (c > 0.0 && entry < 0.0 ==> r == Ok(0))
      && (c > 0.0 && entry > 0.0 ==> r.Ok? && r.value as real * entry <= c < (r.value + 1) as real * entry)
    ensures entry > 0.0 ==> r.Ok?
    ensures entry > 0.0 && r.Ok? && r.value > 0 ==>
      r.value as real * entry <= accountValue * cfg.maxPositionSizePct
      && r.value as real * entry <= accountValue * cfg.maxTotalExposurePct - exposure
  {
    SharesFor(CapitalFor(cfg, cfg.maxPositionSizePct, accountValue, exposure), entry)
  }

  /** The sizing never looks at the stop price. */
  lemma FixedFractionalIgnoresStop(cfg: RiskConfig, entry: real, stop1: real, stop2: real, accountValue: real, exposure: real)
    ensures FixedFractionalSize(cfg, entry, stop1, accountValue, exposure)
         == FixedFractionalSize(cfg, entry, stop2, accountValue, exposure)
  {
  }

  /** The half-Kelly capital fraction with the assumed 1:2 risk/reward,
      floored at 0 and capped at the per-position limit. */
  function KellyFraction(cfg: RiskConfig, winRate: real): (f: real)
    ensures f <= cfg.maxPositionSizePct
    ensures f == cfg.maxPositionSizePct || f >= 0.0
    ensures cfg.maxPositionSizePct >= 0.0 ==> f >= 0.0
    ensures winRate <= 1.0 / 3.0 ==> f == Min(0.0, cfg.maxPositionSizePct)
    ensures winRate > 1.0 / 3.0 && cfg.maxPositionSizePct >= 0.0 ==>
      f == Min((winRate - (1.0 - winRate) / 2.0) * 0.5, cfg.maxPositionSizePct)
  {
    var avgWinLossRatio := 2.0;
    var kelly := winRate - (1.0 - winRate) / avgWinLossRatio;
    var half := Max(0.0, kelly * 0.5);
    Min(half, cfg.maxPositionSizePct)
  }

  /** `_kelly_criterion_size`. */
  function KellySize(cfg: RiskConfig, entry: real, stop: real, accountValue: real, exposure: real, winRate: real): (r: Result<nat>)
    ensures CapitalFor(cfg, KellyFraction(cfg, winRate), accountValue, exposure) <= 0.0 ==> r == Ok(0)
    ensures var c := CapitalFor(cfg, KellyFraction(cfg, winRate), accountValue, exposure);
      && (c > 0.0 && entry == 0.0 ==> r == Err(ZeroDivisionError))
      && (c > 0.0 && entry < 0.0 ==> r == Ok(0))
      && (c > 0.0 && entry > 0.0 ==> r.Ok? && r.value as real * entry <= c < (r.value + 1) as real * entry)
    ensures entry > 0.0 ==> r.Ok?
  {
    SharesFor(CapitalFor(cfg, KellyFraction(cfg, winRate), accountValue, exposure), entry)
  }

  /** The smaller of a scaled amount and a fixed bound grows with the scale. */
  lemma ScaledMinMonotone(v: real, f1: real, f2: real, rest: real)
    requires f1 <= f2 && v >= 0.0
    ensures Min(v * f1, rest) <= Min(v * f2, rest)
  {
    MulMonotoneLeft(v, f1, f2);
  }

  /** A larger fraction of a non-negative account never leaves less capital. */
  lemma CapitalMonotone(cfg: RiskConfig, f1: real, f2: real, accountValue: real, exposure: real)
    requires f1 <= f2 && accountValue >= 0.0
    ensures CapitalFor(cfg, f1, accountValue, exposure) <= CapitalFor(cfg, f2, accountValue, exposure)
    ensures CapitalFor(cfg, f1, accountValue, exposure) <= accountValue * f1
  {
    ScaledMinMonotone(accountValue, f1, f2, accountValue * cfg.maxTotalExposurePct - exposure);
  }

  /** Shares are monotone in the capital they are bought with. */
  lemma SharesMonotone(c1: real, c2: real, entry: real)
    requires c1 <= c2 && entry > 0.0
    ensures SharesFor(c1, entry).value <= SharesFor(c2, entry).value
  {
    if c1 > 0.0 {
      DivMonotone(c1, c2, entry);
      TruncMonotone(c1 / entry, c2 / entry);
    }
  }

  /** Kelly never sizes larger than fixed-fractional (for a non-negative
      account), and a win rate of at most one third sizes nothing. */
  lemma KellyNeverExceedsFixed(cfg: RiskConfig, entry: real, stop: real, accountValue: real, exposure: real, winRate: real)
    requires entry > 0.0 && accountValue >= 0.0 && cfg.maxPositionSizePct >= 0.0
    ensures KellySize(cfg, entry, stop, accountValue, exposure, winRate).value
         <= FixedFractionalSize(cfg, entry, stop, accountValue, exposure).value
    ensures winRate <= 1.0 / 3.0 ==> KellySize(cfg, entry, stop, accountValue, exposure, winRate) == Ok(0)
  {
    var f := KellyFraction(cfg, winRate);
    CapitalMonotone(cfg, f, cfg.maxPositionSizePct, accountValue, exposure);
    var ck := CapitalFor(cfg, f, accountValue, exposure);
    var cf := CapitalFor(cfg, cfg.maxPositionSizePct, accountValue, exposure);
    SharesMonotone(ck, cf, entry);
    if winRate <= 1.0 / 3.0 {
      assert f == 0.0;
      assert ck <= 0.0;
    }
  }

  /** The documented worked example: a 60% win rate gives raw Kelly 0.4, half-Kelly
      0.2, capped at the 10% limit. */
  lemma KellyExample(cfg: RiskConfig)
    requires cfg.maxPositionSizePct == 0.10
    ensures KellyFraction(cfg, 0.6) == 0.10
  {
  }

  /** `_volatility_adjusted_size`: a placeholder that returns the
      fixed-fractional size unchanged. */
  function VolatilityAdjustedSize(cfg: RiskConfig, symbol: string, entry: real, stop: real, accountValue: real, exposure: real): (r: Result<nat>)
    ensures r == FixedFractionalSize(cfg, entry, stop, accountValue, exposure)
  {
    FixedFractionalSize(cfg, entry, stop, accountValue, exposure)
  }

  /** `calculate_position_size`: Kelly only for "kelly_criterion" with a truthy
      win rate, volatility-adjusted for its own name, fixed-fractional otherwise. */
  function PositionSize(cfg: RiskConfig, symbol: string, entry: real, stop: real, accountValue: real,
                        exposure: real, winRate: Option<real>): (r: Result<nat>)
    ensures cfg.sizingMethod == KellyCriterion && Truthy(winRate) ==>
      r == KellySize(cfg, entry, stop, accountValue, exposure, winRate.value)
    ensures !(cfg.sizingMethod == KellyCriterion && Truthy(winRate)) ==>
      r == FixedFractionalSize(cfg, entry, stop, accountValue, exposure)
  {
    match cfg.sizingMethod
    case FixedFractional => FixedFractionalSize(cfg, entry, stop, accountValue, exposure)
    case KellyCriterion =>
      if Truthy(winRate) then KellySize(cfg, entry, stop, accountValue, exposure, winRate.value)
      else FixedFractionalSize(cfg, entry, stop, accountValue, exposure)
    case VolatilityAdjusted => VolatilityAdjustedSize(cfg, symbol, entry, stop, accountValue, exposure)
    case OtherSizing => FixedFractionalSize(cfg, entry, stop, accountValue, exposure)
  }

  /** The fixed-fractional size at a positive entry price never costs more
      than the per-position share of the account. */
  lemma FixedFractionalWithinLimit(cfg: RiskConfig, entry: real, stop: real, accountValue: real, exposure: real)
    requires entry > 0.0 && accountValue >= 0.0 && cfg.maxPositionSizePct >= 0.0
    ensures FixedFractionalSize(cfg, entry, stop, accountValue, exposure).Ok?
    ensures FixedFractionalSize(cfg, entry, stop, accountValue, exposure).value as real * entry
         <= accountValue * cfg.maxPositionSizePct
  {
    var ff := FixedFractionalSize(cfg, entry, stop, accountValue, exposure);
    if ff.value == 0 {
      MulMonotone(0.0, accountValue, cfg.maxPositionSizePct);
    }
  }

  /** The Kelly size at a positive entry price stays within the same bound. */
  lemma KellyWithinLimit(cfg: RiskConfig, entry: real, stop: real, accountValue: real, exposure: real, winRate: real)
    requires entry > 0.0 && accountValue >= 0.0 && cfg.maxPositionSizePct >= 0.0
    ensures KellySize(cfg, entry, stop, accountValue, exposure, winRate).Ok?
    ensures KellySize(cfg, entry, stop, accountValue, exposure, winRate).value as real * entry
         <= accountValue * cfg.maxPositionSizePct
  {
    var f := KellyFraction(cfg, winRate);
    var ck := CapitalFor(cfg, f, accountValue, exposure);
    var n := KellySize(cfg, entry, stop, accountValue, exposure, winRate).value;
    var share, limit := accountValue * f, accountValue * cfg.maxPositionSizePct;
    CapitalMonotone(cfg, f, f, accountValue, exposure);
    assert ck <= share;
    MulMonotoneLeft(accountValue, f, cfg.maxPositionSizePct);
    assert share <= limit;
    MulMonotoneLeft(accountValue, 0.0, cfg.maxPositionSizePct);
    if ck > 0.0 {
      assert n as real * entry <= ck;
    } else {
      assert n == 0;
    }
  }

  /** The bound below, for the methods that size by the fixed fraction. */
  lemma NonKellyWithinLimit(cfg: RiskConfig, symbol: string, entry: real, stop: real, accountValue: real,
                            exposure: real, winRate: Option<real>)
    requires entry > 0.0 && accountValue >= 0.0 && cfg.maxPositionSizePct >= 0.0
    requires !(cfg.sizingMethod == KellyCriterion && Truthy(winRate))
    ensures PositionSize(cfg, symbol, entry, stop, accountValue, exposure, winRate).Ok?
    ensures PositionSize(cfg, symbol, entry, stop, accountValue, exposure, winRate).value as real * entry
         <= accountValue * cfg.maxPositionSizePct
  {
    FixedFractionalWithinLimit(cfg, entry, stop, accountValue, exposure);
  }

  /** Whatever the method, a positive entry price never sizes more capital
      than the per-position limit allows (non-negative account and limit). */
  lemma PositionSizeWithinLimit(cfg: RiskConfig, symbol: string, entry: real, stop: real, accountValue: real,
                                exposure: real, winRate: Option<real>)
    requires entry > 0.0 && accountValue >= 0.0 && cfg.maxPositionSizePct >= 0.0
    ensures PositionSize(cfg, symbol, entry, stop, accountValue, exposure, winRate).Ok?
    ensures PositionSize(cfg, symbol, entry, stop, accountValue, exposure, winRate).value as real * entry
         <= accountValue * cfg.maxPositionSizePct
  {
    if cfg.sizingMethod == KellyCriterion && Truthy(winRate) {
      KellyWithinLimit(cfg, entry, stop, accountValue, exposure, winRate.value);
      assert PositionSize(cfg, symbol, entry, stop, accountValue, exposure, winRate)
          == KellySize(cfg, entry, stop, accountValue, exposure, winRate.value);
    } else {
      NonKellyWithinLimit(cfg, symbol, entry, stop, accountValue, exposure, winRate);
    }
  }

  /** The end-to-end example: 10% of 10,000 at 50 a share buys 20 shares. */
  lemma FixedFractionalExample(cfg: RiskConfig, stop: real)
    requires cfg.maxPositionSizePct == 0.10 && cfg.maxTotalExposurePct == 0.50
    ensures FixedFractionalSize(cfg, 50.0, stop, 10000.0, 0.0) == Ok(20)
  {
    assert 10000.0 * 0.10 == 1000.0;
    assert Trunc(1000.0 / 50.0) == 20;
  }

  // ---------------------------------------------------------------------------
  // Stop-loss and take-profit levels
  // ---------------------------------------------------------------------------

  /** A level `pct` away from `entry` on the loss side of the position. */
  function StaticLossSide(entry: real, pct: real, isLong: bool): real
  {
    if isLong then entry * (1.0 - pct) else entry * (1.0 + pct)
  }

  /** `calculate_stop_loss`: static percent, ATR-based in dynamic mode with a
      truthy ATR, and the static percent for every other case. */
  function StopLoss(cfg: RiskConfig, entry: real, isLong: bool, atr: Option<real>): (r: real)
    ensures cfg.stopLossType == DynamicLevel && Truthy(atr) ==>
      r == (if isLong then entry - atr.value * cfg.dynamicStopLossAtrMultiplier
            else entry + atr.value * cfg.dynamicStopLossAtrMultiplier)
    ensures !(cfg.stopLossType == DynamicLevel && Truthy(atr)) ==>
      r == (if isLong then entry * (1.0 - cfg.staticStopLossPct) else entry * (1.0 + cfg.staticStopLossPct))
  {
    if cfg.stopLossType == StaticLevel then
      StaticLossSide(entry, cfg.staticStopLossPct, isLong)
    else if cfg.stopLossType == DynamicLevel && Truthy(atr) then
      var distance := atr.value * cfg.dynamicStopLossAtrMultiplier;
      if isLong then entry - distance else entry + distance
    else
      StaticLossSide(entry, cfg.staticStopLossPct, isLong)
  }

  /** `calculate_take_profit`: the mirror image of the stop with its own
      mode, percent and multiplier. */
  function TakeProfit(cfg: RiskConfig, entry: real, isLong: bool, atr: Option<real>): (r: real)
    ensures cfg.takeProfitType == DynamicLevel && Truthy(atr) ==>
      r == (if isLong then entry + atr.value * cfg.dynamicTpVolatilityMultiplier
            else entry - atr.value * cfg.dynamicTpVolatilityMultiplier)
    ensures !(cfg.takeProfitType == DynamicLevel && Truthy(atr)) ==>
      r == (if isLong then entry * (1.0 + cfg.staticTakeProfitPct) else entry * (1.0 - cfg.staticTakeProfitPct))
  {
    if cfg.takeProfitType == StaticLevel then
      StaticLossSide(entry, cfg.staticTakeProfitPct, !isLong)
    else if cfg.takeProfitType == DynamicLevel && Truthy(atr) then
      var distance := atr.value * cfg.dynamicTpVolatilityMultiplier;
      if isLong then entry + distance else entry - distance
    else
      StaticLossSide(entry, cfg.staticTakeProfitPct, !isLong)
  }

  /** The take-profit of a position is the stop-loss of the opposite position
      under the take-profit settings. */
  lemma TakeProfitMirrorsStopLoss(cfg: RiskConfig, entry: real, isLong: bool, atr: Option<real>)
    ensures TakeProfit(cfg, entry, isLong, atr)
         == StopLoss(cfg.(stopLossType := cfg.takeProfitType,
                          staticStopLossPct := cfg.staticTakeProfitPct,
                          dynamicStopLossAtrMultiplier := cfg.dynamicTpVolatilityMultiplier),
                     entry, !isLong, atr)
  {
  }

  /** Dynamic mode without a usable ATR (missing or zero) is the static stop. */
  lemma DynamicStopWithoutAtrIsStatic(cfg: RiskConfig, entry: real, isLong: bool, atr: Option<real>)
    requires cfg.stopLossType == DynamicLevel && !Truthy(atr)
    ensures StopLoss(cfg, entry, isLong, atr) == StopLoss(cfg.(stopLossType := StaticLevel), entry, isLong, atr)
  {
  }

  /** Worked examples for the stop. */
  lemma StopLossExamples(cfg: RiskConfig)
    requires cfg.staticStopLossPct == 0.02 && cfg.dynamicStopLossAtrMultiplier == 2.0
    ensures StopLoss(cfg.(stopLossType := StaticLevel), 100.0, true, None) == 98.0
    ensures StopLoss(cfg.(stopLossType := DynamicLevel), 100.0, true, Some(2.0)) == 96.0
  {
  }

  /** Settings under which every level lies strictly away from the entry. */
  predicate PositiveLevelSettings(cfg: RiskConfig)
  {
    && 0.0 < cfg.staticStopLossPct && 0.0 < cfg.staticTakeProfitPct
    && 0.0 < cfg.dynamicStopLossAtrMultiplier && 0.0 < cfg.dynamicTpVolatilityMultiplier
  }

  /** With positive settings, a positive entry and a non-negative ATR, the
      stop lies on the loss side and the target on the profit side. */
  lemma LevelsBracketEntry(cfg: RiskConfig, entry: real, isLong: bool, atr: Option<real>)
    requires PositiveLevelSettings(cfg) && entry > 0.0
    requires atr.Some? ==> atr.value >= 0.0
    ensures isLong ==> StopLoss(cfg, entry, isLong, atr) < entry < TakeProfit(cfg, entry, isLong, atr)
    ensures !isLong ==> TakeProfit(cfg, entry, isLong, atr) < entry < StopLoss(cfg, entry, isLong, atr)
  {
    assert entry * cfg.staticStopLossPct > 0.0;
    assert entry * cfg.staticTakeProfitPct > 0.0;
    if Truthy(atr) {
      assert atr.value * cfg.dynamicStopLossAtrMultiplier > 0.0;
      assert atr.value * cfg.dynamicTpVolatilityMultiplier > 0.0;
    }
  }

  /** One entry of `get_tiered_exit_levels`. */
  datatype ExitLevel = ExitLevel(percentage: real, price: real)

  /** `get_tiered_exit_levels`: one level per configured tier, in order. */
  function TieredExitLevels(tiers: seq<Tier>, entry: real, isLong: bool): (r: seq<ExitLevel>)
    ensures |r| == |tiers|
    ensures forall i :: 0 <= i < |r| ==> r[i].percentage == tiers[i].percentage
    ensures forall i :: 0 <= i < |r| ==>
      r[i].price == (if isLong then entry * (1.0 + tiers[i].profitTargetPct) else entry * (1.0 - tiers[i].profitTargetPct))
  {
    if |tiers| == 0 then []
    else
      var pct := tiers[0].profitTargetPct;
      var price := if isLong then entry * (1.0 + pct) else entry * (1.0 - pct);
      [ExitLevel(tiers[0].percentage, price)] + TieredExitLevels(tiers[1..], entry, isLong)
  }

  function SumLevelPercentages(levels: seq<ExitLevel>): real
  {
    if |levels| == 0 then 0.0 else levels[0].percentage + SumLevelPercentages(levels[1..])
  }

  /** The levels sell exactly the configured fractions of the position. */
  lemma {:induction false} TieredLevelsKeepFractions(tiers: seq<Tier>, entry: real, isLong: bool)
    ensures SumLevelPercentages(TieredExitLevels(tiers, entry, isLong)) == SumPercentages(tiers)
    decreases |tiers|
  {
    if |tiers| > 0 {
      TieredLevelsKeepFractions(tiers[1..], entry, isLong);
    }
  }

  /** With the default tiers, a long at a positive entry sells the whole
      position on a ladder of strictly rising prices above the entry. */
  lemma DefaultTiersLadder(entry: real)
    requires entry > 0.0
    ensures SumLevelPercentages(TieredExitLevels(DefaultTieredExits(), entry, true)) == 1.0
    ensures var r := TieredExitLevels(DefaultTieredExits(), entry, true);
      forall i, j :: 0 <= i < j < |r| ==> entry < r[i].price < r[j].price
  {
    TieredLevelsKeepFractions(DefaultTieredExits(), entry, true);
    var t := DefaultTieredExits();
    var r := TieredExitLevels(t, entry, true);
    forall i, j | 0 <= i < j < |r|
      ensures entry < r[i].price < r[j].price
    {
      assert entry * t[i].profitTargetPct < entry * t[j].profitTargetPct;
      assert entry * t[i].profitTargetPct > 0.0;
    }
  }

  // ---------------------------------------------------------------------------
  // Trailing stop
  // ---------------------------------------------------------------------------

  datatype TrailUpdate = TrailUpdate(state: RiskState, stop: Option<real>)

  /** Unrealised profit as a fraction of the entry price. */
  function ProfitRatio(price: real, entry: real, isLong: bool): real
    requires entry != 0.0
  {
    if isLong then (price - entry) / entry else (entry - price) / entry
  }

  /** The candidate stop one trail distance behind the current price. */
  function TrailCandidate(cfg: RiskConfig, price: real, isLong: bool): real
  {
    var distance := price * cfg.trailingStopDistancePct;
    if isLong then price - distance else price + distance
  }

  /** `update_trailing_stop`. When disabled or not yet activated nothing is
      stored and None is returned; once activated the stored stop is ratcheted
      (max for a long, min for a short) and returned. A zero entry raises. */
  function UpdateTrailingStop(cfg: RiskConfig, s: RiskState, symbol: string, price: real, entry: real, isLong: bool): (r: Result<TrailUpdate>)
    ensures !cfg.trailingStopEnabled ==> r == Ok(TrailUpdate(s, None))
    ensures cfg.trailingStopEnabled && entry == 0.0 ==> r.Err?
    ensures r.Ok? ==>
      && r.value.state.dailyPnl == s.dailyPnl && r.value.state.dailyTrades == s.dailyTrades
      && r.value.state.resetDay == s.resetDay && r.value.state.consecutiveLosses == s.consecutiveLosses
    ensures r.Ok? ==> forall k :: k != symbol ==> MapGet(r.value.state.trailingStops, k) == MapGet(s.trailingStops, k)
    ensures r.Ok? && r.value.stop.None? ==> r.value.state == s
    ensures r.Ok? && r.value.stop.Some? ==>
      && symbol in r.value.state.trailingStops
      && r.value.stop.value == r.value.state.trailingStops[symbol]
      && r.value.state.trailingStops.Keys == s.trailingStops.Keys + {symbol}
    ensures cfg.trailingStopEnabled && entry != 0.0 ==>
      r.Ok? && (r.value.stop.Some? <==> ProfitRatio(price, entry, isLong) >= cfg.trailingStopActivationPct)
    ensures r.Ok? && r.value.stop.Some? ==>
      r.value.stop.value == (if symbol !in s.trailingStops then TrailCandidate(cfg, price, isLong)
                             else if isLong then Max(TrailCandidate(cfg, price, isLong), s.trailingStops[symbol])
                             else Min(TrailCandidate(cfg, price, isLong), s.trailingStops[symbol]))
  {
    if !cfg.trailingStopEnabled then Ok(TrailUpdate(s, None))
    else if entry == 0.0 then Err(ZeroDivisionError)
    else if ProfitRatio(price, entry, isLong) >= cfg.trailingStopActivationPct then
      var candidate := TrailCandidate(cfg, price, isLong);
      var newStop :=
        if symbol !in s.trailingStops then candidate
        else if isLong then Max(candidate, s.trailingStops[symbol])
        else Min(candidate, s.trailingStops[symbol]);
      Ok(TrailUpdate(s.(trailingStops := s.trailingStops[symbol := newStop]), Some(newStop)))
    else
      Ok(TrailUpdate(s, None))
  }

  function MapGet<K, V>(m: map<K, V>, k: K): Option<V>
  {
    if k in m then Some(m[k]) else None
  }

  /** The ratchet: a long's stored stop never decreases and a short's never
      increases, and the stored value is never behind the fresh candidate. */
  lemma TrailingStopRatchet(cfg: RiskConfig, s: RiskState, symbol: string, price: real, entry: real, isLong: bool)
    requires UpdateTrailingStop(cfg, s, symbol, price, entry, isLong).Ok?
    ensures var after := UpdateTrailingStop(cfg, s, symbol, price, entry, isLong).value.state.trailingStops;
      symbol in s.trailingStops ==>
        && symbol in after
        && (if isLong then after[symbol] >= s.trailingStops[symbol] else after[symbol] <= s.trailingStops[symbol])
  {
  }

  /** The worked example: a stored long stop of 98 stays at 98 against a
      candidate of 97 and moves to 99 for a candidate of 99. */
  lemma TrailingStopExample(cfg: RiskConfig, s: RiskState, symbol: string)
    requires cfg.trailingStopEnabled && cfg.trailingStopActivationPct == 0.015 && cfg.trailingStopDistancePct == 0.0
    requires symbol in s.trailingStops && s.trailingStops[symbol] == 98.0
    ensures UpdateTrailingStop(cfg, s, symbol, 97.0, 90.0, true).value.stop == Some(98.0)
    ensures UpdateTrailingStop(cfg, s, symbol, 99.0, 90.0, true).value.stop == Some(99.0)
  {
    assert ProfitRatio(97.0, 90.0, true) >= 0.015;
    assert ProfitRatio(99.0, 90.0, true) >= 0.015;
  }

  // ---------------------------------------------------------------------------
  // Martingale
  // ---------------------------------------------------------------------------

  datatype Sized = Sized(state: RiskState, size: int)

  function LossCount(s: RiskState, symbol: string): nat
  {
    if symbol in s.consecutiveLosses then s.consecutiveLosses[symbol] else 0
  }

  /** `apply_martingale`: when enabled, a loss bumps the symbol's counter, a
      win resets it, and the size is doubled once per counted loss up to the
      configured maximum. */
  function ApplyMartingale(cfg: RiskConfig, s: RiskState, symbol: string, baseSize: int, lostPrevious: bool): (r: Sized)
    ensures !cfg.enableMartingale ==> r == Sized(s, baseSize)
    ensures cfg.enableMartingale ==>
      && LossCount(r.state, symbol) == (if lostPrevious then LossCount(s, symbol) + 1 else 0)
      && r.size == baseSize * Pow2(MinNat(LossCount(r.state, symbol), cfg.martingaleMaxDoublings))
      && symbol in r.state.consecutiveLosses
    ensures forall k :: k != symbol ==> LossCount(r.state, k) == LossCount(s, k)
    ensures r.state.dailyPnl == s.dailyPnl && r.state.dailyTrades == s.dailyTrades
    ensures r.state.trailingStops == s.trailingStops
  {
    if !cfg.enableMartingale then Sized(s, baseSize)
    else
      var count := if lostPrevious then LossCount(s, symbol) + 1 else 0;
      var s' := s.(consecutiveLosses := s.consecutiveLosses[symbol := count]);
      Sized(s', baseSize * Pow2(MinNat(count, cfg.martingaleMaxDoublings)))
  }

  /** The martingale size never exceeds the base times `2^max_doublings`. */
  lemma MartingaleBounded(cfg: RiskConfig, s: RiskState, symbol: string, baseSize: int, lostPrevious: bool)
    requires baseSize >= 0
    ensures 0 <= ApplyMartingale(cfg, s, symbol, baseSize, lostPrevious).size <= baseSize * Pow2(cfg.martingaleMaxDoublings)
  {
    var r := ApplyMartingale(cfg, s, symbol, baseSize, lostPrevious);
    Pow2Monotone(0, cfg.martingaleMaxDoublings);
    if cfg.enableMartingale {
      var m := MinNat(LossCount(r.state, symbol), cfg.martingaleMaxDoublings);
      Pow2Monotone(m, cfg.martingaleMaxDoublings);
      assert baseSize * Pow2(m) <= baseSize * Pow2(cfg.martingaleMaxDoublings);
    }
  }

  /** `n` losses in a row on the same symbol. */
  function LossStreak(cfg: RiskConfig, s: RiskState, symbol: string, baseSize: int, n: nat): Sized
    decreases n
  {
    if n == 0 then Sized(s, baseSize)
    else ApplyMartingale(cfg, LossStreak(cfg, s, symbol, baseSize, n - 1).state, symbol, baseSize, true)
  }

  /** After `n >= 1` losses from a fresh counter the multiplier is
      `2^min(n, max_doublings)`. */
  lemma {:induction false} LossStreakMultiplier(cfg: RiskConfig, s: RiskState, symbol: string, baseSize: int, n: nat)
    requires cfg.enableMartingale && LossCount(s, symbol) == 0 && n >= 1
    ensures LossCount(LossStreak(cfg, s, symbol, baseSize, n).state, symbol) == n
    ensures LossStreak(cfg, s, symbol, baseSize, n).size == baseSize * Pow2(MinNat(n, cfg.martingaleMaxDoublings))
    decreases n
  {
    if n > 1 {
      LossStreakMultiplier(cfg, s, symbol, baseSize, n - 1);
    }
  }

  /** With two doublings allowed, losses from a fresh counter give 2x, 4x, 4x. */
  lemma MartingaleSequenceExample(cfg: RiskConfig, s: RiskState, symbol: string, baseSize: int)
    requires cfg.enableMartingale && cfg.martingaleMaxDoublings == 2 && LossCount(s, symbol) == 0
    ensures LossStreak(cfg, s, symbol, baseSize, 1).size == 2 * baseSize
    ensures LossStreak(cfg, s, symbol, baseSize, 2).size == 4 * baseSize
    ensures LossStreak(cfg, s, symbol, baseSize, 3).size == 4 * baseSize
  {
    LossStreakMultiplier(cfg, s, symbol, baseSize, 1);
    LossStreakMultiplier(cfg, s, symbol, baseSize, 2);
    LossStreakMultiplier(cfg, s, symbol, baseSize, 3);
  }

  // ---------------------------------------------------------------------------
  // Risk metrics
  // ---------------------------------------------------------------------------

  datatype PositionRisk = PositionRisk(
    symbol: string,
    quantity: int,
    entryPrice: real,
    currentPrice: real,
    unrealizedPnl: real,
    unrealizedPnlPct: real,
    positionValue: real,
    stopLossPrice: Option<real>,
    takeProfitPrice: Option<real>,
    trailingStopPrice: Option<real>)

  /** `calculate_position_risk`; the percentage divides by the entry price. */
  function CalculatePositionRisk(s: RiskState, symbol: string, quantity: int, entry: real, price: real,
                                 stop: Option<real>, target: Option<real>): (r: Result<PositionRisk>)
    ensures entry == 0.0 <==> r.Err?
    ensures r.Ok? ==>
      && r.value.positionValue == quantity as real * price
      && r.value.unrealizedPnl == quantity as real * (price - entry)
      && r.value.unrealizedPnlPct * entry == (price - entry) * 100.0
      && r.value.trailingStopPrice == MapGet(s.trailingStops, symbol)
      && r.value.stopLossPrice == stop && r.value.takeProfitPrice == target
  {
    if entry == 0.0 then Err(ZeroDivisionError)
    else
      Ok(PositionRisk(symbol, quantity, entry, price,
                      quantity as real * (price - entry),
                      ((price - entry) / entry) * 100.0,
                      quantity as real * price,
                      stop, target, MapGet(s.trailingStops, symbol)))
  }

  datatype AccountRisk = AccountRisk(
    totalValue: real,
    buyingPower: real,
    totalExposure: real,
    exposurePct: real,
    dailyPnl: real,
    dailyPnlPct: real,
    numPositions: nat,
    numTradesToday: nat,
    largestPositionPct: real)

  function TotalValue(ps: seq<PositionRisk>): real
  {
    if |ps| == 0 then 0.0 else ps[0].positionValue + TotalValue(ps[1..])
  }

  /** `max([p.position_value / account_value * 100 for p in positions] + [0])`,
      for a non-zero account value. */
  function LargestPct(ps: seq<PositionRisk>, accountValue: real): (m: real)
    requires accountValue != 0.0
    ensures m >= 0.0
    ensures forall i :: 0 <= i < |ps| ==> m >= ps[i].positionValue / accountValue * 100.0
    ensures m == 0.0 || exists i :: 0 <= i < |ps| && m == ps[i].positionValue / accountValue * 100.0
  {
    if |ps| == 0 then 0.0
    else
      var rest := LargestPct(ps[1..], accountValue);
      assert forall i :: 1 <= i < |ps| ==> ps[i] == ps[1..][i - 1];
      Max(ps[0].positionValue / accountValue * 100.0, rest)
  }

  /** `calculate_account_risk` as written: exposure and PnL percentages are
      guarded by `account_value > 0`, the largest-position percentage is not,
      so a zero account value with any position raises. */
  function AccountRiskAsWritten(s: RiskState, accountValue: real, buyingPower: real,
                                ps: seq<PositionRisk>, dailyPnl: real): (r: Result<AccountRisk>)
    ensures r.Err? <==> accountValue == 0.0 && |ps| > 0
  {
    if accountValue == 0.0 && |ps| > 0 then Err(ZeroDivisionError)
    else
      var total := TotalValue(ps);
      var largest := if accountValue == 0.0 then 0.0 else LargestPct(ps, accountValue);
      Ok(AccountRisk(accountValue, buyingPower, total,
                     if accountValue > 0.0 then total / accountValue * 100.0 else 0.0,
                     dailyPnl,
                     if accountValue > 0.0 then dailyPnl / accountValue * 100.0 else 0.0,
                     |ps|, s.dailyTrades, largest))
  }

  /** An account worth 0 with one open position makes the metrics raise. */
  lemma AccountRiskZeroAccountRaises(s: RiskState, p: PositionRisk)
    ensures AccountRiskAsWritten(s, 0.0, 0.0, [p], 0.0).Err?
  {
  }

  /** `calculate_account_risk` with the largest-position percentage under the
      same `account_value > 0` guard as its sibling percentages. */
  function CalculateAccountRisk(s: RiskState, accountValue: real, buyingPower: real,
                                ps: seq<PositionRisk>, dailyPnl: real): (r: AccountRisk)
    ensures r.totalExposure == TotalValue(ps)
    ensures r.numPositions == |ps| && r.numTradesToday == s.dailyTrades
    ensures r.totalValue == accountValue && r.buyingPower == buyingPower && r.dailyPnl == dailyPnl
    ensures accountValue <= 0.0 ==> r.exposurePct == 0.0 && r.dailyPnlPct == 0.0 && r.largestPositionPct == 0.0
    ensures accountValue > 0.0 ==>
      && r.exposurePct == TotalValue(ps) / accountValue * 100.0
      && r.dailyPnlPct == dailyPnl / accountValue * 100.0
      && r.largestPositionPct >= 0.0
      && (forall i :: 0 <= i < |ps| ==> r.largestPositionPct >= ps[i].positionValue / accountValue * 100.0)
      && (r.largestPositionPct == 0.0 ||
          exists i :: 0 <= i < |ps| && r.largestPositionPct == ps[i].positionValue / accountValue * 100.0)
  {
    var total := TotalValue(ps);
    var largest := if accountValue > 0.0 then LargestPct(ps, accountValue) else 0.0;
    if accountValue > 0.0 then
      AccountRisk(accountValue, buyingPower, total, total / accountValue * 100.0,
                  dailyPnl, dailyPnl / accountValue * 100.0, |ps|, s.dailyTrades, largest)
    else
      AccountRisk(accountValue, buyingPower, total, 0.0, dailyPnl, 0.0, |ps|, s.dailyTrades, 0.0)
  }

  /** Wherever the code as written does not raise, the guarded version agrees
      with it for a positive account value. */
  lemma AccountRiskAgreesWhenPositive(s: RiskState, accountValue: real, buyingPower: real,
                                      ps: seq<PositionRisk>, dailyPnl: real)
    requires accountValue > 0.0
    ensures AccountRiskAsWritten(s, accountValue, buyingPower, ps, dailyPnl)
         == Ok(CalculateAccountRisk(s, accountValue, buyingPower, ps, dailyPnl))
  {
  }
}

=== FILE: sorting.dfy ===
/** Stable sort by a real-valued key, highest key first: the behaviour of
    Python's `list.sort(key=..., reverse=True)`, which keeps equal keys in
    their original order. */
module Sorting {

  /** Keys never increase from left to right. */
  ghost predicate SortedDesc<T>(s: seq<T>, key: T -> real)
  {
    forall i, j :: 0 <= i < j < |s| ==> key(s[i]) >= key(s[j])
  }

  /** Every element of a sequence holding the elements of `u` plus `x` has
      a key at most `h` when all of those do. */
  lemma BoundedByHead<T>(t: seq<T>, u: seq<T>, x: T, key: T -> real, h: real)
    requires multiset(t) == multiset(u) + multiset{x}
    requires forall k :: 0 <= k < |u| ==> key(u[k]) <= h
    requires key(x) <= h
    ensures forall k :: 0 <= k < |t| ==> key(t[k]) <= h
  {
    forall k | 0 <= k < |t|
      ensures key(t[k]) <= h
    {
      assert t[k] in multiset(t);
      if t[k] != x {
        assert t[k] in multiset(u);
        assert t[k] in u;
      }
    }
  }

  /** Inserts `x` in front of the first element whose key is not larger,
      so `x` stays ahead of the equal keys that followed it in the input. */
  function InsertDesc<T>(x: T, s: seq<T>, key: T -> real): (r: seq<T>)
    requires SortedDesc(s, key)
    ensures multiset(r) == multiset(s) + multiset{x}
    ensures SortedDesc(r, key)
    ensures |r| == |s| + 1
  {
    if |s| == 0 || key(s[0]) <= key(x) then
      [x] + s
    else
      var tail := InsertDesc(x, s[1..], key);
      assert multiset(s) == multiset{s[0]} + multiset(s[1..]) by {
        assert s == [s[0]] + s[1..];
      }
      assert forall k :: 0 <= k < |s[1..]| ==> key(s[1..][k]) <= key(s[0]) by {
        forall k | 0 <= k < |s[1..]|
          ensures key(s[1..][k]) <= key(s[0])
        {
          assert s[1..][k] == s[k + 1];
        }
      }
      BoundedByHead(tail, s[1..], x, key, key(s[0]));
      [s[0]] + tail
  }

  /** The elements of `s` whose key is `v`, in their order in `s`. A sort is
      stable when it keeps every such subsequence as it was. */
  function Ties<T>(s: seq<T>, key: T -> real, v: real): seq<T>
  {
    if |s| == 0 then []
    else (if key(s[0]) == v then [s[0]] else []) + Ties(s[1..], key, v)
  }

  /** Inserting `x` puts it ahead of every element with its key. */
  lemma {:induction false} InsertDescTies<T>(x: T, s: seq<T>, key: T -> real, v: real)
    requires SortedDesc(s, key)
    ensures Ties(InsertDesc(x, s, key), key, v) == (if key(x) == v then [x] else []) + Ties(s, key, v)
    decreases |s|
  {
    var r := InsertDesc(x, s, key);
    if |s| == 0 || key(s[0]) <= key(x) {
      assert r[0] == x && r[1..] == s;
    } else {
      var tail := InsertDesc(x, s[1..], key);
      assert r[0] == s[0] && r[1..] == tail;
      InsertDescTies(x, s[1..], key, v);
    }
  }

  /** Stable descending sort (insertion sort): a permutation with keys
      never increasing, equal keys in their input order. */
  function SortDesc<T>(s: seq<T>, key: T -> real): (r: seq<T>)
    ensures multiset(r) == multiset(s)
    ensures SortedDesc(r, key)
    ensures |r| == |s|
    ensures forall v :: Ties(r, key, v) == Ties(s, key, v)
  {
    if |s| == 0 then
      []
    else
      assert s == [s[0]] + s[1..];
      var t := SortDesc(s[1..], key);
      assert forall v :: Ties(InsertDesc(s[0], t, key), key, v) == Ties(s, key, v) by {
        forall v
          ensures Ties(InsertDesc(s[0], t, key), key, v) == Ties(s, key, v)
        {
          InsertDescTies(s[0], t, key, v);
        }
      }
      InsertDesc(s[0], t, key)
  }

  /** A permutation keeps exactly the same elements. */
  lemma SameElements<T>(a: seq<T>, b: seq<T>, x: T)
    requires multiset(a) == multiset(b)
    ensures x in a <==> x in b
  {
    assert x in a <==> x in multiset(a);
    assert x in b <==> x in multiset(b);
  }

  /** Sorting keeps exactly the same members. */
  lemma SortKeepsMembers<T>(s: seq<T>, key: T -> real)
    ensures forall x :: x in SortDesc(s, key) <==> x in s
  {
    var r := SortDesc(s, key);
    forall x
      ensures x in r <==> x in s
    {
      SameElements(r, s, x);
    }
  }

  /** Every prefix of a descending sequence is descending. */
  lemma PrefixSortedDesc<T>(s: seq<T>, n: nat, key: T -> real)
    requires SortedDesc(s, key)
    requires n <= |s|
    ensures SortedDesc(s[..n], key)
  {
  }
}

=== FILE: strategies.dfy ===
/** The equity strategies of strategies/strategies.py: the signal and
    indicator records, per-strategy performance bookkeeping, and the `analyze`
    decision rules of MomentumScalper, TrendFollower and VolatilityBreakout.
    Indicators arrive already computed; an absent indicator is `None`, and
    Python's truthiness makes a value of 0.0 behave like an absent one. */
module Strategies {
  import opened Basics
  import opened Config

  datatype Direction = Long | Short

  datatype Signal = Signal(
    symbol: string,
    direction: Direction,
    strength: real,
    entryPrice: real,
    stopLoss: real,
    takeProfit: real,
    strategyName: string)

  datatype Indicators = Indicators(
    close: real,
    volume: int,
    ema8: Option<real>,
    ema21: Option<real>,
    ema50: Option<real>,
    ema200: Option<real>,
    atr: Option<real>,
    bollingerUpper: Option<real>,
    bollingerLower: Option<real>,
    rsi: Option<real>,
    macd: Option<real>,
    macdSignal: Option<real>,
    volumeSma: Option<real>,
    volumeRatio: Option<real>)

  /** The stop lies on the loss side of the entry and the target on the
      profit side, for the signal's direction. */
  predicate LevelsBracket(s: Signal)
  {
    match s.direction
    case Long => s.stopLoss < s.entryPrice < s.takeProfit
    case Short => s.takeProfit < s.entryPrice < s.stopLoss
  }

  // ---------------------------------------------------------------------------
  // Performance bookkeeping
  // ---------------------------------------------------------------------------

  datatype StrategyStats = StrategyStats(
    name: string,
    totalSignals: nat,
    totalTrades: nat,
    winningTrades: nat,
    losingTrades: nat,
    totalPnl: real)

  function NewStats(name: string): (st: StrategyStats)
    ensures st.totalSignals == 0 && st.totalTrades == 0 && st.totalPnl == 0.0
    ensures Consistent(st)
  {
    StrategyStats(name, 0, 0, 0, 0, 0.0)
  }

  /** Every recorded trade is either a win or a loss. */
  predicate Consistent(st: StrategyStats)
  {
    st.totalTrades == st.winningTrades + st.losingTrades
  }

  /** `record_trade_result`: a strictly positive PnL is a win, anything else
      (including exactly 0) a loss. */
  function RecordTradeResult(st: StrategyStats, pnl: real): (r: StrategyStats)
    ensures Consistent(st) ==> Consistent(r)
    ensures r.totalTrades == st.totalTrades + 1
    ensures pnl > 0.0 ==> r.winningTrades == st.winningTrades + 1 && r.losingTrades == st.losingTrades
    ensures pnl <= 0.0 ==> r.losingTrades == st.losingTrades + 1 && r.winningTrades == st.winningTrades
    ensures r.totalPnl == st.totalPnl + pnl
    ensures r.name == st.name && r.totalSignals == st.totalSignals
  {
    var st' := st.(totalTrades := st.totalTrades + 1, totalPnl := st.totalPnl + pnl);
    if pnl > 0.0 then st'.(winningTrades := st.winningTrades + 1)
    else st'.(losingTrades := st.losingTrades + 1)
  }

  function RecordAll(st: StrategyStats, pnls: seq<real>): StrategyStats
  {
    if |pnls| == 0 then st else RecordTradeResult(RecordAll(st, pnls[..|pnls| - 1]), pnls[|pnls| - 1])
  }

  function CountWins(pnls: seq<real>): nat
  {
    if |pnls| == 0 then 0 else CountWins(pnls[..|pnls| - 1]) + (if pnls[|pnls| - 1] > 0.0 then 1 else 0)
  }

  /** From fresh counters, the wins are exactly the strictly positive PnLs and
      the split stays consistent. */
  lemma {:induction false} RecordAllCounts(name: string, pnls: seq<real>)
    ensures RecordAll(NewStats(name), pnls).winningTrades == CountWins(pnls)
    ensures RecordAll(NewStats(name), pnls).totalTrades == |pnls|
    ensures Consistent(RecordAll(NewStats(name), pnls))
    decreases |pnls|
  {
    if |pnls| > 0 {
      RecordAllCounts(name, pnls[..|pnls| - 1]);
    }
  }

  /** `get_win_rate`. */
  function WinRate(st: StrategyStats): (r: real)
    ensures st.totalTrades == 0 ==> r == 0.0
    ensures Consistent(st) ==> 0.0 <= r <= 1.0
    ensures st.totalTrades > 0 ==> r * st.totalTrades as real == st.winningTrades as real
  {
    if st.totalTrades == 0 then 0.0 else st.winningTrades as real / st.totalTrades as real
  }

  datatype StatsReport = StatsReport(
    name: string,
    totalSignals: nat,
    totalTrades: nat,
    winningTrades: nat,
    losingTrades: nat,
    winRate: real,
    totalPnl: real,
    avgPnlPerTrade: real)

  /** `get_stats`. */
  function GetStats(st: StrategyStats): (r: StatsReport)
    ensures st.totalTrades == 0 ==> r.avgPnlPerTrade == 0.0 && r.winRate == 0.0
    ensures st.totalTrades > 0 ==> r.avgPnlPerTrade * st.totalTrades as real == st.totalPnl
    ensures Consistent(st) ==> 0.0 <= r.winRate <= 1.0
    ensures r.totalTrades == st.totalTrades && r.totalPnl == st.totalPnl && r.totalSignals == st.totalSignals
  {
    StatsReport(st.name, st.totalSignals, st.totalTrades, st.winningTrades, st.losingTrades,
                WinRate(st), st.totalPnl,
                if st.totalTrades > 0 then st.totalPnl / st.totalTrades as real else 0.0)
  }

  /** The outcome of one `analyze` call: the optional signal and the strategy's
      counters afterwards. */
  datatype Analysis = Analysis(signal: Option<Signal>, stats: StrategyStats)

  /** `total_signals` counts exactly the calls that returned a signal. */
  predicate CountsSignal(before: StrategyStats, r: Analysis)
  {
    r.stats == before.(totalSignals := before.totalSignals + (if r.signal.Some? then 1 else 0))
  }

  function Emit(st: StrategyStats, s: Option<Signal>): (r: Analysis)
    ensures r.signal == s && CountsSignal(st, r)
  {
    Analysis(s, if s.Some? then st.(totalSignals := st.totalSignals + 1) else st)
  }

  // ---------------------------------------------------------------------------
  // MomentumScalper
  // ---------------------------------------------------------------------------

  const MomentumMinRsi: real := 30.0
  const MomentumMaxRsi: real := 70.0
  const MomentumMinVolumeRatio: real := 1.5

  /** The guards MomentumScalper applies before looking at the setup. */
  predicate MomentumEligible(ind: Indicators)
  {
    && Truthy(ind.rsi) && Truthy(ind.atr) && Truthy(ind.ema8) && Truthy(ind.ema21)
    && !(Truthy(ind.volumeRatio) && ind.volumeRatio.value < MomentumMinVolumeRatio)
  }

  /** `MomentumScalper.analyze`: oversold in a short-term uptrend goes long,
      overbought in a short-term downtrend goes short; stop 1.5 ATR away and
      target 3 ATR away. */
  function MomentumScalper(st: StrategyStats, symbol: string, ind: Indicators): (r: Analysis)
    ensures CountsSignal(st, r)
    ensures !MomentumEligible(ind) ==> r.signal.None?
    ensures MomentumEligible(ind) ==>
      ((r.signal.Some? && r.signal.value.direction == Long) <==>
        (ind.rsi.value < MomentumMinRsi && ind.ema8.value > ind.ema21.value))
    ensures MomentumEligible(ind) ==>
      ((r.signal.Some? && r.signal.value.direction == Short) <==>
        (ind.rsi.value > MomentumMaxRsi && ind.ema8.value < ind.ema21.value))
    ensures r.signal.Some? ==>
      var s := r.signal.value;
      && s.symbol == symbol && s.strategyName == "MomentumScalper"
      && s.entryPrice == ind.close && s.strength == 1.0
      && (s.direction == Long ==>
            s.stopLoss == ind.close - ind.atr.value * 1.5 && s.takeProfit == ind.close + ind.atr.value * 3.0)
      && (s.direction == Short ==>
            s.stopLoss == ind.close + ind.atr.value * 1.5 && s.takeProfit == ind.close - ind.atr.value * 3.0)
  {
    if !Truthy(ind.rsi) || !Truthy(ind.atr) then Emit(st, None)
    else if Truthy(ind.volumeRatio) && ind.volumeRatio.value < MomentumMinVolumeRatio then Emit(st, None)
    else
      var rsi := ind.rsi.value;
      var atr := ind.atr.value;
      var isOversold := rsi < MomentumMinRsi;
      var isOverbought := rsi > MomentumMaxRsi;
      if !Truthy(ind.ema8) || !Truthy(ind.ema21) then Emit(st, None)
      else
        var bullish := ind.ema8.value > ind.ema21.value;
        var bearish := ind.ema8.value < ind.ema21.value;
        var band := MomentumMaxRsi - MomentumMinRsi;
        if isOversold && bullish then
          Emit(st, Some(Signal(symbol, Long, Min(1.0, (MomentumMaxRsi - rsi) / band), ind.close,
                               ind.close - atr * 1.5, ind.close + atr * 3.0, "MomentumScalper")))
        else if isOverbought && bearish then
          Emit(st, Some(Signal(symbol, Short, Min(1.0, (rsi - MomentumMinRsi) / band), ind.close,
                               ind.close + atr * 1.5, ind.close - atr * 3.0, "MomentumScalper")))
        else
          Emit(st, None)
  }

  /** With a positive ATR every MomentumScalper signal brackets its entry. */
  lemma MomentumLevelsBracket(st: StrategyStats, symbol: string, ind: Indicators)
    requires ind.atr.Some? && ind.atr.value > 0.0
    ensures var r := MomentumScalper(st, symbol, ind);
      r.signal.Some? ==> LevelsBracket(r.signal.value)
  {
  }

  // ---------------------------------------------------------------------------
  // TrendFollower
  // ---------------------------------------------------------------------------

  predicate TrendEligible(ind: Indicators)
  {
    && Truthy(ind.ema8) && Truthy(ind.ema21) && Truthy(ind.ema50)
    && Truthy(ind.macd) && Truthy(ind.macdSignal) && Truthy(ind.atr)
  }

  predicate StrongUptrend(ind: Indicators)
    requires TrendEligible(ind)
  {
    && ind.ema8.value > ind.ema21.value > ind.ema50.value
    && ind.close > ind.ema8.value
    && ind.macd.value > ind.macdSignal.value
  }

  predicate StrongDowntrend(ind: Indicators)
    requires TrendEligible(ind)
  {
    && ind.ema8.value < ind.ema21.value < ind.ema50.value
    && ind.close < ind.ema8.value
    && ind.macd.value < ind.macdSignal.value
  }

  /** The normalised EMA spread: 5% spread between the fast and slow EMAs is
      full strength. */
  function TrendStrength(ind: Indicators): (r: real)
    requires TrendEligible(ind)
    ensures 0.0 <= r <= 1.0
  {
    Min(1.0, Abs((ind.ema8.value - ind.ema50.value) / ind.ema50.value) / 0.05)
  }

  /** `TrendFollower.analyze`: a signal is returned (and counted) only when
      its strength reaches `min_trend_strength`. */
  function TrendFollower(cfg: StrategyConfig, st: StrategyStats, symbol: string, ind: Indicators): (r: Analysis)
    ensures CountsSignal(st, r)
    ensures !TrendEligible(ind) ==> r.signal.None?
    ensures TrendEligible(ind) ==>
      ((r.signal.Some? && r.signal.value.direction == Long) <==>
        (StrongUptrend(ind) && TrendStrength(ind) >= cfg.trendFollowerMinTrendStrength))
    ensures TrendEligible(ind) ==>
      ((r.signal.Some? && r.signal.value.direction == Short) <==>
        (!StrongUptrend(ind) && StrongDowntrend(ind) && TrendStrength(ind) >= cfg.trendFollowerMinTrendStrength))
    ensures r.signal.Some? ==>
      var s := r.signal.value;
      && TrendEligible(ind)
      && s.symbol == symbol && s.strategyName == "TrendFollower" && s.entryPrice == ind.close
      && cfg.trendFollowerMinTrendStrength <= s.strength <= 1.0
      && s.strength == TrendStrength(ind)
      && (s.direction == Long ==>
            s.stopLoss == ind.ema21.value * 0.98 && s.takeProfit == ind.close + ind.atr.value * 4.0)
      && (s.direction == Short ==>
            s.stopLoss == ind.ema21.value * 1.02 && s.takeProfit == ind.close - ind.atr.value * 4.0)
  {
    if !TrendEligible(ind) then Emit(st, None)
    else
      var candidate :=
        if StrongUptrend(ind) then
          Some(Signal(symbol, Long, TrendStrength(ind), ind.close,
                      ind.ema21.value * 0.98, ind.close + ind.atr.value * 4.0, "TrendFollower"))
        else if StrongDowntrend(ind) then
          TrendStrengthSymmetric(ind);
          Some(Signal(symbol, Short, Min(1.0, Abs((ind.ema50.value - ind.ema8.value) / ind.ema50.value) / 0.05),
                      ind.close, ind.ema21.value * 1.02, ind.close - ind.atr.value * 4.0, "TrendFollower"))
        else None;
      if candidate.Some? && candidate.value.strength >= cfg.trendFollowerMinTrendStrength then
        Emit(st, candidate)
      else
        Emit(st, None)
  }

  /** The short branch measures the spread as `(ema50 - ema8) / ema50`; its
      absolute value, and so the strength, is the long branch's. */
  lemma TrendStrengthSymmetric(ind: Indicators)
    requires TrendEligible(ind)
    ensures Abs((ind.ema50.value - ind.ema8.value) / ind.ema50.value)
         == Abs((ind.ema8.value - ind.ema50.value) / ind.ema50.value)
  {
    assert (ind.ema50.value - ind.ema8.value) / ind.ema50.value
        == -((ind.ema8.value - ind.ema50.value) / ind.ema50.value);
  }

  /** With a positive EMA21 and ATR, every TrendFollower signal brackets its
      entry: the EMA21-based stop sits behind the entry. */
  lemma TrendLevelsBracket(cfg: StrategyConfig, st: StrategyStats, symbol: string, ind: Indicators)
    requires ind.ema21.Some? && ind.ema21.value > 0.0
    requires ind.atr.Some? && ind.atr.value > 0.0
    ensures var r := TrendFollower(cfg, st, symbol, ind);
      r.signal.Some? ==> LevelsBracket(r.signal.value)
  {
  }

  // ---------------------------------------------------------------------------
  // VolatilityBreakout
  // ---------------------------------------------------------------------------

  const BreakoutMinVolumeRatio: real := 1.5

  predicate BreakoutEligible(ind: Indicators)
  {
    && Truthy(ind.bollingerUpper) && Truthy(ind.bollingerLower)
    && Truthy(ind.atr) && Truthy(ind.volumeRatio)
    && ind.volumeRatio.value >= BreakoutMinVolumeRatio
  }

  /** `VolatilityBreakout.analyze`: a close above the upper Bollinger band
      goes long, below the lower band goes short; the stop is the band middle. */
  function VolatilityBreakout(cfg: StrategyConfig, st: StrategyStats, symbol: string, ind: Indicators): (r: Analysis)
    ensures CountsSignal(st, r)
    ensures !BreakoutEligible(ind) ==> r.signal.None?
    ensures BreakoutEligible(ind) ==>
      ((r.signal.Some? && r.signal.value.direction == Long) <==> ind.close > ind.bollingerUpper.value)
    ensures BreakoutEligible(ind) ==>
      ((r.signal.Some? && r.signal.value.direction == Short) <==>
        (ind.close <= ind.bollingerUpper.value && ind.close < ind.bollingerLower.value))
    ensures r.signal.Some? ==>
      var s := r.signal.value;
      && BreakoutEligible(ind)
      && s.symbol == symbol && s.strategyName == "VolatilityBreakout" && s.entryPrice == ind.close
      && s.strength <= 1.0
      && s.stopLoss == (ind.bollingerUpper.value + ind.bollingerLower.value) / 2.0
      && (s.direction == Long ==> s.takeProfit == ind.close + ind.atr.value * cfg.volatilityBreakoutMultiplier)
      && (s.direction == Short ==> s.takeProfit == ind.close - ind.atr.value * cfg.volatilityBreakoutMultiplier)
  {
    if !Truthy(ind.bollingerUpper) || !Truthy(ind.bollingerLower) then Emit(st, None)
    else if !Truthy(ind.atr) || !Truthy(ind.volumeRatio) then Emit(st, None)
    else if ind.volumeRatio.value < BreakoutMinVolumeRatio then Emit(st, None)
    else
      var close := ind.close;
      var upper := ind.bollingerUpper.value;
      var lower := ind.bollingerLower.value;
      var mid := (upper + lower) / 2.0;
      var reach := ind.atr.value * cfg.volatilityBreakoutMultiplier;
      if close > upper then
        var strength := Min(1.0, ((close - upper) / upper) / 0.02);
        Emit(st, Some(Signal(symbol, Long, strength, close, mid, close + reach, "VolatilityBreakout")))
      else if close < lower then
        var strength := Min(1.0, ((lower - close) / lower) / 0.02);
        Emit(st, Some(Signal(symbol, Short, strength, close, mid, close - reach, "VolatilityBreakout")))
      else
        Emit(st, None)
  }

  /** With ordered bands and a positive ATR reach, every breakout signal
      brackets its entry. */
  lemma BreakoutLevelsBracket(cfg: StrategyConfig, st: StrategyStats, symbol: string, ind: Indicators)
    requires ind.bollingerLower.Some? && ind.bollingerUpper.Some?
    requires ind.bollingerLower.value <= ind.bollingerUpper.value
    requires ind.atr.Some? && ind.atr.value > 0.0 && cfg.volatilityBreakoutMultiplier > 0.0
    ensures var r := VolatilityBreakout(cfg, st, symbol, ind);
      r.signal.Some? ==> LevelsBracket(r.signal.value)
  {
    assert ind.atr.value * cfg.volatilityBreakoutMultiplier > 0.0;
  }

  // ---------------------------------------------------------------------------
  // Dispatch
  // ---------------------------------------------------------------------------

  /** The strategy classes the engine can instantiate. */
  datatype StrategyKind = MomentumScalperKind | TrendFollowerKind | VolatilityBreakoutKind

  function KindName(k: StrategyKind): string
  {
    match k
    case MomentumScalperKind => "MomentumScalper"
    case TrendFollowerKind => "TrendFollower"
    case VolatilityBreakoutKind => "VolatilityBreakout"
  }

  /** `strategy.analyze(...)` dispatched on the strategy's class. */
  function Analyze(k: StrategyKind, cfg: StrategyConfig, st: StrategyStats, symbol: string, ind: Indicators): (r: Analysis)
    ensures CountsSignal(st, r)
    ensures r.signal.Some? ==> r.signal.value.symbol == symbol && r.signal.value.strategyName == KindName(k)
    ensures r.signal.Some? ==> r.signal.value.entryPrice == ind.close
  {
    match k
    case MomentumScalperKind => MomentumScalper(st, symbol, ind)
    case TrendFollowerKind => TrendFollower(cfg, st, symbol, ind)
    case VolatilityBreakoutKind => VolatilityBreakout(cfg, st, symbol, ind)
  }
}

=== FILE: trading_engine.dfy ===
/** The orchestration of core/trading_engine.py: the strategy roster, the
    start/stop guards, one pass of the market monitor (gate, scan, execute)
    and one pass of the position monitor (stop, target, trailing stop, close).
    Threads, sleeps and broker calls are replaced by explicit inputs: the
    account value, the day, the indicators per symbol, the broker's open
    positions and the last prices. */
module TradingEngine {
  import opened Basics
  import opened Config
  import opened RiskManager
  import opened Strategies
  import OrderBuilder
  import MarketScanner

  /** One entry of `active_positions`. The order id and entry time the source
      also stores are never read back by the engine. */
  datatype Position = Position(
    quantity: int,
    entryPrice: real,
    stopLoss: real,
    takeProfit: real,
    strategy: string,
    stopOrderId: Option<string>)

  /** An instantiated strategy together with its performance counters. */
  datatype Slot = Slot(kind: StrategyKind, stats: StrategyStats)

  /** The engine's state. `stopEvent` is the threading event `stop` sets;
      nothing ever clears it. */
  datatype Engine = Engine(
    running: bool,
    ledger: map<string, Position>,
    risk: RiskState,
    totalPnl: real,
    strategies: seq<Slot>,
    stopEvent: bool)

  // ---------------------------------------------------------------------------
  // Construction, start and stop
  // ---------------------------------------------------------------------------

  /** The strategy class `_init_strategies` builds for a configured type; the
      range trader and the options scalper have no branch there. */
  function KindOf(t: StrategyType): Option<StrategyKind>
  {
    match t
    case MomentumScalperType => Some(MomentumScalperKind)
    case TrendFollowerType => Some(TrendFollowerKind)
    case VolatilityBreakoutType => Some(VolatilityBreakoutKind)
    case RangeTraderType => None
    case OptionScalperType => None
  }

  /** `_init_strategies`: the configured types the engine knows, in order and
      with repetitions kept. */
  function InitStrategies(types: seq<StrategyType>): (r: seq<StrategyKind>)
    ensures |r| <= |types|
    ensures forall k :: k in r <==> exists i :: 0 <= i < |types| && KindOf(types[i]) == Some(k)
  {
    if |types| == 0 then []
    else
      var rest := InitStrategies(types[1..]);
      assert forall i :: 0 <= i < |types[1..]| ==> types[1..][i] == types[i + 1];
      match KindOf(types[0])
      case Some(k) => [k] + rest
      case None => rest
  }

  /** The roster of a concatenation is the concatenation of the rosters, so
      the configured order is the order the strategies run in. */
  lemma {:induction false} InitStrategiesAppend(a: seq<StrategyType>, b: seq<StrategyType>)
    ensures InitStrategies(a + b) == InitStrategies(a) + InitStrategies(b)
    decreases |a|
  {
    if |a| == 0 {
      assert a + b == b;
    } else {
      assert (a + b)[0] == a[0];
      assert (a + b)[1..] == a[1..] + b;
      InitStrategiesAppend(a[1..], b);
    }
  }

  /** A freshly constructed engine: stopped, no positions, a fresh risk
      manager and one zeroed counter record per instantiated strategy. */
  function NewEngine(cfg: AppConfig, today: int): (e: Engine)
    ensures !e.running && !e.stopEvent && e.ledger == map[] && e.totalPnl == 0.0
    ensures e.risk == InitialState(today)
    ensures |e.strategies| == |InitStrategies(cfg.strategy.activeStrategies)|
    ensures forall i :: 0 <= i < |e.strategies| ==>
      && e.strategies[i].kind == InitStrategies(cfg.strategy.activeStrategies)[i]
      && e.strategies[i].stats == NewStats(KindName(e.strategies[i].kind))
  {
    var kinds := InitStrategies(cfg.strategy.activeStrategies);
    Engine(false, map[], InitialState(today), 0.0,
           seq(|kinds|, i requires 0 <= i < |kinds| => Slot(kinds[i], NewStats(KindName(kinds[i])))),
           false)
  }

  /** `start`: sets the running flag; an already running engine is left as is. */
  function Start(e: Engine): (r: Engine)
    ensures r.running
    ensures r.(running := e.running) == e
  {
    if e.running then e else e.(running := true)
  }

  /** `stop`: clears the running flag and sets the stop event; a stopped
      engine is left as is. */
  function Stop(e: Engine): (r: Engine)
    ensures !r.running
    ensures e.running ==> r.stopEvent
    ensures !e.running ==> r == e
    ensures r.(running := e.running, stopEvent := e.stopEvent) == e
  {
    if !e.running then e else e.(running := false, stopEvent := true)
  }

  /** Starting twice is starting once and stopping twice is stopping once. A
      stop is undone by a start only in the running flag: the stop event
      stays set. */
  lemma StartStopRoundTrip(e: Engine)
    ensures Start(Start(e)) == Start(e)
    ensures Stop(Stop(e)) == Stop(e)
    ensures !e.running ==> Stop(Start(e)) == e.(stopEvent := true)
    ensures e.running ==> Start(Stop(e)) == e.(stopEvent := true)
  {
  }

  /** Both monitor loops run `while self.running and not
      self.stop_event.is_set()`. */
  predicate LoopsActive(e: Engine)
  {
    e.running && !e.stopEvent
  }

  /** A start or a stop request. */
  datatype Control = StartRequest | StopRequest

  function ApplyControls(e: Engine, cs: seq<Control>): Engine
    decreases |cs|
  {
    if |cs| == 0 then e
    else ApplyControls(if cs[0] == StartRequest then Start(e) else Stop(e), cs[1..])
  }

  /** Once set, the stop event survives any later starts and stops, so the
      loops never run again. */
  lemma {:induction false} StopEventSticks(e: Engine, cs: seq<Control>)
    requires e.stopEvent
    ensures ApplyControls(e, cs).stopEvent
    ensures !LoopsActive(ApplyControls(e, cs))
    ensures ApplyControls(e, cs).ledger == e.ledger && ApplyControls(e, cs).risk == e.risk
    decreases |cs|
  {
    if |cs| > 0 {
      StopEventSticks(if cs[0] == StartRequest then Start(e) else Stop(e), cs[1..]);
    }
  }

  // ---------------------------------------------------------------------------
  // Executing a signal
  // ---------------------------------------------------------------------------

  /** The outcome of an engine step together with the order it sends, if any. */
  datatype Execution = Execution(engine: Engine, order: Option<OrderBuilder.Order>)

  /** The size `_execute_signal` asks for. No win rate is passed, so the Kelly
      method configured by default is never reached and every sizing method
      comes down to the fixed fraction. */
  function EntrySize(cfg: RiskConfig, sg: Signal, accountValue: real, exposure: real): (r: Result<nat>)
    ensures r == FixedFractionalSize(cfg, sg.entryPrice, sg.stopLoss, accountValue, exposure)
  {
    PositionSize(cfg, sg.symbol, sg.entryPrice, sg.stopLoss, accountValue, exposure, None)
  }

  /** The signed ledger quantity of an entry of `size` shares. */
  function SignedQuantity(size: nat, d: Direction): int
  {
    if d == Long then size as int else -(size as int)
  }

  /** `_execute_signal`. A sizing error is swallowed and a zero size skips the
      trade; otherwise the symbol's ledger entry is (over)written and, outside
      paper mode, a bracket order is sent. */
  function ExecuteSignal(cfg: AppConfig, e: Engine, sg: Signal, accountValue: real, exposure: real): (r: Execution)
    ensures r.engine.running == e.running && r.engine.risk == e.risk
    ensures r.engine.totalPnl == e.totalPnl && r.engine.strategies == e.strategies
    ensures forall k :: k != sg.symbol ==> MapGet(r.engine.ledger, k) == MapGet(e.ledger, k)
    ensures var size := EntrySize(cfg.risk, sg, accountValue, exposure);
      (size.Err? || size.value == 0) ==> r == Execution(e, None)
    ensures var size := EntrySize(cfg.risk, sg, accountValue, exposure);
      size.Ok? && size.value > 0 ==>
        && sg.symbol in r.engine.ledger
        && r.engine.ledger[sg.symbol].quantity == SignedQuantity(size.value, sg.direction)
        && r.engine.ledger[sg.symbol].entryPrice == sg.entryPrice
        && r.engine.ledger[sg.symbol].stopLoss == sg.stopLoss
        && r.engine.ledger[sg.symbol].takeProfit == sg.takeProfit
        && r.engine.ledger[sg.symbol].strategy == sg.strategyName
        && r.engine.ledger[sg.symbol].stopOrderId.None?
    ensures var size := EntrySize(cfg.risk, sg, accountValue, exposure);
      r.order.Some? <==> (cfg.mode != Paper && size.Ok? && size.value > 0)
    ensures r.order.Some? ==>
      r.order.value == OrderBuilder.BuildBracketOrder(sg.symbol, EntrySize(cfg.risk, sg, accountValue, exposure).value,
        sg.entryPrice, sg.stopLoss, sg.takeProfit, OrderBuilder.Equity, sg.direction == Long)
  {
    var size := EntrySize(cfg.risk, sg, accountValue, exposure);
    if size.Err? || size.value == 0 then Execution(e, None)
    else
      var p := Position(SignedQuantity(size.value, sg.direction), sg.entryPrice, sg.stopLoss,
                        sg.takeProfit, sg.strategyName, None);
      var order :=
        if cfg.mode == Paper then None
        else Some(OrderBuilder.BuildBracketOrder(sg.symbol, size.value, sg.entryPrice, sg.stopLoss,
                                                 sg.takeProfit, OrderBuilder.Equity, sg.direction == Long));
      Execution(e.(ledger := e.ledger[sg.symbol := p]), order)
  }

  /** A position the engine opens at a positive price never ties up more than
      the per-position share of the account, whatever the sizing method. */
  lemma ExecutedPositionWithinLimit(cfg: AppConfig, e: Engine, sg: Signal, accountValue: real, exposure: real)
    requires sg.entryPrice > 0.0 && accountValue >= 0.0 && cfg.risk.maxPositionSizePct >= 0.0
    ensures var r := ExecuteSignal(cfg, e, sg, accountValue, exposure).engine;
      r.ledger != e.ledger ==>
        && sg.symbol in r.ledger
        && Abs(r.ledger[sg.symbol].quantity as real) * sg.entryPrice <= accountValue * cfg.risk.maxPositionSizePct
  {
    PositionSizeWithinLimit(cfg.risk, sg.symbol, sg.entryPrice, sg.stopLoss, accountValue, exposure, None);
  }

  /** Every order the engine sends when it opens a position passes the
      builder's own validation, children included. */
  lemma EntryOrdersValidate(cfg: AppConfig, e: Engine, sg: Signal, accountValue: real, exposure: real)
    ensures var r := ExecuteSignal(cfg, e, sg, accountValue, exposure);
      r.order.Some? ==>
        && OrderBuilder.ValidateOrder(r.order.value) == Ok(true)
        && forall i :: 0 <= i < |r.order.value.childOrderStrategies.value| ==>
             OrderBuilder.ValidateOrder(r.order.value.childOrderStrategies.value[i]) == Ok(true)
  {
    var r := ExecuteSignal(cfg, e, sg, accountValue, exposure);
    if r.order.Some? {
      var size := EntrySize(cfg.risk, sg, accountValue, exposure).value;
      OrderBuilder.BuiltOrdersValidate(sg.symbol, size, OrderBuilder.Buy, OrderBuilder.Equity,
        OrderBuilder.Market, OrderBuilder.Day, None, None, sg.entryPrice, sg.stopLoss, sg.takeProfit,
        sg.direction == Long, "", 0.0, [], None);
      OrderBuilder.BracketChildrenValidate(sg.symbol, size, sg.entryPrice, sg.stopLoss, sg.takeProfit,
        OrderBuilder.Equity, sg.direction == Long);
    }
  }

  // ---------------------------------------------------------------------------
  // Closing a position
  // ---------------------------------------------------------------------------

  /** The paper profit of closing `p` at `exitPrice`: the absolute quantity
      times the move in the position's favour. */
  function RealizedPnl(p: Position, exitPrice: real): real
  {
    var q := Abs(p.quantity as real);
    if p.quantity > 0 then q * (exitPrice - p.entryPrice) else q * (p.entryPrice - exitPrice)
  }

  /** The realised profit is the signed quantity times the price move, which
      is the unrealised profit the risk metrics report at the exit price. */
  lemma RealizedPnlIsUnrealized(s: RiskState, symbol: string, p: Position, exitPrice: real)
    ensures RealizedPnl(p, exitPrice) == p.quantity as real * (exitPrice - p.entryPrice)
    ensures p.entryPrice != 0.0 ==>
      RealizedPnl(p, exitPrice)
        == CalculatePositionRisk(s, symbol, p.quantity, p.entryPrice, exitPrice, None, None).value.unrealizedPnl
  {
    var q := p.quantity as real;
    if p.quantity <= 0 {
      assert Abs(q) == -q;
      assert -q * (p.entryPrice - exitPrice) == q * (exitPrice - p.entryPrice);
    }
  }

  /** The closing instruction of a live position: sell a long, cover a short. */
  function ExitInstruction(quantity: int): OrderBuilder.OrderInstruction
  {
    if quantity > 0 then OrderBuilder.Sell else OrderBuilder.BuyToCover
  }

  function IntAbs(x: int): (r: nat)
    ensures r == x || r == -x
  {
    if x < 0 then -x else x
  }

  /** `_close_position`. An unknown symbol is ignored. In paper mode the
      realised profit goes to the risk manager and the running total; outside
      paper mode a market order is sent and nothing is recorded. Either way the
      ledger entry is removed. */
  function ClosePosition(cfg: AppConfig, e: Engine, symbol: string, exitPrice: real): (r: Execution)
    ensures symbol !in e.ledger ==> r == Execution(e, None)
    ensures symbol in e.ledger ==>
      && r.engine.ledger == e.ledger - {symbol}
      && r.engine.running == e.running && r.engine.strategies == e.strategies
    ensures symbol in e.ledger && cfg.mode == Paper ==>
      var pnl := e.ledger[symbol].quantity as real * (exitPrice - e.ledger[symbol].entryPrice);
      && r.order.None?
      && r.engine.risk == RecordTrade(e.risk, pnl)
      && r.engine.totalPnl == e.totalPnl + pnl
    ensures symbol in e.ledger && cfg.mode != Paper ==>
      var q := e.ledger[symbol].quantity;
      && r.engine.risk == e.risk && r.engine.totalPnl == e.totalPnl
      && r.order == Some(OrderBuilder.BuildEquityOrder(symbol, IntAbs(q), ExitInstruction(q),
                                                       OrderBuilder.Market, OrderBuilder.Day, None, None))
  {
    if symbol !in e.ledger then Execution(e, None)
    else
      var p := e.ledger[symbol];
      var rest := e.ledger - {symbol};
      if cfg.mode == Paper then
        var pnl := RealizedPnl(p, exitPrice);
        RealizedPnlIsUnrealized(e.risk, symbol, p, exitPrice);
        Execution(e.(ledger := rest, risk := RecordTrade(e.risk, pnl), totalPnl := e.totalPnl + pnl), None)
      else
        Execution(e.(ledger := rest),
                  Some(OrderBuilder.BuildEquityOrder(symbol, IntAbs(p.quantity), ExitInstruction(p.quantity),
                                                     OrderBuilder.Market, OrderBuilder.Day, None, None)))
  }

  /** Closing is idempotent: a second close of the same symbol changes
      nothing and sends nothing. */
  lemma CloseTwiceIsNoop(cfg: AppConfig, e: Engine, symbol: string, p1: real, p2: real)
    ensures var once := ClosePosition(cfg, e, symbol, p1).engine;
      ClosePosition(cfg, once, symbol, p2) == Execution(once, None)
  {
  }

  /** Opening a paper position and closing it records exactly one trade whose
      profit is the signed quantity times the price move; nothing else in the
      ledger moves. */
  lemma PaperRoundTrip(cfg: AppConfig, e: Engine, sg: Signal, accountValue: real, exposure: real, exitPrice: real)
    requires cfg.mode == Paper
    requires EntrySize(cfg.risk, sg, accountValue, exposure).Ok?
    requires EntrySize(cfg.risk, sg, accountValue, exposure).value > 0
    ensures var held := ExecuteSignal(cfg, e, sg, accountValue, exposure).engine;
      var closed := ClosePosition(cfg, held, sg.symbol, exitPrice).engine;
      var q := SignedQuantity(EntrySize(cfg.risk, sg, accountValue, exposure).value, sg.direction);
      && closed.ledger == e.ledger - {sg.symbol}
      && closed.risk.dailyTrades == e.risk.dailyTrades + 1
      && closed.totalPnl == e.totalPnl + q as real * (exitPrice - sg.entryPrice)
  {
    var held := ExecuteSignal(cfg, e, sg, accountValue, exposure).engine;
    assert held.ledger == e.ledger[sg.symbol := held.ledger[sg.symbol]];
    assert held.ledger - {sg.symbol} == e.ledger - {sg.symbol};
  }

  /** The end-to-end paper example: 20 shares bought at 50 with 10% of a
      10,000 account and closed at 52 realise a profit of 40. */
  lemma PaperExample(cfg: AppConfig, e: Engine, stop: real, target: real)
    requires cfg.mode == Paper
    requires cfg.risk.maxPositionSizePct == 0.10 && cfg.risk.maxTotalExposurePct == 0.50
    ensures var sg := Signal("AAPL", Long, 1.0, 50.0, stop, target, "MomentumScalper");
      var held := ExecuteSignal(cfg, e, sg, 10000.0, 0.0).engine;
      var closed := ClosePosition(cfg, held, "AAPL", 52.0).engine;
      && held.ledger["AAPL"].quantity == 20
      && closed.totalPnl == e.totalPnl + 40.0
      && closed.risk.dailyPnl == e.risk.dailyPnl + 40.0
  {
    var sg := Signal("AAPL", Long, 1.0, 50.0, stop, target, "MomentumScalper");
    FixedFractionalExample(cfg.risk, stop);
    assert EntrySize(cfg.risk, sg, 10000.0, 0.0) == Ok(20);
    PaperRoundTrip(cfg, e, sg, 10000.0, 0.0, 52.0);
  }

  // ---------------------------------------------------------------------------
  // Position monitor
  // ---------------------------------------------------------------------------

  /** The software stop fires when no broker stop order is recorded, the
      stored stop is truthy and the price has reached it. */
  predicate StopHit(p: Position, price: real, isLong: bool)
  {
    && p.stopOrderId.None?
    && NonZero(p.stopLoss)
    && (if isLong then price <= p.stopLoss else price >= p.stopLoss)
  }

  /** The target fires when the stored target is truthy and reached. */
  predicate TargetHit(p: Position, price: real, isLong: bool)
  {
    NonZero(p.takeProfit) && (if isLong then price >= p.takeProfit else price <= p.takeProfit)
  }

  predicate ExitHit(p: Position, price: real, isLong: bool)
  {
    StopHit(p, price, isLong) || TargetHit(p, price, isLong)
  }

  /** One step of the position monitor: its new state, the orders it sent and
      the exception that escaped it, if any. */
  datatype MonitorStep = MonitorStep(engine: Engine, orders: seq<OrderBuilder.Order>, raised: Option<PyError>)

  function OrdersOf(x: Execution): seq<OrderBuilder.Order>
  {
    if x.order.Some? then [x.order.value] else []
  }

  /** The new state and the orders sent by a step that cannot raise. */
  datatype Outcome = Outcome(engine: Engine, orders: seq<OrderBuilder.Order>)

  /** The exit checks of the position monitor for a held symbol: the stop,
      then the target against the entry as it was before any close. When both
      fire the second close finds nothing, so one exit is recorded. */
  function CloseOnExit(cfg: AppConfig, e: Engine, symbol: string, price: real, isLong: bool): (r: Outcome)
    requires symbol in e.ledger
    ensures r.engine.running == e.running && r.engine.strategies == e.strategies
    ensures r.engine.risk.trailingStops == e.risk.trailingStops
    ensures r.engine.totalPnl - r.engine.risk.dailyPnl == e.totalPnl - e.risk.dailyPnl
    ensures !ExitHit(e.ledger[symbol], price, isLong) ==> r == Outcome(e, [])
    ensures ExitHit(e.ledger[symbol], price, isLong) ==> r.engine.ledger == e.ledger - {symbol}
    ensures ExitHit(e.ledger[symbol], price, isLong) && cfg.mode == Paper ==>
      && r.engine.risk.dailyTrades == e.risk.dailyTrades + 1
      && r.engine.totalPnl == e.totalPnl + e.ledger[symbol].quantity as real * (price - e.ledger[symbol].entryPrice)
      && r.orders == []
    ensures ExitHit(e.ledger[symbol], price, isLong) && cfg.mode != Paper ==>
      r.engine.risk == e.risk && r.engine.totalPnl == e.totalPnl && |r.orders| == 1
  {
    var p := e.ledger[symbol];
    CloseTwiceIsNoop(cfg, e, symbol, price, price);
    var c1 := if StopHit(p, price, isLong) then ClosePosition(cfg, e, symbol, price) else Execution(e, None);
    var c2 := if TargetHit(p, price, isLong) then ClosePosition(cfg, c1.engine, symbol, price)
              else Execution(c1.engine, None);
    Outcome(c2.engine, OrdersOf(c1) + OrdersOf(c2))
  }

  /** The body of the position monitor's loop for one broker position with
      net quantity `brokerQuantity` at `price`: the exit checks, then the
      trailing-stop ratchet, which raises on a zero entry price. The direction
      comes from the broker quantity, the closing size from the ledger. */
  function MonitorPosition(cfg: AppConfig, e: Engine, symbol: string, brokerQuantity: int, price: real): (r: MonitorStep)
    ensures brokerQuantity == 0 || symbol !in e.ledger ==> r == MonitorStep(e, [], None)
    ensures r.engine.running == e.running && r.engine.strategies == e.strategies
    ensures r.engine.totalPnl - r.engine.risk.dailyPnl == e.totalPnl - e.risk.dailyPnl
    ensures r.engine.risk.dailyTrades == e.risk.dailyTrades || r.engine.risk.dailyTrades == e.risk.dailyTrades + 1
    ensures !cfg.risk.trailingStopEnabled ==> r.engine.risk.trailingStops == e.risk.trailingStops
    ensures brokerQuantity != 0 && symbol in e.ledger ==>
      var p := e.ledger[symbol];
      var closed := CloseOnExit(cfg, e, symbol, price, brokerQuantity > 0);
      && r.engine.ledger == closed.engine.ledger && r.orders == closed.orders
      && r.engine.totalPnl == closed.engine.totalPnl
      && r.engine.risk.dailyTrades == closed.engine.risk.dailyTrades
      && (r.raised.Some? <==> cfg.risk.trailingStopEnabled && p.entryPrice == 0.0)
  {
    if brokerQuantity == 0 || symbol !in e.ledger then MonitorStep(e, [], None)
    else
      var p := e.ledger[symbol];
      var isLong := brokerQuantity > 0;
      var c := CloseOnExit(cfg, e, symbol, price, isLong);
      if !cfg.risk.trailingStopEnabled then MonitorStep(c.engine, c.orders, None)
      else
        match UpdateTrailingStop(cfg.risk, c.engine.risk, symbol, price, p.entryPrice, isLong)
        case Err(err) => MonitorStep(c.engine, c.orders, Some(err))
        case Ok(u) => MonitorStep(c.engine.(risk := u.state), c.orders, None)
  }

  /** With no broker stop order recorded, a long position with a positive
      stop is closed at a price of zero, which is what the monitor reads when
      the quote lacks the symbol; in paper mode the whole entry value is booked
      as a loss. */
  lemma MissingQuoteClosesLong(cfg: AppConfig, e: Engine, symbol: string, brokerQuantity: int)
    requires cfg.mode == Paper && brokerQuantity > 0 && symbol in e.ledger
    requires e.ledger[symbol].stopOrderId.None? && e.ledger[symbol].stopLoss > 0.0
    ensures var r := MonitorPosition(cfg, e, symbol, brokerQuantity, 0.0).engine;
      && symbol !in r.ledger
      && r.totalPnl == e.totalPnl - e.ledger[symbol].quantity as real * e.ledger[symbol].entryPrice
  {
    var p := e.ledger[symbol];
    assert p.quantity as real * (0.0 - p.entryPrice) == -(p.quantity as real * p.entryPrice);
  }

  /** A broker position row: its symbol and its long and short quantities. */
  datatype BrokerPosition = BrokerPosition(symbol: string, longQuantity: int, shortQuantity: int)

  /** The last price the monitor reads for a symbol, zero when the quote
      lacks it. */
  function QuotePrice(prices: map<string, real>, symbol: string): real
  {
    if symbol in prices then prices[symbol] else 0.0
  }

  /** What the position monitor may do to the engine: entries are only
      removed, never changed; the running total and the daily PnL move
      together; in paper mode every removed entry records one trade and no
      order is sent, in live mode every removed entry sends one order and no
      trade is recorded. */
  predicate OnlyRetires(cfg: AppConfig, e: Engine, r: Engine, orders: seq<OrderBuilder.Order>)
  {
    && r.running == e.running && r.strategies == e.strategies
    && r.ledger.Keys <= e.ledger.Keys
    && (forall k :: k in r.ledger ==> r.ledger[k] == e.ledger[k])
    && r.totalPnl - r.risk.dailyPnl == e.totalPnl - e.risk.dailyPnl
    && (cfg.mode == Paper ==>
          r.risk.dailyTrades + |r.ledger| == e.risk.dailyTrades + |e.ledger| && orders == [])
    && (cfg.mode != Paper ==>
          r.risk.dailyTrades == e.risk.dailyTrades && |orders| + |r.ledger| == |e.ledger|)
  }

  lemma MonitorPositionRetires(cfg: AppConfig, e: Engine, symbol: string, brokerQuantity: int, price: real)
    ensures var s := MonitorPosition(cfg, e, symbol, brokerQuantity, price);
      OnlyRetires(cfg, e, s.engine, s.orders)
  {
    RemoveOneKey(e.ledger, symbol);
  }

  lemma RetiresCompose(cfg: AppConfig, a: Engine, b: Engine, c: Engine,
                       o1: seq<OrderBuilder.Order>, o2: seq<OrderBuilder.Order>)
    requires OnlyRetires(cfg, a, b, o1) && OnlyRetires(cfg, b, c, o2)
    ensures OnlyRetires(cfg, a, c, o1 + o2)
  {
  }

  /** One pass of the position monitor over the broker's positions. An
      exception leaves the remaining positions for the next pass. */
  function MonitorPass(cfg: AppConfig, e: Engine, positions: seq<BrokerPosition>, prices: map<string, real>): (r: MonitorStep)
    ensures OnlyRetires(cfg, e, r.engine, r.orders)
    decreases |positions|
  {
    if |positions| == 0 then MonitorStep(e, [], None)
    else
      var b := positions[0];
      var step := MonitorPosition(cfg, e, b.symbol, b.longQuantity - b.shortQuantity, QuotePrice(prices, b.symbol));
      MonitorPositionRetires(cfg, e, b.symbol, b.longQuantity - b.shortQuantity, QuotePrice(prices, b.symbol));
      if step.raised.Some? then step
      else
        var rest := MonitorPass(cfg, step.engine, positions[1..], prices);
        RetiresCompose(cfg, e, step.engine, rest.engine, step.orders, rest.orders);
        MonitorStep(rest.engine, step.orders + rest.orders, rest.raised)
  }

  /** Removing a present key shrinks a map by one. */
  lemma RemoveOneKey<K, V>(m: map<K, V>, k: K)
    ensures k in m ==> |m - {k}| == |m| - 1
    ensures (m - {k}).Keys == m.Keys - {k}
  {
    if k in m {
      assert (m - {k}).Keys == m.Keys - {k};
      assert |m.Keys - {k}| == |m.Keys| - 1;
    }
  }

  // ---------------------------------------------------------------------------
  // Market monitor
  // ---------------------------------------------------------------------------

  /** One turn of the strategies loop: strategy `i` analyses the indicators,
      updates its counters, and its signal is executed at once. With
      `guarded` a signal for a symbol already in the ledger is not
      executed. */
  function StrategyStep(cfg: AppConfig, e: Engine, i: nat, symbol: string, ind: Indicators,
                        accountValue: real, exposure: real, guarded: bool): (x: Execution)
    requires i < |e.strategies|
    ensures x.engine.running == e.running && x.engine.risk == e.risk && x.engine.totalPnl == e.totalPnl
    ensures |x.engine.strategies| == |e.strategies|
    ensures forall j :: 0 <= j < |e.strategies| && j != i ==> x.engine.strategies[j] == e.strategies[j]
    ensures x.engine.strategies[i].kind == e.strategies[i].kind
    ensures x.engine.strategies[i].stats.totalTrades == e.strategies[i].stats.totalTrades
    ensures e.strategies[i].stats.totalSignals <= x.engine.strategies[i].stats.totalSignals
                                               <= e.strategies[i].stats.totalSignals + 1
    ensures forall k :: k != symbol ==> MapGet(x.engine.ledger, k) == MapGet(e.ledger, k)
    ensures guarded && symbol in e.ledger ==> x.engine.ledger == e.ledger && x.order.None?
    ensures cfg.mode == Paper ==> x.order.None?
  {
    var slot := e.strategies[i];
    var a := Analyze(slot.kind, cfg.strategy, slot.stats, symbol, ind);
    var e1 := e.(strategies := e.strategies[i := slot.(stats := a.stats)]);
    if a.signal.Some? && !(guarded && symbol in e1.ledger)
    then ExecuteSignal(cfg, e1, a.signal.value, accountValue, exposure)
    else Execution(e1, None)
  }

  /** The strategies loop for one symbol from strategy `i` on. */
  function RunStrategies(cfg: AppConfig, e: Engine, i: nat, symbol: string, ind: Indicators,
                         accountValue: real, exposure: real, guarded: bool): (r: Outcome)
    requires i <= |e.strategies|
    ensures r.engine.running == e.running && r.engine.risk == e.risk && r.engine.totalPnl == e.totalPnl
    ensures |r.engine.strategies| == |e.strategies|
    ensures forall j :: 0 <= j < i ==> r.engine.strategies[j] == e.strategies[j]
    ensures forall j :: i <= j < |e.strategies| ==>
      && r.engine.strategies[j].kind == e.strategies[j].kind
      && r.engine.strategies[j].stats.totalTrades == e.strategies[j].stats.totalTrades
      && e.strategies[j].stats.totalSignals <= r.engine.strategies[j].stats.totalSignals
                                           <= e.strategies[j].stats.totalSignals + 1
    ensures forall k :: k != symbol ==> MapGet(r.engine.ledger, k) == MapGet(e.ledger, k)
    ensures guarded && symbol in e.ledger ==> r.engine.ledger == e.ledger && r.orders == []
    ensures guarded ==> |r.orders| <= 1
    ensures cfg.mode == Paper ==> r.orders == []
    decreases |e.strategies| - i
  {
    if i == |e.strategies| then Outcome(e, [])
    else
      var x := StrategyStep(cfg, e, i, symbol, ind, accountValue, exposure, guarded);
      var rest := RunStrategies(cfg, x.engine, i + 1, symbol, ind, accountValue, exposure, guarded);
      Outcome(rest.engine, OrdersOf(x) + rest.orders)
  }

  /** Each remaining strategy sends at most one entry order. */
  lemma {:induction false} RunStrategiesOrderCount(cfg: AppConfig, e: Engine, i: nat, symbol: string, ind: Indicators,
                                                  accountValue: real, exposure: real, guarded: bool)
    requires i <= |e.strategies|
    ensures |RunStrategies(cfg, e, i, symbol, ind, accountValue, exposure, guarded).orders| <= |e.strategies| - i
    decreases |e.strategies| - i
  {
    if i < |e.strategies| {
      var x := StrategyStep(cfg, e, i, symbol, ind, accountValue, exposure, guarded);
      var rest := RunStrategies(cfg, x.engine, i + 1, symbol, ind, accountValue, exposure, guarded);
      RunStrategiesOrderCount(cfg, x.engine, i + 1, symbol, ind, accountValue, exposure, guarded);
      assert |x.engine.strategies| == |e.strategies| && |OrdersOf(x)| <= 1;
      assert |rest.orders| <= |e.strategies| - (i + 1);
      assert RunStrategies(cfg, e, i, symbol, ind, accountValue, exposure, guarded).orders == OrdersOf(x) + rest.orders;
    } else {
      assert RunStrategies(cfg, e, i, symbol, ind, accountValue, exposure, guarded).orders == [];
    }
  }

  /** The strategies loop for one symbol as the program runs it: every
      strategy's signal is executed, each one writing the symbol's ledger
      entry, so one symbol can send an entry order per strategy. */
  function ScanSymbolAsWritten(cfg: AppConfig, e: Engine, symbol: string, ind: Indicators,
                               accountValue: real, exposure: real): (r: Outcome)
    ensures r.engine.running == e.running && r.engine.risk == e.risk && r.engine.totalPnl == e.totalPnl
    ensures |r.engine.strategies| == |e.strategies|
    ensures forall k :: k != symbol ==> MapGet(r.engine.ledger, k) == MapGet(e.ledger, k)
    ensures |r.orders| <= |e.strategies|
    ensures cfg.mode == Paper ==> r.orders == []
  {
    RunStrategiesOrderCount(cfg, e, 0, symbol, ind, accountValue, exposure, false);
    RunStrategies(cfg, e, 0, symbol, ind, accountValue, exposure, false)
  }

  /** The strategies loop with the one-position-per-symbol rule the outer loop
      applies enforced inside it too: once a strategy has opened a position
      for the symbol, later signals only count. No existing entry is replaced
      and at most one entry order is sent. */
  function ScanSymbol(cfg: AppConfig, e: Engine, symbol: string, ind: Indicators,
                      accountValue: real, exposure: real): (r: Outcome)
    ensures r.engine.running == e.running && r.engine.risk == e.risk && r.engine.totalPnl == e.totalPnl
    ensures |r.engine.strategies| == |e.strategies|
    ensures forall k :: k in e.ledger ==> k in r.engine.ledger && r.engine.ledger[k] == e.ledger[k]
    ensures forall k :: k in r.engine.ledger ==> k in e.ledger || k == symbol
    ensures |r.orders| <= 1
    ensures cfg.mode == Paper ==> r.orders == []
  {
    var r := RunStrategies(cfg, e, 0, symbol, ind, accountValue, exposure, true);
    ExtendsAtOneKey(r.engine.ledger, e.ledger, symbol);
    r
  }

  /** Two maps that agree away from `x`, and at `x` whenever the second has
      it: the first keeps every entry of the second and adds at most `x`. */
  lemma ExtendsAtOneKey<K, V>(m: map<K, V>, base: map<K, V>, x: K)
    requires forall k :: k != x ==> MapGet(m, k) == MapGet(base, k)
    requires x in base ==> m == base
    ensures forall k :: k in base ==> k in m && m[k] == base[k]
    ensures forall k :: k in m ==> k in base || k == x
  {
    forall k | k != x
      ensures (k in m <==> k in base) && (k in base ==> m[k] == base[k])
    {
      assert MapGet(m, k) == MapGet(base, k);
    }
  }

  /** The indicators of the counterexample: oversold in a short-term uptrend
      (a MomentumScalper long) and closing below the lower Bollinger band on
      high volume (a VolatilityBreakout short). */
  function CounterexampleIndicators(): Indicators
  {
    Indicators(close := 100.0, volume := 1000000, ema8 := Some(101.0), ema21 := Some(100.0),
               ema50 := None, ema200 := None, atr := Some(1.0),
               bollingerUpper := Some(105.0), bollingerLower := Some(101.0),
               rsi := Some(25.0), macd := None, macdSignal := None,
               volumeSma := None, volumeRatio := Some(2.0))
  }

  /** An engine shaped like the counterexample: MomentumScalper followed by
      VolatilityBreakout, with no position yet for the symbol. */
  predicate CounterexampleShape(e: Engine)
  {
    && |e.strategies| == 2
    && e.strategies[0].kind == MomentumScalperKind
    && e.strategies[1].kind == VolatilityBreakoutKind
    && "XYZ" !in e.ledger
  }

  /** On the counterexample indicators MomentumScalper goes long at the close. */
  lemma MomentumLongOnCounterexample(cfg: StrategyConfig, st: StrategyStats)
    ensures var a := Analyze(MomentumScalperKind, cfg, st, "XYZ", CounterexampleIndicators());
      && a.signal.Some? && a.signal.value.direction == Long && a.signal.value.entryPrice == 100.0
      && a.signal.value.symbol == "XYZ" && a.signal.value.strategyName == "MomentumScalper"
  {
    var ind := CounterexampleIndicators();
    assert MomentumEligible(ind);
  }

  /** On the same indicators VolatilityBreakout goes short at the close. */
  lemma BreakoutShortOnCounterexample(cfg: StrategyConfig, st: StrategyStats)
    ensures var a := Analyze(VolatilityBreakoutKind, cfg, st, "XYZ", CounterexampleIndicators());
      && a.signal.Some? && a.signal.value.direction == Short && a.signal.value.entryPrice == 100.0
      && a.signal.value.symbol == "XYZ" && a.signal.value.strategyName == "VolatilityBreakout"
  {
    var ind := CounterexampleIndicators();
    assert BreakoutEligible(ind);
  }

  /** 10% of 10,000 buys 10 shares at 100. */
  lemma TenSharesAtHundred(cfg: RiskConfig, sg: Signal)
    requires cfg.maxPositionSizePct == 0.10 && cfg.maxTotalExposurePct == 0.50 && sg.entryPrice == 100.0
    ensures EntrySize(cfg, sg, 10000.0, 0.0) == Ok(10)
  {
    assert Trunc(1000.0 / 100.0) == 10;
  }

  /** Executing the counterexample's MomentumScalper signal opens a long of
      10 shares in any paper engine. */
  lemma MomentumOpensTen(cfg: AppConfig, e: Engine, st: StrategyStats)
    requires cfg.mode == Paper
    requires cfg.risk.maxPositionSizePct == 0.10 && cfg.risk.maxTotalExposurePct == 0.50
    ensures var a := Analyze(MomentumScalperKind, cfg.strategy, st, "XYZ", CounterexampleIndicators());
      && a.signal.Some?
      && var x := ExecuteSignal(cfg, e, a.signal.value, 10000.0, 0.0).engine;
      && "XYZ" in x.ledger && x.ledger["XYZ"].quantity == 10
      && x.ledger["XYZ"].strategy == "MomentumScalper"
  {
    var a := Analyze(MomentumScalperKind, cfg.strategy, st, "XYZ", CounterexampleIndicators());
    MomentumLongOnCounterexample(cfg.strategy, st);
    TenSharesAtHundred(cfg.risk, a.signal.value);
  }

  /** From any paper engine whose second and last strategy is
      VolatilityBreakout, the unguarded loop from that strategy on leaves a
      short of 10 shares for the symbol. */
  lemma BreakoutShortsLast(cfg: AppConfig, e: Engine)
    requires cfg.mode == Paper
    requires cfg.risk.maxPositionSizePct == 0.10 && cfg.risk.maxTotalExposurePct == 0.50
    requires |e.strategies| == 2 && e.strategies[1].kind == VolatilityBreakoutKind
    ensures var r := RunStrategies(cfg, e, 1, "XYZ", CounterexampleIndicators(), 10000.0, 0.0, false).engine;
      && "XYZ" in r.ledger && r.ledger["XYZ"].quantity == -10
      && r.ledger["XYZ"].strategy == "VolatilityBreakout"
  {
    var ind := CounterexampleIndicators();
    var slot := e.strategies[1];
    var a := Analyze(slot.kind, cfg.strategy, slot.stats, "XYZ", ind);
    BreakoutShortOnCounterexample(cfg.strategy, slot.stats);
    TenSharesAtHundred(cfg.risk, a.signal.value);
    var e1 := e.(strategies := e.strategies[1 := slot.(stats := a.stats)]);
    var x := ExecuteSignal(cfg, e1, a.signal.value, 10000.0, 0.0);
    assert RunStrategies(cfg, x.engine, 2, "XYZ", ind, 10000.0, 0.0, false) == Outcome(x.engine, []);
  }

  /** The unguarded loop over any two-strategy paper engine ending in
      VolatilityBreakout leaves the breakout short for the symbol, whatever
      the first strategy did. */
  lemma UnguardedEndsShort(cfg: AppConfig, e: Engine)
    requires cfg.mode == Paper
    requires cfg.risk.maxPositionSizePct == 0.10 && cfg.risk.maxTotalExposurePct == 0.50
    requires |e.strategies| == 2 && e.strategies[1].kind == VolatilityBreakoutKind
    ensures var r := RunStrategies(cfg, e, 0, "XYZ", CounterexampleIndicators(), 10000.0, 0.0, false).engine;
      && "XYZ" in r.ledger && r.ledger["XYZ"].quantity == -10
      && r.ledger["XYZ"].strategy == "VolatilityBreakout"
  {
    var ind := CounterexampleIndicators();
    var slot := e.strategies[0];
    var a1 := Analyze(slot.kind, cfg.strategy, slot.stats, "XYZ", ind);
    var e1 := e.(strategies := e.strategies[0 := slot.(stats := a1.stats)]);
    var x1 := if a1.signal.Some? then ExecuteSignal(cfg, e1, a1.signal.value, 10000.0, 0.0) else Execution(e1, None);
    BreakoutShortsLast(cfg, x1.engine);
  }

  /** As written, the long opened by MomentumScalper is silently replaced by
      the VolatilityBreakout short: the ledger ends short 10 shares and no
      trade is recorded for the long. */
  lemma ScanOverwritesPosition(cfg: AppConfig, e: Engine)
    requires cfg.mode == Paper
    requires cfg.risk.maxPositionSizePct == 0.10 && cfg.risk.maxTotalExposurePct == 0.50
    requires CounterexampleShape(e)
    ensures var r := ScanSymbolAsWritten(cfg, e, "XYZ", CounterexampleIndicators(), 10000.0, 0.0);
      && "XYZ" in r.engine.ledger
      && r.engine.ledger["XYZ"].quantity == -10
      && r.engine.ledger["XYZ"].strategy == "VolatilityBreakout"
      && r.engine.risk.dailyTrades == e.risk.dailyTrades
  {
    UnguardedEndsShort(cfg, e);
  }

  /** The corrected loop on the same input keeps the MomentumScalper long. */
  lemma ScanKeepsFirstPosition(cfg: AppConfig, e: Engine)
    requires cfg.mode == Paper
    requires cfg.risk.maxPositionSizePct == 0.10 && cfg.risk.maxTotalExposurePct == 0.50
    requires CounterexampleShape(e)
    ensures var r := ScanSymbol(cfg, e, "XYZ", CounterexampleIndicators(), 10000.0, 0.0);
      && "XYZ" in r.engine.ledger
      && r.engine.ledger["XYZ"].quantity == 10
      && r.engine.ledger["XYZ"].strategy == "MomentumScalper"
  {
    var ind := CounterexampleIndicators();
    var slot := e.strategies[0];
    var a1 := Analyze(slot.kind, cfg.strategy, slot.stats, "XYZ", ind);
    var e1 := e.(strategies := e.strategies[0 := slot.(stats := a1.stats)]);
    MomentumOpensTen(cfg, e1, slot.stats);
    var x1 := ExecuteSignal(cfg, e1, a1.signal.value, 10000.0, 0.0);
    var r1 := RunStrategies(cfg, x1.engine, 1, "XYZ", ind, 10000.0, 0.0, true);
    assert r1.engine.ledger == x1.engine.ledger;
  }

  /** The indicators available for a symbol this pass; a symbol without
      quote or history is absent. */
  type MarketData = map<string, Indicators>

  /** One turn of the scan loop: a held symbol or one without data is
      skipped; otherwise the strategies loop runs, as written or, with
      `guarded`, corrected. */
  function ScanStep(cfg: AppConfig, e: Engine, sym: string, data: MarketData,
                    accountValue: real, exposure: real, guarded: bool): (r: Outcome)
    ensures r.engine.running == e.running && r.engine.risk == e.risk && r.engine.totalPnl == e.totalPnl
    ensures |r.engine.strategies| == |e.strategies|
    ensures forall k :: k in e.ledger ==> k in r.engine.ledger && r.engine.ledger[k] == e.ledger[k]
    ensures forall k :: k in r.engine.ledger ==> k in e.ledger || k == sym
    ensures (sym in e.ledger || sym !in data) ==> r == Outcome(e, [])
    ensures |r.orders| <= |e.strategies|
    ensures guarded ==> |r.orders| <= 1
    ensures cfg.mode == Paper ==> r.orders == []
  {
    if sym in e.ledger || sym !in data then Outcome(e, [])
    else if guarded then ScanSymbol(cfg, e, sym, data[sym], accountValue, exposure)
    else
      var x := ScanSymbolAsWritten(cfg, e, sym, data[sym], accountValue, exposure);
      ExtendsAtOneKey(x.engine.ledger, e.ledger, sym);
      x
  }

  /** At most `m` orders for one symbol and `n * m` for the next `n`. */
  lemma PerSymbolBound(a: nat, b: nat, n: nat, m: nat)
    requires a <= m && b <= n * m
    ensures a + b <= (n + 1) * m
  {
  }

  /** The scan loop over the watch list as the program runs it: held symbols
      and symbols without data are skipped, and every strategy's signal for
      the rest is executed. Positions held before the pass are never touched;
      a symbol can send one entry order per strategy. */
  function ScanSymbols(cfg: AppConfig, e: Engine, symbols: seq<string>, data: MarketData,
                       accountValue: real, exposure: real): (r: Outcome)
    ensures r.engine.running == e.running && r.engine.risk == e.risk && r.engine.totalPnl == e.totalPnl
    ensures |r.engine.strategies| == |e.strategies|
    ensures forall k :: k in e.ledger ==> k in r.engine.ledger && r.engine.ledger[k] == e.ledger[k]
    ensures forall k :: k in r.engine.ledger ==> k in e.ledger || k in symbols
    ensures |r.orders| <= |symbols| * |e.strategies|
    ensures cfg.mode == Paper ==> r.orders == []
    decreases |symbols|
  {
    if |symbols| == 0 then Outcome(e, [])
    else
      var step := ScanStep(cfg, e, symbols[0], data, accountValue, exposure, false);
      var rest := ScanSymbols(cfg, step.engine, symbols[1..], data, accountValue, exposure);
      assert forall k :: k in symbols[1..] ==> k in symbols;
      PerSymbolBound(|step.orders|, |rest.orders|, |symbols[1..]|, |e.strategies|);
      Outcome(rest.engine, step.orders + rest.orders)
  }

  /** The scan loop with the corrected strategies loop: at most one entry
      order per scanned symbol, and no entry is ever replaced. */
  function ScanSymbolsCorrected(cfg: AppConfig, e: Engine, symbols: seq<string>, data: MarketData,
                                accountValue: real, exposure: real): (r: Outcome)
    ensures r.engine.running == e.running && r.engine.risk == e.risk && r.engine.totalPnl == e.totalPnl
    ensures |r.engine.strategies| == |e.strategies|
    ensures forall k :: k in e.ledger ==> k in r.engine.ledger && r.engine.ledger[k] == e.ledger[k]
    ensures forall k :: k in r.engine.ledger ==> k in e.ledger || k in symbols
    ensures |r.orders| <= |symbols|
    ensures cfg.mode == Paper ==> r.orders == []
    decreases |symbols|
  {
    if |symbols| == 0 then Outcome(e, [])
    else
      var step := ScanStep(cfg, e, symbols[0], data, accountValue, exposure, true);
      var rest := ScanSymbolsCorrected(cfg, step.engine, symbols[1..], data, accountValue, exposure);
      assert forall k :: k in symbols[1..] ==> k in symbols;
      Outcome(rest.engine, step.orders + rest.orders)
  }

  /** The counterexample at the level of the scan loop: scanning only "XYZ"
      ends with the VolatilityBreakout short, while the corrected scan keeps
      the MomentumScalper long. */
  lemma ScanPassesDisagree(cfg: AppConfig, e: Engine)
    requires cfg.mode == Paper
    requires cfg.risk.maxPositionSizePct == 0.10 && cfg.risk.maxTotalExposurePct == 0.50
    requires CounterexampleShape(e)
    ensures var data := map["XYZ" := CounterexampleIndicators()];
      var r := ScanSymbols(cfg, e, ["XYZ"], data, 10000.0, 0.0).engine;
      var c := ScanSymbolsCorrected(cfg, e, ["XYZ"], data, 10000.0, 0.0).engine;
      && "XYZ" in r.ledger && r.ledger["XYZ"].quantity == -10
      && "XYZ" in c.ledger && c.ledger["XYZ"].quantity == 10
  {
    var data := map["XYZ" := CounterexampleIndicators()];
    var syms: seq<string> := ["XYZ"];
    assert syms[0] == "XYZ" && syms[1..] == [];
    ScanOverwritesPosition(cfg, e);
    ScanKeepsFirstPosition(cfg, e);
    var w := ScanSymbolAsWritten(cfg, e, "XYZ", data["XYZ"], 10000.0, 0.0);
    assert ScanSymbols(cfg, w.engine, [], data, 10000.0, 0.0) == Outcome(w.engine, []);
    var k := ScanSymbol(cfg, e, "XYZ", data["XYZ"], 10000.0, 0.0);
    assert ScanSymbolsCorrected(cfg, k.engine, [], data, 10000.0, 0.0) == Outcome(k.engine, []);
  }

  /** The symbols a market pass scans: with the scanner enabled, its top
      `max_scan_symbols` ranked candidates of the quote cache; otherwise the
      static watch list. The scanner's ranking may raise. */
  function SymbolsToScan(cfg: AppConfig, cache: seq<MarketScanner.Quote>): (r: Result<seq<string>>)
    ensures !cfg.data.useMarketScanner ==> r == Ok(cfg.data.streamSymbols)
    ensures cfg.data.useMarketScanner ==>
      && (r.Err? <==> MarketScanner.RankCandidates(cfg.data, cache).Err?)
      && (r.Ok? ==>
            var ranked := MarketScanner.RankCandidates(cfg.data, cache).value;
            && |r.value| == SliceLength(cfg.data.maxScanSymbols, |ranked|)
            && forall i :: 0 <= i < |r.value| ==> r.value[i] == ranked[i].symbol)
  {
    if cfg.data.useMarketScanner then MarketScanner.TradeableSymbols(cfg.data, cache, cfg.data.maxScanSymbols)
    else Ok(cfg.data.streamSymbols)
  }

  /** One pass of the market monitor: the daily gate first (which may roll
      the day), then the choice of symbols, then the scan as the program runs
      it. A closed gate or a raising scanner (caught by the loop's handler)
      changes nothing but the rolled daily counters. */
  function MarketPass(cfg: AppConfig, e: Engine, accountValue: real, today: int, cache: seq<MarketScanner.Quote>,
                      data: MarketData, exposure: real): (r: Outcome)
    ensures r.engine.risk == ResetDailyStats(e.risk, today)
    ensures !CanTrade(cfg.risk, e.risk, accountValue, today).allowed || SymbolsToScan(cfg, cache).Err? ==>
      r.orders == [] && r.engine == e.(risk := ResetDailyStats(e.risk, today))
    ensures forall k :: k in e.ledger ==> k in r.engine.ledger && r.engine.ledger[k] == e.ledger[k]
    ensures forall k :: k in r.engine.ledger ==>
      k in e.ledger || (SymbolsToScan(cfg, cache).Ok? && k in SymbolsToScan(cfg, cache).value)
    ensures SymbolsToScan(cfg, cache).Ok? ==> |r.orders| <= |SymbolsToScan(cfg, cache).value| * |e.strategies|
    ensures cfg.mode == Paper ==> r.orders == []
  {
    var d := CanTrade(cfg.risk, e.risk, accountValue, today);
    var e1 := e.(risk := d.state);
    if !d.allowed then Outcome(e1, [])
    else
      match SymbolsToScan(cfg, cache)
      case Err(_) => Outcome(e1, [])
      case Ok(symbols) => ScanSymbols(cfg, e1, symbols, data, accountValue, exposure)
  }

  // ---------------------------------------------------------------------------
  // The monitor loops
  // ---------------------------------------------------------------------------

  /** One iteration of `_market_monitor_loop`, taken only while the loop
      condition holds. */
  function MarketLoopStep(cfg: AppConfig, e: Engine, accountValue: real, today: int, cache: seq<MarketScanner.Quote>,
                          data: MarketData, exposure: real): (r: Outcome)
    ensures !LoopsActive(e) ==> r == Outcome(e, [])
    ensures LoopsActive(e) ==> r.engine.risk == ResetDailyStats(e.risk, today)
  {
    if !LoopsActive(e) then Outcome(e, [])
    else MarketPass(cfg, e, accountValue, today, cache, data, exposure)
  }

  /** One iteration of `_position_monitor_loop`, taken only while the loop
      condition holds. */
  function MonitorLoopStep(cfg: AppConfig, e: Engine, positions: seq<BrokerPosition>, prices: map<string, real>): (r: MonitorStep)
    ensures !LoopsActive(e) ==> r == MonitorStep(e, [], None)
    ensures OnlyRetires(cfg, e, r.engine, r.orders)
  {
    if !LoopsActive(e) then MonitorStep(e, [], None)
    else MonitorPass(cfg, e, positions, prices)
  }

  /** A running engine that is stopped and started again reports running,
      but neither loop does anything any more. */
  lemma RestartIsInert(cfg: AppConfig, e: Engine, accountValue: real, today: int, cache: seq<MarketScanner.Quote>,
                       data: MarketData, exposure: real, positions: seq<BrokerPosition>, prices: map<string, real>)
    requires e.running
    ensures var e2 := Start(Stop(e));
      && e2.running
      && MarketLoopStep(cfg, e2, accountValue, today, cache, data, exposure) == Outcome(e2, [])
      && MonitorLoopStep(cfg, e2, positions, prices) == MonitorStep(e2, [], None)
  {
  }
}
